=== FILE: README.md ===
# web2print admin dashboard — a Dafny model of its logic

The admin dashboard of the web2print print shop has two parts:

- a React single-page application that manages fonts, colours and print-option catalogues;
- an Express API over MySQL.

This project models the logic in both parts that does more than move data around:

- **Colour-space conversion.** Adobe RGB (1998) ⇄ sRGB through CIE XYZ, and the `#rrggbb` and `rgb(...)` formatters (`ColorSpace`). The sRGB curves follow section 5 of IEC 61966-2-1. The Adobe RGB gamma and matrices follow section 4.3 of the Adobe RGB (1998) Color Image Encoding.
- **Font files.** The client-side check (`validateFontFile`), the format, family and CSS helpers, the stored-name slug, the path cleaning done before a font is loaded, and the server's upload filter (`FontFiles`).
- **List screens.** The case-insensitive searches (`Search`, `ColorsPage`, `FontsPage`, `CategoryManager`), the 12-per-page windows and page buttons (`Paging`), and the checkbox selection (`Selection`).
- **Colour import and form validation.** The JSON and CSV importers, with their field fallbacks and row-numbered range errors (`ColorImport`, `ColorsPage`).
- **Print-option screens.**
  - The category overview and its built-in defaults (`PrintOptionCategories`).
  - The category manager's loading and bulk delete (`CategoryManager`).
  - The option payload and the two submit paths (`PrintOptionForm`).
  - The price and specification cells (`PrintOptionList`).
- **Navigation.** The path ⇄ page tables, the `/print-options/<id>` rule (`Routing`), and the sidebar's expand and click behaviour (`Sidebar`).
- **SQL assembly.** The generic `insert`/`update`/`delete`/`findOne` builders and the soft deletes (`Sql`), and the print-option queries (`PrintOptionSql`).
  - A statement is a sequence of text fragments and `?` marks plus its parameter list.
  - `Balanced` says the two have the same count.
- **API handlers.** The colour, font, item and print-option routes (`ColorRoutes`, `FontRoutes`, `ItemRoutes`, `PrintOptionRoutes`).
  - Each handler is a function from the request and the database's answers (`Http.Outcome`, `Http.Lookup`) to a reply.
  - The reply holds the status, the error text and the statements the handler sent.

JavaScript values are modelled by `Js.JsValue`, with JavaScript truthiness, `||` and property access.

- `parseInt` on strings is written out: whitespace, sign, the `0x` prefix and the longest digit prefix.
- `parseFloat` and `Number` on strings are parameters (`Js.NumParsers`).
- `Math.pow` with a fractional exponent is a parameter `pow` of the colour functions. The fact `pow(0, e) == 0` for `e > 0` (`ColorSpace.ZeroBase`) is a hypothesis where it is needed.
- `Math.round(x)` is `floor(x + 0.5)`.
- `toLowerCase` maps ASCII letters only.

Only some colour outputs are clamped to [0, 255]:

- The cross-space paths of `convertColor` clamp every channel.
- The same-space path rounds but does not clamp (`ColorSpace.SameSpaceDoesNotClamp`, colorSpace.ts:133-135).
- `getCSSColor` prints the converted channels unclamped; only `getHexColor` clamps (`ColorSpace.CssDoesNotClamp`, colorSpace.ts:152-164).
- Adobe RGB decoding raises a negative channel to a fractional power, which is `NaN` in JavaScript. `NaN` is modelled as `None`, so a negative Adobe RGB channel makes the sRGB colour `None`. The formatters then print `#NaNNaNNaN` and `rgb(NaN, NaN, NaN)` (`ColorSpace.NegativeAdobeIsNaN`).

## Model

| member | source | states |
|---|---|---|
| ColorSpace.SrgbDecode | admin-dashboard/src/utils/colorSpace.ts:69-71 | Decoding is linear (n / 12.92) up to 0.04045, so 0 decodes to 0 |
| ColorSpace.AdobeDecode | admin-dashboard/src/utils/colorSpace.ts:21-23 | NaN exactly for a negative channel; given pow(0,e)=0, a zero channel decodes to 0 |
| ColorSpace.SrgbEncode | admin-dashboard/src/utils/colorSpace.ts:43-45 | A linear value at or below 0.0031308 encodes as 12.92·v, so a non-positive value encodes to a non-positive one |
| ColorSpace.AdobeEncode | admin-dashboard/src/utils/colorSpace.ts:91-93 | A non-positive linear value is floored to 0 before the power, so with pow(0,e)=0 it encodes to 0 |
| ColorSpace.Apply | admin-dashboard/src/utils/colorSpace.ts:26-28 | The matrix stage is a linear map: the zero vector stays zero |
| ColorSpace.Round | admin-dashboard/src/utils/colorSpace.ts:52-56 | Math.round gives the integer n with x - 1/2 < n <= x + 1/2 |
| ColorSpace.Clamp01 | admin-dashboard/src/utils/colorSpace.ts:48-50 | The clamp lands in [0, 1], keeps values already in it and sends non-positive values to 0 |
| ColorSpace.ToByte | admin-dashboard/src/utils/colorSpace.ts:48-56 | Clamp, scale and round always give an integer in [0, 255]; a non-positive value gives 0 and a value of 1 or more gives 255 |
| ColorSpace.AdobeRgbToXyz | admin-dashboard/src/utils/colorSpace.ts:14-31 | NaN exactly when some channel is negative; given pow(0,e)=0, Adobe RGB black maps to the zero XYZ vector |
| ColorSpace.XyzToSrgb | admin-dashboard/src/utils/colorSpace.ts:36-57 | Every channel is a byte, and a channel whose linear value is not positive comes out 0 |
| ColorSpace.SrgbToXyz | admin-dashboard/src/utils/colorSpace.ts:62-79 | sRGB black maps to the zero XYZ vector |
| ColorSpace.XyzToAdobeRgb | admin-dashboard/src/utils/colorSpace.ts:84-105 | Every channel is a byte, and a channel whose linear value is not positive comes out 0 |
| ColorSpace.AdobeRgbToSrgb | admin-dashboard/src/utils/colorSpace.ts:110-113 | NaN exactly when some channel is negative; otherwise three bytes |
| ColorSpace.SrgbToAdobeRgb | admin-dashboard/src/utils/colorSpace.ts:118-121 | sRGB to Adobe RGB gives three bytes |
| ColorSpace.RoundAll | admin-dashboard/src/utils/colorSpace.ts:133-135 | Each channel is rounded to within one half of its input, with no clamp |
| ColorSpace.ConvertColor | admin-dashboard/src/utils/colorSpace.ts:126-147 | NaN only for Adobe RGB to sRGB with a negative channel; equal tags and unknown tag pairs give the rounded input unclamped; the cross-space pairs otherwise give bytes |
| ColorSpace.RoundInteger | admin-dashboard/src/utils/colorSpace.ts:52-56 | Math.round leaves an integer unchanged |
| ColorSpace.SameSpaceIdentity | admin-dashboard/src/utils/colorSpace.ts:133-135 | In-range integer channels pass through the same-space path unchanged |
| ColorSpace.SameSpaceDoesNotClamp | admin-dashboard/src/utils/colorSpace.ts:133-135 | (300, -10, 128) in sRGB to sRGB comes back as (300, -10, 128) |
| ColorSpace.CrossSpaceDispatch | admin-dashboard/src/utils/colorSpace.ts:137-143 | The cross-space pairs are exactly the XYZ pipelines of the two directions |
| ColorSpace.BlackToBlack | admin-dashboard/src/utils/colorSpace.ts:110-121 | Given pow(0,e)=0, black converts to black in both directions |
| ColorSpace.Clamp255 | admin-dashboard/src/utils/colorSpace.ts:162 | The hex clamp lands in [0, 255], keeps in-range values and sends values below and above to 0 and 255 |
| ColorSpace.HexByte | admin-dashboard/src/utils/colorSpace.ts:162 | Two hex digits: the clamped channel divided by 16 and its remainder |
| ColorSpace.HexColor | admin-dashboard/src/utils/colorSpace.ts:160-164 | '#' and six lowercase hex digits, each pair reading back as its clamped channel |
| ColorSpace.GetHexColor | admin-dashboard/src/utils/colorSpace.ts:160-164 | "#NaNNaNNaN" when the conversion is NaN; otherwise seven characters, each pair decoding to the converted channel clamped to [0,255] |
| ColorSpace.HexRoundTrip | admin-dashboard/src/utils/colorSpace.ts:162 | Reading a hex pair back gives the byte it was written from |
| ColorSpace.GetCssColor | admin-dashboard/src/utils/colorSpace.ts:152-155 | "rgb(NaN, NaN, NaN)" when the conversion is NaN; otherwise "rgb(r, g, b)" with the converted channels in decimal, unclamped |
| ColorSpace.CssAgreesWithHex | admin-dashboard/src/utils/colorSpace.ts:152-164 | When the converted channels are bytes, the CSS text carries the numbers the hex text encodes |
| ColorSpace.CssDoesNotClamp | admin-dashboard/src/utils/colorSpace.ts:152-164 | An sRGB red of 300 reaches the CSS text as 300 but the hex text as ff |
| ColorSpace.NegativeAdobeIsNaN | admin-dashboard/src/utils/colorSpace.ts:14-31 | A negative Adobe RGB channel prints as "#NaNNaNNaN" and "rgb(NaN, NaN, NaN)", whatever the other channels |
| Search.FieldMatchesIff | admin-dashboard/src/pages/Colors.tsx:53-55 | A field matches exactly when the lower-cased term occurs in the lower-cased field |
| Search.EmptyTermMatches | admin-dashboard/src/pages/Colors.tsx:53 | Every field contains the empty term |
| Search.MatchIgnoresCase | admin-dashboard/src/pages/Fonts.tsx:37-39 | Matching ignores the case of both the term and the field |
| Search.InfixMatches | admin-dashboard/src/pages/PrintOptionCategoryManager.tsx:112-116 | A field matches any case-insensitive piece of itself |
| ColorsPage.SpaceOf | admin-dashboard/src/pages/Colors.tsx:59 | An empty colour space reads as 'Adobe RGB'; any other as stored |
| ColorsPage.FilterColors | admin-dashboard/src/pages/Colors.tsx:52-62 | A colour is kept iff the search matches a name, display name or spot colour and the space filter is 'all' or equals its space |
| ColorsPage.FilterColorsKeepsOrder | admin-dashboard/src/pages/Colors.tsx:52-62 | Filtering a concatenation filters each part, so order is kept |
| ColorsPage.NoFilterKeepsAll | admin-dashboard/src/pages/Colors.tsx:52-62 | An empty search with 'all' keeps every colour |
| ColorsPage.FilterIgnoresTermCase | admin-dashboard/src/pages/Colors.tsx:53-56 | Lower-casing the term does not change the result |
| ColorsPage.MissingSpaceIsAdobe | admin-dashboard/src/pages/Colors.tsx:58-59 | A colour without a space is listed under 'Adobe RGB' and never under 'sRGB' |
| ColorsPage.SpaceFilterSplits | admin-dashboard/src/pages/Colors.tsx:58-59 | Each colour shown under 'all' with a known space is shown under exactly one space filter |
| ColorsPage.ChannelErrors | admin-dashboard/src/pages/Colors.tsx:186-207 | One error per channel outside its inclusive range, in channel order |
| ColorsPage.FormErrors | admin-dashboard/src/pages/Colors.tsx:174-212 | The error record names a blank name, a blank display name and each out-of-range channel |
| ColorsPage.ValidateFormIff | admin-dashboard/src/pages/Colors.tsx:174-212 | Valid iff both trimmed names are non-empty, RGB in [0,255] and CMYK in [0,100], bounds included |
| ColorsPage.BlankNameRejected | admin-dashboard/src/pages/Colors.tsx:178-184 | A name of only spaces fails even with every channel in range |
| ColorsPage.ImportExtension | admin-dashboard/src/pages/Colors.tsx:274 | The lower-cased text after the last dot, or the whole name when there is none |
| ColorsPage.ImportExtensionIsFinal | admin-dashboard/src/pages/Colors.tsx:274 | The import extension equals the font format extension of the same name |
| ColorsPage.FinalExtensionIff | admin-dashboard/src/pages/Colors.tsx:274 | The final extension is e exactly when the lower-cased name ends in "." + e for a dot-free e |
| ColorsPage.ImportAcceptedIff | admin-dashboard/src/pages/Colors.tsx:274-278 | A name is accepted iff it ends in .csv or .json, in any case |
| ColorImport.ChannelValue | admin-dashboard/src/pages/Colors.tsx:309-315 | The value under the first truthy of the channel's three keys, read with parseFloat (a string cell through its text); 0 when none of the keys is truthy |
| ColorImport.MapItem | admin-dashboard/src/pages/Colors.tsx:305-318 | Each channel as ChannelValue; name from name, then the colorName alias, then imported-color-{i+1}; display name from display_name, the displayName alias, name, then Imported Color {i+1}; spot colour from spot_color, the spotColor alias, then ''; space from color_space, the colorSpace alias, then 'Adobe RGB' |
| ColorImport.RowErrors | admin-dashboard/src/pages/Colors.tsx:321-327 | A "Row n: ..." message for each channel out of range |
| ColorImport.RowErrorsSound | admin-dashboard/src/pages/Colors.tsx:321-327 | Every message of a record names one of its out-of-range channels, so there is no other message |
| ColorImport.RowErrorsArePrefixed | admin-dashboard/src/pages/Colors.tsx:321-327 | The errors of any row are the same messages behind that row's prefix |
| ColorImport.NoRowErrorsIff | admin-dashboard/src/pages/Colors.tsx:321-327 | A record has no error exactly when each channel is in range or NaN |
| ColorImport.AllErrors | admin-dashboard/src/pages/Colors.tsx:321-331 | Exactly the row errors of the records, record i cited as row i + offset |
| ColorImport.AllErrorsInOrder | admin-dashboard/src/pages/Colors.tsx:305-331 | Errors come record by record: two runs of records give the first run's errors, then the second's numbered on from where the first stopped |
| ColorImport.AllErrorsSingle | admin-dashboard/src/pages/Colors.tsx:321-327 | No record gives no error, and one record gives exactly its row errors |
| ColorImport.MapAll | admin-dashboard/src/pages/Colors.tsx:305-318 | Every record is mapped, in order; a null or undefined record fails the whole import |
| ColorImport.JsonItems | admin-dashboard/src/pages/Colors.tsx:302 | An array is taken as is; any other value as a one-element list |
| ColorImport.ParseJson | admin-dashboard/src/pages/Colors.tsx:300-336 | Fails exactly when a record is null or undefined; otherwise colour i is MapItem of record i with the camel-case aliases, and the errors are AllErrors from row 1, in record order |
| ColorImport.JsonSingleObject | admin-dashboard/src/pages/Colors.tsx:302 | A single object imports as one colour, MapItem of the object, whose errors are exactly its row errors at row 1 |
| ColorImport.CsvLines | admin-dashboard/src/pages/Colors.tsx:340 | At least one line, even for a blank file |
| ColorImport.CsvHeaders | admin-dashboard/src/pages/Colors.tsx:341 | One header per comma-separated cell of the header line |
| ColorImport.CsvCells | admin-dashboard/src/pages/Colors.tsx:345 | One trimmed cell per comma-separated field |
| ColorImport.CellOr | admin-dashboard/src/pages/Colors.tsx:349 | A missing trailing cell reads as '' |
| ColorImport.RowObject | admin-dashboard/src/pages/Colors.tsx:346-350 | The record's keys are exactly the headers |
| ColorImport.RowObjectCell | admin-dashboard/src/pages/Colors.tsx:348-350 | A header not repeated later maps to the cell at its position; a repeated one keeps its last cell |
| ColorImport.CsvRecords | admin-dashboard/src/pages/Colors.tsx:344-350 | One record per line after the header |
| ColorImport.CsvRecordCell | admin-dashboard/src/pages/Colors.tsx:344-350 | A non-repeated header maps to the trimmed cell at its position, or '' past the end of the line |
| ColorImport.CsvHeaderOnly | admin-dashboard/src/pages/Colors.tsx:339-344 | A blank file or a header line alone imports nothing |
| ColorImport.ParseCsv | admin-dashboard/src/pages/Colors.tsx:339-382 | Never fails; colour i is MapItem of CSV record i with the lower-case aliases, and the errors are AllErrors from row 2, so each cites the line it came from |
| ColorImport.HandleImportFile | admin-dashboard/src/pages/Colors.tsx:266-298 | A wrong extension gives the type error and no preview; CSV gives ParseCsv's colours and errors; JSON that parses and maps gives ParseJson's colours and errors; JSON that does not parse, or holds a null record, gives one error carrying the reason and no preview |
| FontFiles.DottedSuffix | admin-dashboard/src/utils/fileUpload.ts:29 | The lower-cased name from its last dot on, or the whole lower-cased name without a dot |
| FontFiles.ValidateFontFile | admin-dashboard/src/utils/fileUpload.ts:11-35 | Over 5 MiB fails with the size message first; otherwise valid iff the name has a dot and its final extension is ttf, otf, woff or woff2 |
| FontFiles.DottedExtensions | admin-dashboard/src/utils/fileUpload.ts:21-30 | The dotted suffix is allowed iff the name has a dot and its final extension is an allowed format |
| FontFiles.NoDotRejected | admin-dashboard/src/utils/fileUpload.ts:29-32 | A name without a dot is rejected whatever its size |
| FontFiles.ValidationIgnoresCase | admin-dashboard/src/utils/fileUpload.ts:29 | Lower-casing the name does not change the verdict |
| Text.FinalExtension | admin-dashboard/src/utils/fileUpload.ts:38-41 | getFontFormat: dot-free, the whole lower-cased name without a dot, else the text after the last dot |
| FontFiles.ReplaceRuns | admin-dashboard/src/utils/fileUpload.ts:48 | Each character is the replacement or a non-space character of the input; with a whitespace replacement no two replacements are adjacent |
| FontFiles.ReplaceRunsRun | admin-dashboard/src/utils/fileUpload.ts:48 | A whitespace run after whitespace-free text becomes exactly one replacement character, and the rest is processed from the first character after the run |
| FontFiles.ReplaceRunsNoSpace | admin-dashboard/src/utils/fileUpload.ts:48 | Text without whitespace is unchanged |
| FontFiles.TrimKeeps | admin-dashboard/src/utils/fileUpload.ts:49 | trim keeps every letter and digit, in order |
| FontFiles.ReplaceRunsKeeps | admin-dashboard/src/utils/fileUpload.ts:48 | The run replacement keeps every letter and digit, in order |
| FontFiles.Stem | admin-dashboard/src/utils/fileUpload.ts:45 | The text before the last dot; empty without a dot |
| FontFiles.GenerateFontFamily | admin-dashboard/src/utils/fileUpload.ts:44-50 | Only ASCII letters, digits and single inner spaces, no space at either end |
| FontFiles.FamilyJoinsWords | admin-dashboard/src/utils/fileUpload.ts:44-50 | For a stem made of two space-free words x and y with a run of spaces between them and an extension without dots, the family is the alphanumerics of x, one space, then the alphanumerics of y |
| FontFiles.FamilyKeepsAlnum | admin-dashboard/src/utils/fileUpload.ts:44-50 | The family keeps exactly the stem's letters and digits, in order |
| FontFiles.MyFontExample | admin-dashboard/src/utils/fileUpload.ts:45-47 | "My.Font.ttf" gives "MyFont" |
| FontFiles.UnspacedFamily | admin-dashboard/src/utils/fileUpload.ts:48-49 | A filtered stem without whitespace is the family unchanged |
| FontFiles.CreateFontFaceCss | admin-dashboard/src/utils/fileUpload.ts:53-61 | The trimmed template is exactly the @font-face rule naming the family and the path, with font-display swap |
| FontFiles.NameSlug | admin-dashboard/src/pages/Fonts.tsx:223 | The slug holds only characters of [a-z0-9.-] |
| FontFiles.SlugJoinsWords | admin-dashboard/src/pages/Fonts.tsx:223 | Two whitespace-free words separated by a whitespace run give the two slugs joined by one '-' |
| FontFiles.SlugKeepsAlnum | admin-dashboard/src/pages/Fonts.tsx:223 | The slug keeps every lower-case letter and digit of the lower-cased name, in order |
| FontFiles.SlugIdempotent | admin-dashboard/src/pages/Fonts.tsx:223 | A slug is its own slug |
| FontFiles.CleanPath | admin-dashboard/src/pages/Fonts.tsx:147 | "/uploads/x" gives x (path[9..]); "uploads/x" gives x (path[8..]); any other "/x" gives x (path[1..]); a path starting with neither / nor uploads/ is unchanged |
| FontFiles.SlashThenUploads | admin-dashboard/src/pages/Fonts.tsx:147 | A slash followed by "uploads/" is a "/uploads/" path, and an "uploads/" path has no leading slash, so the two replacements never both apply to an "uploads/" path |
| FontFiles.FontUrl | admin-dashboard/src/pages/Fonts.tsx:147-148 | Every font URL starts with the uploads base URL |
| FontFiles.FontUrlIgnoresPrefix | admin-dashboard/src/pages/Fonts.tsx:147-148 | /uploads/fonts/a.ttf and fonts/a.ttf load from the same URL |
| FontFiles.FontToLoad | admin-dashboard/src/pages/Fonts.tsx:143-146 | A font loads only when its path and family are both non-empty |
| FontFiles.ExtName | admin-dashboard/backend/src/routes/fonts.ts:31 | Empty, or a dot followed by no slash; for a plain name, the text from its last dot unless that dot is the first character |
| FontFiles.AllowedTypes | admin-dashboard/backend/src/routes/fonts.ts:30 | The setting split at commas, or ttf, otf, woff, woff2 when unset |
| FontFiles.UploadAccepted | admin-dashboard/backend/src/routes/fonts.ts:29-38 | Accepted iff the lower-cased extension without its dot is in the allowed list |
| FontFiles.UploadFilterAgreesWithClient | admin-dashboard/backend/src/routes/fonts.ts:29-38 | With the default list the server and client checks agree, except on names whose only dot is the first character |
| FontFiles.DotFileDisagreement | admin-dashboard/backend/src/routes/fonts.ts:31 | ".ttf" passes the client check but not the server filter |
| FontFiles.StoredFileName | admin-dashboard/backend/src/routes/fonts.ts:18-21 | The stored name ends with the original name's extension |
| FontFiles.UploadedFilePath | admin-dashboard/backend/src/routes/fonts.ts:79 | The path starts with /uploads/fonts/ |
| FontFiles.UploadedFontUrl | admin-dashboard/backend/src/routes/fonts.ts:79 | An uploaded font loads from the uploads URL under fonts/ and its stored name |
| FontsPage.FilterFonts | admin-dashboard/src/pages/Fonts.tsx:35-45 | A font is kept iff the search matches name, display name or family and the filter is 'all' or the lower-cased format |
| FontsPage.FilterFontsKeepsOrder | admin-dashboard/src/pages/Fonts.tsx:35-45 | Filtering a concatenation filters each part |
| FontsPage.NoFilterKeepsAll | admin-dashboard/src/pages/Fonts.tsx:35-45 | An empty search with 'all' keeps every font |
| FontsPage.FilterIgnoresTermCase | admin-dashboard/src/pages/Fonts.tsx:36-39 | Lower-casing the term does not change the result |
| FontsPage.FormatFilterCases | admin-dashboard/src/pages/Fonts.tsx:41-42 | The format filter ignores the stored format's case; a font without a format shows only under 'all' |
| FontsPage.RejectionLines | admin-dashboard/src/pages/Fonts.tsx:172-180 | One line per rejected file |
| FontsPage.RejectionLinesInOrder | admin-dashboard/src/pages/Fonts.tsx:172-180 | The lines come file by file: a split pick gives the first part's lines followed by the second's |
| FontsPage.RejectionLineOfFile | admin-dashboard/src/pages/Fonts.tsx:172-180 | A valid file gives no line; a rejected one gives "<name>: <error>" |
| FontsPage.HandleFileSelect | admin-dashboard/src/pages/Fonts.tsx:160-188 | An empty pick changes nothing; otherwise the valid files are selected, there is an error iff some file is invalid, and its text is the fixed header followed by one "<name>: <error>" line per rejected file, joined by newlines |
| FontsPage.PickPartitions | admin-dashboard/src/pages/Fonts.tsx:160-188 | Each picked file is either selected or reported, and the selection keeps the pick order |
| FontsPage.OversizedFileReported | admin-dashboard/src/pages/Fonts.tsx:160-188 | A file over the size limit is always reported |
| FontsPage.UploadPayload | admin-dashboard/src/pages/Fonts.tsx:217-230 | The name is NameSlug of the file name, the family GenerateFontFamily of it, the display name the family, the format FinalExtension of it; file name, path and size as given |
| FontsPage.ValidFileFormat | admin-dashboard/src/pages/Fonts.tsx:217 | A file that passed validation is saved with one of the four formats |
| FontsPage.EmptyFamilyWithoutAlnum | admin-dashboard/src/pages/Fonts.tsx:218-219 | A stem without letters or digits gives an empty family |
| FontsPage.ValidFileEmptyFamily | admin-dashboard/src/pages/Fonts.tsx:217-230 | "-.ttf" passes validation and is saved with an empty family and display name |
| Paging.TotalPages | admin-dashboard/src/pages/Fonts.tsx:47 | The fewest pages of 12 that hold n items; zero exactly when there are no items |
| Paging.SliceIndex | admin-dashboard/src/pages/Fonts.tsx:49 | A slice index resolved as JavaScript does, always within [0, len] |
| Paging.Slice | admin-dashboard/src/pages/Fonts.tsx:49 | In-range bounds give the items between them; the result is never longer than the list |
| Paging.Page | admin-dashboard/src/pages/Fonts.tsx:48-49 | Page p >= 1 holds the items at positions [min((p-1)·12, n), min(p·12, n)), at most 12 |
| Paging.PagesPartition | admin-dashboard/src/pages/Fonts.tsx:47-49 | Pages 1 to TotalPages concatenated give back the list |
| Paging.PageSizes | admin-dashboard/src/pages/PrintOptionCategoryManager.tsx:117-121 | Pages up to TotalPages are non-empty, later ones empty, and only the last may be short |
| Paging.ItemOnPage | admin-dashboard/src/pages/Colors.tsx:64-66 | Item k is item k % 12 of page k / 12 + 1, and that page exists |
| Paging.PrevPage | admin-dashboard/src/pages/Fonts.tsx:429 | Never below 1; one back from any page after the first |
| Paging.NextPage | admin-dashboard/src/pages/Fonts.tsx:453 | Never above the page count; one forward from any page before the last |
| Paging.ButtonsStayInRange | admin-dashboard/src/pages/Fonts.tsx:428-456 | From a page in [1, totalPages] both buttons stay in range and move by at most one |
| Paging.ShowingMatchesPage | admin-dashboard/src/pages/PrintOptionCategoryManager.tsx:780 | "Showing a to b" names exactly the displayed items, a 1-based inclusive range as long as the page |
| Selection.SelectOne | admin-dashboard/src/pages/Fonts.tsx:94-102 | The id is in the result iff checked; every other id is unchanged |
| Selection.SelectPage | admin-dashboard/src/pages/Colors.tsx:131-142 | Visible ids become selected iff checked; ids of other pages are unchanged |
| Selection.PageFullySelectedIff | admin-dashboard/src/pages/Fonts.tsx:65-69 | The flag is set iff the page is non-empty and every visible id is selected |
| Selection.SelectPageSetsFlag | admin-dashboard/src/pages/Fonts.tsx:104-115 | Select-all on a non-empty page sets the flag; clearing unsets it |
| Selection.ToggleAll | admin-dashboard/src/pages/PrintOptionCategoryManager.tsx:529-535 | Equal lengths clear the selection; otherwise it becomes the page ids |
| Selection.ToggleAllComparesLengths | admin-dashboard/src/pages/PrintOptionCategoryManager.tsx:529-535 | One id picked on another page is cleared by select-all on a one-item page, not replaced |
| Selection.SelectOption | admin-dashboard/src/pages/PrintOptionCategoryManager.tsx:537-543 | Membership of the id flips and every other id is unchanged |
| Selection.DeleteSelected | admin-dashboard/src/pages/PrintOptionCategoryManager.tsx:550 | The options left are exactly those whose id is not selected |
| Selection.DeleteSelectedKeepsOrder | admin-dashboard/src/pages/PrintOptionCategoryManager.tsx:550 | The survivors keep their order |
| Selection.DeleteNothing | admin-dashboard/src/pages/PrintOptionCategoryManager.tsx:550 | An empty selection deletes nothing |
| Selection.ListSelectAll | admin-dashboard/src/components/PrintOptions/PrintOptionList.tsx:23-29 | Every option id in list order, or nothing |
| Selection.ListSelectOption | admin-dashboard/src/components/PrintOptions/PrintOptionList.tsx:31-37 | Checking appends the id even when present; unchecking removes every occurrence |
| Selection.ListSelectAllHeader | admin-dashboard/src/components/PrintOptions/PrintOptionList.tsx:92 | Select-all ticks the header; clearing unticks it unless the list is empty |
| Selection.HeaderCountsDuplicates | admin-dashboard/src/components/PrintOptions/PrintOptionList.tsx:31-37 | Checking one option twice in a two-item list ticks the header |
| Selection.BeginDelete | admin-dashboard/src/components/PrintOptions/PrintOptionList.tsx:42 | The id is in flight once its delete starts, and earlier ids stay in flight |
| Selection.DeleteSettles | admin-dashboard/src/components/PrintOptions/PrintOptionList.tsx:42-52 | Start then settle restores the in-flight list when the id was not pending |
| CategoryManager.FallbackCategory | admin-dashboard/src/pages/PrintOptionCategoryManager.tsx:135-143 | Id as given, the same letters with the first upper-cased, print-option type, "Manage <id> options", zero options, active |
| CategoryManager.LoadCategoryAndOptions | admin-dashboard/src/pages/PrintOptionCategoryManager.tsx:129-183 | The fetched category or the fallback, and the returned options or none |
| CategoryManager.LoadIsIndependent | admin-dashboard/src/pages/PrintOptionCategoryManager.tsx:148-175 | A failed category request still leaves a category of the requested id, and the two requests do not affect each other |
| CategoryManager.EmptySearchKeepsAll | admin-dashboard/src/pages/PrintOptionCategoryManager.tsx:112-116 | The empty search keeps every option |
| CategoryManager.FilterOptionsKeepsOrder | admin-dashboard/src/pages/PrintOptionCategoryManager.tsx:112-116 | Filtering a concatenation filters each part |
| CategoryManager.FilterOptions | admin-dashboard/src/pages/PrintOptionCategoryManager.tsx:112-116 | An option is kept iff its name or display name contains the lower-cased term, or it has a non-empty description that does |
| CategoryManager.MissingDescriptionIgnored | admin-dashboard/src/pages/PrintOptionCategoryManager.tsx:115 | Without a description an option is found only by name or display name |
| CategoryManager.BulkDelete | admin-dashboard/src/pages/PrintOptionCategoryManager.tsx:545-551 | The selected options are dropped and the selection is cleared |
| CategoryManager.BulkDeleteKeepsOrder | admin-dashboard/src/pages/PrintOptionCategoryManager.tsx:550-551 | The survivors keep their order; an empty selection removes nothing |
| PrintOptionCategories.PrintCategories | admin-dashboard/src/pages/PrintOptions.tsx:127 | Exactly the print-option categories, in load order |
| PrintOptionCategories.ProductionCategories | admin-dashboard/src/pages/PrintOptions.tsx:128 | Exactly the production-option categories, in load order |
| PrintOptionCategories.SectionsDisjoint | admin-dashboard/src/pages/PrintOptions.tsx:127-128 | No category is in both sections; one of another type is in neither |
| PrintOptionCategories.SectionsCover | admin-dashboard/src/pages/PrintOptions.tsx:127-128 | With only the two types, each category is listed exactly once |
| PrintOptionCategories.SectionsKeepOrder | admin-dashboard/src/pages/PrintOptions.tsx:127-128 | Each section of a concatenation is the concatenation of the sections |
| PrintOptionCategories.LoadCategories | admin-dashboard/src/pages/PrintOptions.tsx:113-125 | The server's categories, or exactly the ten default categories when the request fails |
| PrintOptionCategories.DefaultsDistinct | admin-dashboard/src/pages/PrintOptions.tsx:14-107 | Ten defaults with distinct ids, all active and with no options |
| PrintOptionCategories.DefaultSections | admin-dashboard/src/pages/PrintOptions.tsx:14-107 | Seven defaults are print options and three production options |
| PrintOptionForm.BuildPayload | admin-dashboard/src/components/PrintOptions/PrintOptionForm.tsx:39-55 | Texts copied; paper carries the three parsed measurements and the parsed per-unit price; other categories send empty objects |
| PrintOptionForm.PaperMeasurementsReadBack | admin-dashboard/src/components/PrintOptions/PrintOptionForm.tsx:44-48 | Each paper measurement reads back as the number parsed from its field, or NaN |
| PrintOptionForm.OtherCategoriesIgnoreMeasurements | admin-dashboard/src/components/PrintOptions/PrintOptionForm.tsx:44-52 | Outside paper, forms differing only in measurements and price send the same request |
| PrintOptionForm.DialogSubmit | admin-dashboard/src/components/PrintOptions/PrintOptionForm.tsx:32-75 | The request is sent; success resets, closes, then notifies; failure keeps the form |
| PrintOptionForm.ManagerSubmit | admin-dashboard/src/pages/PrintOptionCategoryManager.tsx:43-91 | Nothing before a category is loaded; otherwise the same request, and success resets, closes and reloads |
| PrintOptionForm.SubmitPathsAgree | admin-dashboard/src/pages/PrintOptionCategoryManager.tsx:52-67 | Both submit paths send the same request and leave the same form |
| PrintOptionForm.BlankFormSubmit | admin-dashboard/src/components/PrintOptions/PrintOptionForm.tsx:59-68 | A success leaves the blank form, and DialogSubmit on the blank form builds empty texts and NaN paper numbers |
| PrintOptionList.FormatPrice | admin-dashboard/src/components/PrintOptions/PrintOptionList.tsx:55-60 | 'N/A' unless basePrice is truthy, else '$' and the two-decimal price |
| PrintOptionList.PriceShownIff | admin-dashboard/src/components/PrintOptions/PrintOptionList.tsx:55-60 | 'N/A' exactly when there is no truthy base price; a shown price starts with '$' |
| PrintOptionList.FormatSpecifications | admin-dashboard/src/components/PrintOptions/PrintOptionList.tsx:62-67 | The weight, width and height as the template renders them when all are truthy, else 'N/A' |
| PrintOptionList.SpecificationsShownIff | admin-dashboard/src/components/PrintOptions/PrintOptionList.tsx:62-67 | 'N/A' exactly when one measurement is falsy |
| PrintOptionList.CreatedPriceShown | admin-dashboard/src/components/PrintOptions/PrintOptionList.tsx:55-60 | A created paper option shows its price iff the price field parses to a non-zero number |
| PrintOptionList.CreatedSpecificationsShown | admin-dashboard/src/components/PrintOptions/PrintOptionList.tsx:62-67 | A created paper option shows its specifications unless a measurement does not parse or is zero |
| Routing.PageToPath | admin-dashboard/src/components/Sidebar.tsx:20-39 | Every sidebar path starts with / |
| Routing.CategoryPage | admin-dashboard/src/App.tsx:34-37 | Print options iff the path is /print-options/ and one non-empty segment without a slash |
| Routing.CurrentPage | admin-dashboard/src/App.tsx:44 | The exact path first, then the category rule, then the dashboard |
| Routing.PathRoundTrip | admin-dashboard/src/App.tsx:11-31 | Following the sidebar's path for any page lands on that page |
| Routing.PageToPathInjective | admin-dashboard/src/components/Sidebar.tsx:20-39 | The 18 sidebar paths are pairwise distinct |
| Routing.EveryPageReachable | admin-dashboard/src/App.tsx:11-31 | Every page is named by some listed path |
| Routing.OnlyDashboardHasTwoPaths | admin-dashboard/src/App.tsx:12-13 | '/' and '/dashboard' name the dashboard; every other listed path is its page's sidebar path |
| Routing.CategoryResolves | admin-dashboard/src/App.tsx:34-44 | /print-options/<id> resolves to the print-options page |
| Routing.CategoryPathsNotListed | admin-dashboard/src/App.tsx:44 | No listed path matches the category rule, so lookup order does not matter |
| Routing.MalformedCategoryPaths | admin-dashboard/src/App.tsx:34-37 | /print-options/ and /print-options/a/b fall back to the dashboard |
| Sidebar.ToggleExpanded | admin-dashboard/src/components/Sidebar.tsx:94-100 | An absent label is appended; a present one is removed wherever it occurs |
| Sidebar.ToggleRestores | admin-dashboard/src/components/Sidebar.tsx:94-100 | Expanding then collapsing restores the list |
| Sidebar.Click | admin-dashboard/src/components/Sidebar.tsx:128-134 | A group toggles while open; otherwise an entry with a page navigates; else nothing |
| Sidebar.ClickFlipsSubmenu | admin-dashboard/src/components/Sidebar.tsx:128-134 | In the open sidebar a group click flips its submenu's visibility and no other group's |
| Sidebar.CollapsedClick | admin-dashboard/src/components/Sidebar.tsx:128-134 | Collapsed, a click never changes the expanded groups, and a group without a page does nothing |
| Sidebar.ItemPages | admin-dashboard/src/components/Sidebar.tsx:49-92 | An entry's pages are its own, then those of its group |
| Sidebar.EntryPagesInMenu | admin-dashboard/src/components/Sidebar.tsx:49-92 | Every page an entry reaches is a menu page |
| Sidebar.MenuReachesEveryPage | admin-dashboard/src/components/Sidebar.tsx:49-92 | Every page is reachable from the menu and navigating there makes it current |
| Sql.MarksJoin | admin-dashboard/backend/src/services/database.ts:24-25 | Joining parts of k marks each with a plain separator gives k marks per part |
| Sql.RenderJoin | admin-dashboard/backend/src/services/database.ts:24-25 | The text of a join is the join of the texts |
| Sql.MarkList | admin-dashboard/backend/src/services/database.ts:25 | n parts, each one placeholder |
| Sql.Assignments | admin-dashboard/backend/src/services/database.ts:39 | One "key = ?" per column |
| Sql.Insert | admin-dashboard/backend/src/services/database.ts:22-30 | One column and one placeholder per key; the parameters are the values in key order |
| Sql.Update | admin-dashboard/backend/src/services/database.ts:33-45 | One "key = ?" per key; the data values, then the WHERE parameters |
| Sql.UpdateById | admin-dashboard/backend/src/services/database.ts:33-45 | An update by id renders "UPDATE <table> SET <k = ?, ...> WHERE id = ?" and binds the data values and then the id; balanced |
| Sql.UpdateBalanced | admin-dashboard/backend/src/services/database.ts:33-45 | An update is balanced iff its WHERE text is |
| Sql.Delete | admin-dashboard/backend/src/services/database.ts:48-52 | "DELETE FROM <table> WHERE" and the WHERE text; the parameters are the WHERE parameters as given |
| Sql.FindOne | admin-dashboard/src/services/database.ts:16-19 | The first row, or nothing for no rows |
| Sql.SoftDelete | admin-dashboard/backend/src/services/database.ts:254-256 | Exactly "UPDATE <table> SET is_active = ?, updated_at = ? WHERE id = ?", binding false, the timestamp and the id |
| Sql.SoftDeleteIsUpdate | admin-dashboard/src/services/database.ts:191-193 | A soft delete is an UPDATE, never a DELETE |
| Sql.DeleteFont | admin-dashboard/backend/src/services/database.ts:191-193 | deleteFont is the soft delete of the fonts row with that id, never a DELETE |
| Sql.DeleteColor | admin-dashboard/backend/src/services/database.ts:254-256 | deleteColor is the soft delete of the colors row with that id, never a DELETE |
| Selection.EndDelete | admin-dashboard/src/components/PrintOptions/PrintOptionList.tsx:51 | The settled id leaves the in-flight list; every other id is kept |
| PrintOptionSql.OptionFilter | admin-dashboard/backend/src/services/database.ts:284-291 | Exactly "WHERE category_id = ? AND is_active = TRUE" bound to the category; with a non-empty search, followed by " AND (name LIKE ? OR display_name LIKE ? OR description LIKE ?)" and %search% three times |
| PrintOptionSql.Window | admin-dashboard/backend/src/services/database.ts:281-282 | Page 1 and limit 12 when missing; offset (page-1)·limit |
| PrintOptionSql.WindowIsClientPage | admin-dashboard/backend/src/services/database.ts:281-297 | With the default limit, server page p holds the client's page p |
| PrintOptionSql.ListOptions | admin-dashboard/backend/src/services/database.ts:276-306 | The SELECT of the ten option columns, the filter, then " ORDER BY sort_order ASC, display_name ASC LIMIT <limit> OFFSET <offset>"; the filter's parameters; balanced |
| PrintOptionSql.CountOptions | admin-dashboard/backend/src/services/database.ts:308-325 | "SELECT COUNT(*) as count FROM print_options " followed by the same filter text and parameters; balanced |
| PrintOptionSql.ListAndCountAgree | admin-dashboard/backend/src/services/database.ts:276-325 | The list and the count bind the same filter values |
| PrintOptionSql.CountFromRows | admin-dashboard/backend/src/services/database.ts:324 | The first row's count when truthy, else 0 |
| PrintOptionSql.OptionId | admin-dashboard/backend/src/services/database.ts:336 | Starts with the category id and '_' |
| PrintOptionSql.CreateOption | admin-dashboard/backend/src/services/database.ts:327-353 | "INSERT INTO print_options (id, category_id, name, display_name, description, specifications, pricing, sort_order, created_at, updated_at) VALUES (" with eight "?" joined by ", ", then ", NOW(), NOW())"; eight values for the eight marks |
| PrintOptionSql.OptionValues | admin-dashboard/backend/src/services/database.ts:341-350 | The eight values in column order: the generated id, the category, name and display name as given, description or null when falsy, the JSON of specifications and pricing, sort order or 0 when falsy |
| PrintOptionSql.UpdateSets | admin-dashboard/backend/src/services/database.ts:359-386 | Each of name, display name, specifications and pricing is assigned iff truthy (the last two JSON-encoded); description, is_active and sort_order iff not undefined; at most seven assignments |
| PrintOptionSql.Include | admin-dashboard/backend/src/services/database.ts:359-390 | One assignment when present, none otherwise |
| PrintOptionSql.UpdateSetsEmptyIff | admin-dashboard/backend/src/services/database.ts:359-394 | Nothing is set iff no field qualifies |
| PrintOptionSql.UpdateSkipsEmptyName | admin-dashboard/backend/src/services/database.ts:359-390 | A falsy name is not set; an explicit null description is |
| PrintOptionSql.UpdateOption | admin-dashboard/backend/src/services/database.ts:355-400 | No statement when nothing is set; else "UPDATE print_options SET " with one "k = ?" per set column joined by ", ", then ", updated_at = NOW() WHERE id = ?", bound to the set values and then the id |
| PrintOptionSql.DeleteOption | admin-dashboard/backend/src/services/database.ts:402-405 | Exactly "DELETE FROM print_options WHERE id = ?" bound to the id alone |
| PrintOptionSql.BulkDelete | admin-dashboard/backend/src/services/database.ts:407-417 | No statement for no ids; otherwise one placeholder per id bound to the ids in order |
| Http.InsertReply | admin-dashboard/backend/src/routes/colors.ts:82-86 | 201 with the one insert, or 500 when it throws |
| Http.WriteReply | admin-dashboard/backend/src/routes/colors.ts:139-147 | 200 iff rows were affected, 404 on none, 500 on an exception |
| Http.FetchReply | admin-dashboard/backend/src/routes/colors.ts:18-34 | 400 for a NaN id, 404 for no row, 500 on an exception, 200 otherwise; nothing written |
| Js.ParseFloat | admin-dashboard/backend/src/routes/items.ts:50 | parseFloat: numbers as they are, strings and arrays through their text, anything else NaN |
| Js.ToNumber | admin-dashboard/backend/src/routes/colors.ts:59-67 | The number a comparison uses: undefined and objects are NaN, null is 0, an array goes through its text |
| Js.ParseIntValue | admin-dashboard/backend/src/routes/colors.ts:72-78 | parseInt: strings parsed, numbers truncated, an empty array NaN, other non-arrays NaN |
| Js.ParseIntValueReadsText | admin-dashboard/backend/src/routes/colors.ts:72-78 | When String(n) is positional, parseInt of any value is parseInt of the value's text, arrays included |
| Js.ArrayTextFirst | admin-dashboard/backend/src/routes/fonts.ts:120 | parseInt of an array's text reads its first element's text; NaN for none, null or undefined |
| Js.ParseIntStopsAtComma | admin-dashboard/backend/src/routes/fonts.ts:120 | Nothing after a comma changes parseInt |
| Seqs.FilterMembers | admin-dashboard/src/pages/Colors.tsx:52-62 | Array.filter keeps exactly the elements that pass |
| Seqs.RemoveAllIsFilter | admin-dashboard/src/components/Sidebar.tsx:97 | Removing a value is the array filter that keeps every other element, in order and with repetitions |
| ColorRoutes.CheckColor | admin-dashboard/backend/src/routes/colors.ts:54-67 | Passes iff both names are truthy and no RGB or CMYK channel compares out of range (an array compared through its text); names are checked first |
| ColorRoutes.ArrayChannelCoerced | admin-dashboard/backend/src/routes/colors.ts:59-80 | A channel sent as [300] is refused by the RGB check and parsed as 300 |
| ColorRoutes.ColorRow | admin-dashboard/backend/src/routes/colors.ts:69-80 | Names as sent, channels through parseInt (an array through its first element), spot colour or null |
| ColorRoutes.GetColor | admin-dashboard/backend/src/routes/colors.ts:18-34 | Succeeds iff the id parses and the row exists; nothing written |
| ColorRoutes.CreateColor | admin-dashboard/backend/src/routes/colors.ts:38-87 | A failed check is a 400 with no write; otherwise the single write is the insert into colors of the record (name, display name, the seven channels, spot colour) followed by created_at and updated_at |
| ColorRoutes.UpdateColor | admin-dashboard/backend/src/routes/colors.ts:90-148 | The id is checked first; a valid request's single write is the colour update of the record and updated_at by id; no row is a 404 |
| ColorRoutes.ColorUpdate | admin-dashboard/backend/src/services/database.ts:236-252 | "UPDATE colors SET " with one "k = ?" for each record column and updated_at, then " WHERE id = ?"; bound to the record values, the timestamp and the id; balanced |
| ColorRoutes.DeleteColor | admin-dashboard/backend/src/routes/colors.ts:151-167 | The single write is the soft delete (an UPDATE setting is_active to false and updated_at) of the parsed id; no row is a 404 |
| ColorRoutes.InRangeChannelsAccepted | admin-dashboard/backend/src/routes/colors.ts:59-67 | Bounds are inclusive: names and in-range channels pass |
| ColorRoutes.OutOfRangeChannelRejected | admin-dashboard/backend/src/routes/colors.ts:59-67 | An out-of-range channel is refused with its range's message, RGB before CMYK |
| ColorRoutes.NamesCheckedFirst | admin-dashboard/backend/src/routes/colors.ts:54-56 | A missing name is reported whatever the channels hold |
| ColorRoutes.MissingChannelPassesAsNaN | admin-dashboard/backend/src/routes/colors.ts:59-80 | An absent channel passes the checks and is stored as NaN |
| ColorRoutes.AcceptedChannelStoredInRange | admin-dashboard/backend/src/routes/colors.ts:69-80 | An accepted numeric channel is stored as a whole number within its range |
| ColorRoutes.SpotColorStored | admin-dashboard/backend/src/routes/colors.ts:79 | An empty spot colour is stored as null, any other as sent |
| ColorRoutes.CreateAndUpdateAgree | admin-dashboard/backend/src/routes/colors.ts:69-130 | Create and update bind the same record for the same body |
| ColorRoutes.DeleteIsSoft | admin-dashboard/backend/src/routes/colors.ts:151-167 | The delete is not a DELETE statement and binds false for is_active |
| FontRoutes.FontRow | admin-dashboard/backend/src/routes/fonts.ts:115-124 | The required fields as sent, file size through parseInt (arrays included) or 0, uploader parsed when truthy else null |
| FontRoutes.GetFont | admin-dashboard/backend/src/routes/fonts.ts:53-69 | Succeeds iff the id parses and the row exists; nothing written |
| FontRoutes.UploadReply | admin-dashboard/backend/src/routes/fonts.ts:73-94 | No file is refused; otherwise the path /uploads/fonts/ + stored name, with original name and size |
| FontRoutes.CreateFont | admin-dashboard/backend/src/routes/fonts.ts:97-131 | Refused iff a required field is falsy; otherwise the single write is the insert into fonts of the record followed by created_at and updated_at |
| FontRoutes.DeleteFont | admin-dashboard/backend/src/routes/fonts.ts:134-170 | 400 for a NaN id, 404 or 500 from the lookup with no write, else a soft delete; no row is a 404 |
| FontRoutes.EachFieldRequired | admin-dashboard/backend/src/routes/fonts.ts:111-113 | Any one falsy required field refuses the request |
| FontRoutes.FileSizeStored | admin-dashboard/backend/src/routes/fonts.ts:120 | An unparsable size is stored as 0; a decimal size as its number |
| FontRoutes.UploaderStored | admin-dashboard/backend/src/routes/fonts.ts:123 | A falsy uploader is null; a decimal one its number |
| FontRoutes.UploadPathServed | admin-dashboard/backend/src/routes/fonts.ts:79 | The client loads an uploaded font from the uploads folder under its stored name |
| FontRoutes.VanishedFontNotFound | admin-dashboard/backend/src/routes/fonts.ts:146-152 | A found font whose update affects no row is a 404 after one write |
| ItemRoutes.ItemRow | admin-dashboard/backend/src/routes/items.ts:47-53 | Name and category as sent, price through parseFloat (an array through its text), stock through parseInt or 0, description as sent |
| ItemRoutes.Convert | admin-dashboard/backend/src/routes/items.ts:71-77 | Price and stock become numbers or NaN, arrays read through their text; other fields pass unchanged |
| ItemRoutes.ConvertAgreesWithCreate | admin-dashboard/backend/src/routes/items.ts:47-77 | Update converts the price as create does, and a parsable stock too |
| ItemRoutes.Changes | admin-dashboard/backend/src/routes/items.ts:69-77 | Only defined fields, each converted |
| ItemRoutes.GetItem | admin-dashboard/backend/src/routes/items.ts:18-34 | Succeeds iff the id parses and the row exists; nothing written |
| ItemRoutes.CreateItem | admin-dashboard/backend/src/routes/items.ts:38-60 | Refused iff name or category is falsy or price undefined; otherwise the single write is the insert into items of the record followed by created_at and updated_at |
| ItemRoutes.UpdateItem | admin-dashboard/backend/src/routes/items.ts:63-90 | A NaN id is a 400; otherwise the single write is the item update of the defined, converted fields by id; no row is a 404 |
| ItemRoutes.UpdateStatement | admin-dashboard/backend/src/services/database.ts:91-102 | "UPDATE items SET " with one "k = ?" for each given field and updated_at, then " WHERE id = ?"; bound to the field values, the timestamp and the id; balanced |
| ItemRoutes.DeleteItem | admin-dashboard/backend/src/routes/items.ts:93-111 | A NaN id is a 400; otherwise DELETE FROM items by id; no row is a 404 |
| ItemRoutes.ChangesAreDefinedFields | admin-dashboard/backend/src/routes/items.ts:71-77 | The update's columns are exactly the defined fields, in handler order |
| ItemRoutes.EmptyBodyTouchesOnlyTimestamp | admin-dashboard/backend/src/routes/items.ts:69-79 | An empty body binds only the timestamp and the id |
| ItemRoutes.UpdateBindsNoUndefined | admin-dashboard/backend/src/routes/items.ts:71-77 | The update never binds undefined |
| ItemRoutes.CreateBindsUndefinedDescription | admin-dashboard/backend/src/routes/items.ts:47-53 | The create binds a missing description as undefined |
| ItemRoutes.ZeroPriceAccepted | admin-dashboard/backend/src/routes/items.ts:43-45 | A zero price is accepted; an empty name is not |
| ItemRoutes.UnparsedStock | admin-dashboard/backend/src/routes/items.ts:51-75 | An unparsable stock is stored as 0 on create and NaN on update |
| PrintOptionRoutes.MapCategory | admin-dashboard/backend/src/routes/printOptions.ts:13-25 | Exactly the keys id, name, type, description, icon, sortOrder, createdAt, isActive and optionCount; the first five copied from the row, sortOrder and createdAt from sort_order and created_at, isActive as the truth of is_active, the option count as given |
| PrintOptionRoutes.CategoriesBody | admin-dashboard/backend/src/routes/printOptions.ts:7-37 | Every row mapped with its count, in order; total is the number of rows |
| PrintOptionRoutes.Spread | admin-dashboard/backend/src/routes/printOptions.ts:115-118 | The base's fields with the key set to the value |
| PrintOptionRoutes.CategoryBody | admin-dashboard/backend/src/routes/printOptions.ts:82-100 | The category row with its option count |
| PrintOptionRoutes.QueryValue | admin-dashboard/backend/src/routes/printOptions.ts:43 | A missing parameter takes its default |
| PrintOptionRoutes.Ceil | admin-dashboard/backend/src/routes/printOptions.ts:73 | Math.ceil gives the integer c with c - 1 < x <= c |
| PrintOptionRoutes.ReportedTotalPages | admin-dashboard/backend/src/routes/printOptions.ts:73 | ceil(total / parseInt(limit)) on the raw limit: NaN or Infinity when the limit does not parse or is 0 |
| PrintOptionRoutes.TotalPages | admin-dashboard/backend/src/routes/printOptions.ts:50-73 | The fewest pages of the limit in use that hold the total |
| PrintOptionRoutes.ListOptionsRoute | admin-dashboard/backend/src/routes/printOptions.ts:40-79 | 404 before any query for a missing category; 500 "Failed to fetch print options" when a query throws; otherwise the list and count under one filter, page and limit defaulting to 1 and 12, pages counted over the limit the list used |
| PrintOptionRoutes.ListOptionsRouteAsWritten | admin-dashboard/backend/src/routes/printOptions.ts:66-74 | Any reply that is not a listing is the corrected route's reply; a listing has the same options, count, page and limit, with the page count divided by the raw parseInt(limit) |
| PrintOptionRoutes.OptionsStatus | admin-dashboard/backend/src/routes/printOptions.ts:45-78 | Only the listing carries no error text |
| PrintOptionRoutes.DefaultQueryPages | admin-dashboard/backend/src/routes/printOptions.ts:50-73 | With no query the page count is the client's ceil(total / 12) |
| PrintOptionRoutes.ReportedAgreesOnValidLimit | admin-dashboard/backend/src/routes/printOptions.ts:51-73 | A limit that parses to a non-zero number gives the corrected page count |
| PrintOptionRoutes.ZeroLimitReportsInfinitePages | admin-dashboard/backend/src/routes/printOptions.ts:73 | ?limit=0 with five options: one page listed, Infinity reported |
| PrintOptionRoutes.TextLimitReportsNaNPages | admin-dashboard/backend/src/routes/printOptions.ts:50-73 | Any limit starting with a letter (?limit=abc): the list uses 12 per page and a page count, the reply says NaN pages |
| PrintOptionRoutes.CreateOptionRoute | admin-dashboard/backend/src/routes/printOptions.ts:104-125 | 404 with no write for a missing category; 500 "Failed to create print option" with no write when the lookup throws; else the body with the path's category id inserted |
| PrintOptionRoutes.PathCategoryWins | admin-dashboard/backend/src/routes/printOptions.ts:115-118 | The path's category overrides the body's; other fields come from the body |
| PrintOptionRoutes.UpdateOptionRoute | admin-dashboard/backend/src/routes/printOptions.ts:128-144 | An update that sets nothing sends nothing and is a 404 |
| PrintOptionRoutes.EmptyUpdateNotFound | admin-dashboard/backend/src/routes/printOptions.ts:131-134 | An empty body is "not found" without touching the database |
| PrintOptionRoutes.DeleteOptionRoute | admin-dashboard/backend/src/routes/printOptions.ts:147-162 | One DELETE by id; no row is a 404 |
| PrintOptionRoutes.BulkDeleteRoute | admin-dashboard/backend/src/routes/printOptions.ts:165-183 | A non-array or empty optionIds is a 400; else the single write is the bulk DELETE bound to the ids, 200 unless it throws, even when nothing was deleted, with deletedCount equal to the affected rows and the message "<n> print options deleted successfully" |
| PrintOptionRoutes.BulkAndSingleDisagreeOnNothingDeleted | admin-dashboard/backend/src/routes/printOptions.ts:147-183 | A bulk delete matching nothing succeeds; a single delete matching nothing is a 404 |

## Left out

- Rendering, effects and browser APIs: JSX, `useEffect`, `FileReader`, `FontFace`, `document`, `confirm` and `alert`. Handlers are modelled from the point where their inputs are known.
- Network and database I/O. Query results, affected-row counts and exceptions are inputs (`Http.Outcome`, `Http.Lookup`). The client API services and `server.ts` are not part of this model.
- `Math.pow` with a fractional exponent is a parameter. Round-trip (±1) and saturation claims about specific colours are not stated, because they depend on it and the code asserts none. A negative base is the one case modelled without it: it gives `NaN` (`None`).
- JavaScript numbers are IEEE doubles; the model uses exact reals. `Math.round` after the matrix stage and `Math.ceil` after the division in `totalPages` can therefore differ from the program at a `.5` or integer boundary where the double is off by one ulp.
- `parseFloat`, `Number`, `String(n)`, `JSON.parse`, `JSON.stringify` and `toFixed` are abstract. `parseInt` is written out; an array is read through its text.
- ColorSpace.GetCssColor: channels are printed as plain decimal integers. JavaScript's template literal uses `String(n)`, which writes exponent form ("1e+21") for magnitudes of 1e21 or more; the same-space path rounds without clamping and can reach them, so the text for such inputs is not promised.
- Js.ParseIntValue: a number is truncated directly. JavaScript goes through `String(n)`, which differs for numbers written in exponent form (at or above 1e21, or below 1e-6); `Js.ParseIntValueReadsText` states the agreement under the hypothesis that `String(n)` is positional.
- `Date.now` and `Math.random` in option ids and stored file names are parameters. The parallel `Promise.all` deletes and the unlinking of font files are not modelled.
- SQL whitespace: the statement text is modelled with single spaces where the template literals hold line breaks and indentation. Column names are assumed free of `?`.
- `toLowerCase` and `toUpperCase` map ASCII letters only; non-ASCII case mapping is not modelled.
- The multer error path of the upload and the size limit of the server's upload are not modelled; `FontRoutes.UploadReply` starts after the middleware has run.
- Query-string arrays (`?limit=1&limit=2`) are not modelled; a query parameter is a string or absent.
- PrintOptionRoutes.Spread: spreading a non-object body is treated as spreading `{}`.
- The browser's check of `required` inputs is not modelled. In the print-option form, the name, the display name and, for paper, the weight, the purchase width and height and the price per thousand square feet are `required` (PrintOptionForm.tsx lines 108-207), so the browser stops a blank submit before `handleSubmit` runs. `PrintOptionForm.BlankFormSubmit` states what `handleSubmit` would build for that blank form, not a submit the browser lets through.
- PrintOptionRoutes.ReportedTotalPages: a `-0` limit is read as 0.
- ItemRoutes.CreateItem: what the MySQL driver does with a bound `undefined` (the missing description) is not modelled; `ItemRoutes.CreateBindsUndefinedDescription` only states that it is bound.
- The server does not trim names; only the client form does (`ColorsPage.ValidateFormIff`), so the routes accept a name of spaces.
- `types/printOptions.ts` holds declarations only; it gives the shapes of `PrintOptionTypes.Category` and `PrintOptionTypes.PrintOption`.
- The item, order and dashboard screens and the order and dashboard routes are not part of this model.

## Findings

| source | as written | input that shows it | evidently intended | confidence | as-written member | corrected member |
|---|---|---|---|---|---|---|
| admin-dashboard/backend/src/routes/printOptions.ts:73 | `totalPages` divides by `parseInt(limit)`, the raw query value, while the listing uses `limitNum`, which falls back to 12 | `?limit=0` with five options lists all five on one page but reports `Infinity` pages (sent as `null`); `?limit=abc` reports `NaN` | `Math.ceil(total / limitNum)`: one page in both cases | not executed | PrintOptionRoutes.ListOptionsRouteAsWritten | PrintOptionRoutes.ListOptionsRoute |

=== FILE: category_manager.dfy ===
/** The page that manages the options of one category: loading the category
    (with a fallback), the option search, and bulk delete. Paging is
    `Paging`; select-all and the single checkbox are `Selection.ToggleAll`
    and `Selection.SelectOption`. */
module CategoryManager {
  import opened Text
  import opened Wrappers
  import opened PrintOptionTypes
  import Seqs
  import Search
  import Selection

  const FALLBACK_ICON := "FiFileText"

  /** The category shown until (or unless) the server returns one. */
  function FallbackCategory(categoryId: string): (c: Category)
    ensures c.id == categoryId && c.categoryType == PRINT_OPTION
    ensures |c.name| == |categoryId| && ToLower(c.name) == ToLower(categoryId)
    ensures |categoryId| > 0 ==> IsUpper(c.name[0]) || !IsLower(categoryId[0])
    ensures |categoryId| > 0 ==> c.name[0] == UpperChar(categoryId[0]) && c.name[1..] == categoryId[1..]
    ensures c.description == "Manage " + categoryId + " options"
    ensures c.icon == FALLBACK_ICON && c.optionCount == 0 && c.isActive
  {
    var name := Capitalize(categoryId);
    if |categoryId| > 0 then
      ToLowerAppend([name[0]], name[1..]);
      ToLowerAppend([categoryId[0]], categoryId[1..]);
      assert name == [name[0]] + name[1..] && categoryId == [categoryId[0]] + categoryId[1..];
      Category(categoryId, name, PRINT_OPTION, "Manage " + categoryId + " options", FALLBACK_ICON, 0, true)
    else
      Category(categoryId, name, PRINT_OPTION, "Manage " + categoryId + " options", FALLBACK_ICON, 0, true)
  }

  /** `loadCategoryAndOptions`. `fetched` is the category the server
      returned, `None` when the request failed or returned nothing;
      `response` is the `options` of the options response, `None` when the
      request failed or the response had none. */
  function LoadCategoryAndOptions(categoryId: string, fetched: Option<Category>, response: Option<seq<PrintOption>>)
    : (r: (Category, seq<PrintOption>))
    ensures fetched.Some? ==> r.0 == fetched.value
    ensures fetched.None? ==> r.0 == FallbackCategory(categoryId)
    ensures response.Some? ==> r.1 == response.value
    ensures response.None? ==> r.1 == []
  {
    (if fetched.Some? then fetched.value else FallbackCategory(categoryId),
     if response.Some? then response.value else [])
  }

  /** A failed category request never leaves the page without a category of
      the requested id, and the two requests do not affect each other. */
  lemma LoadIsIndependent(categoryId: string, response: Option<seq<PrintOption>>, fetched: Option<Category>)
    ensures LoadCategoryAndOptions(categoryId, None, response).0.id == categoryId
    ensures LoadCategoryAndOptions(categoryId, fetched, response).1
         == LoadCategoryAndOptions(categoryId, None, response).1
  {
  }

  /** The description takes part in the search only when it is present and not empty. */
  predicate DescriptionMatches(o: PrintOption, term: string) {
    o.description.Some? && o.description.value != "" && Search.FieldMatches(o.description.value, term)
  }

  /** `filteredOptions`; there is no special case for an empty term. */
  predicate OptionMatches(o: PrintOption, term: string) {
    Search.FieldMatches(o.name, term) || Search.FieldMatches(o.displayName, term) || DescriptionMatches(o, term)
  }

  function FilterOptions(options: seq<PrintOption>, term: string): (r: seq<PrintOption>)
    ensures forall o :: o in r <==>
      o in options
      && (Search.FieldMatches(o.name, term) || Search.FieldMatches(o.displayName, term)
          || (o.description.Some? && o.description.value != "" && Search.FieldMatches(o.description.value, term)))
  {
    Seqs.FilterMembers(options, (o: PrintOption) => OptionMatches(o, term));
    Seqs.Filter(options, (o: PrintOption) => OptionMatches(o, term))
  }

  /** The empty search keeps every option, because every name contains the
      empty text. */
  lemma EmptySearchKeepsAll(options: seq<PrintOption>)
    ensures FilterOptions(options, "") == options
  {
    forall i | 0 <= i < |options|
      ensures OptionMatches(options[i], "")
    {
      Search.EmptyTermMatches(options[i].name);
    }
    Seqs.FilterAllPass(options, (o: PrintOption) => OptionMatches(o, ""));
  }

  /** The search keeps the options it passes in their original order. */
  lemma FilterOptionsKeepsOrder(a: seq<PrintOption>, b: seq<PrintOption>, term: string)
    ensures FilterOptions(a + b, term) == FilterOptions(a, term) + FilterOptions(b, term)
  {
    Seqs.FilterConcat(a, b, (o: PrintOption) => OptionMatches(o, term));
  }

  /** An option without a description, or with an empty one, is found only
      through its name or display name. */
  lemma MissingDescriptionIgnored(o: PrintOption, term: string)
    requires o.description.None? || o.description == Some("")
    ensures OptionMatches(o, term) <==> Search.FieldMatches(o.name, term) || Search.FieldMatches(o.displayName, term)
  {
  }

  /** `handleBulkDelete` once confirmed: the options whose id is selected are
      dropped and the selection is cleared. */
  function BulkDelete(options: seq<PrintOption>, selected: seq<string>): (r: (seq<PrintOption>, seq<string>))
    ensures forall o :: o in r.0 <==> o in options && o.id !in selected
    ensures r.1 == []
  {
    (Selection.DeleteSelected(options, (o: PrintOption) => o.id, selected), [])
  }

  /** Bulk delete keeps the surviving options in order and, with an empty
      selection, removes nothing. */
  lemma BulkDeleteKeepsOrder(a: seq<PrintOption>, b: seq<PrintOption>, selected: seq<string>)
    ensures BulkDelete(a + b, selected).0 == BulkDelete(a, selected).0 + BulkDelete(b, selected).0
    ensures BulkDelete(a, []).0 == a
  {
    Selection.DeleteSelectedKeepsOrder(a, b, (o: PrintOption) => o.id, selected);
    Selection.DeleteNothing(a, (o: PrintOption) => o.id);
  }
}

=== FILE: color_import.dfy ===
/** Bulk colour import: CSV text or a parsed JSON value is mapped to colour
    records with per-field fallbacks, and every record's numeric channels are
    range-checked, with errors that cite a row number. */
module ColorImport {
  import opened Text
  import opened Js
  import opened Wrappers
  import ColorSpace
  import ColorsPage
  import Seqs

  /** The alternative key each format accepts for four fields: camel-case in
      JSON, lower-cased (like every CSV header) in CSV. */
  datatype Aliases = Aliases(colorName: string, displayName: string, spotColor: string, colorSpace: string)

  const JSON_ALIASES := Aliases("colorName", "displayName", "spotColor", "colorSpace")
  const CSV_ALIASES := Aliases("colorname", "displayname", "spotcolor", "colorspace")

  /** The keys tried for each channel, in the order r, g, b, c, m, y, k. */
  const CHANNEL_KEYS: seq<seq<string>> := [
    ["rgb_r", "r", "red"], ["rgb_g", "g", "green"], ["rgb_b", "b", "blue"],
    ["cmyk_c", "c", "cyan"], ["cmyk_m", "m", "magenta"], ["cmyk_y", "y", "yellow"], ["cmyk_k", "k", "black"]]

  const RANGE_MESSAGES: seq<string> := [
    "RGB Red must be 0-255", "RGB Green must be 0-255", "RGB Blue must be 0-255",
    "CMYK Cyan must be 0-100", "CMYK Magenta must be 0-100", "CMYK Yellow must be 0-100", "CMYK Black must be 0-100"]

  const CHANNELS: nat := 7

  /** An imported colour before it is sent to the server. Text fields keep
      whatever value the record held; a channel is `None` when it parsed to `NaN`. */
  datatype ImportedColor = ImportedColor(
    name: JsValue,
    displayName: JsValue,
    channels: seq<Option<real>>,
    spotColor: JsValue,
    colorSpace: JsValue)

  /** `imported-color-{i + 1}`. */
  function NameFallback(index: nat): string {
    "imported-color-" + IntToString(index + 1)
  }

  /** `Imported Color {i + 1}`. */
  function DisplayFallback(index: nat): string {
    "Imported Color " + IntToString(index + 1)
  }

  /** `parseFloat(item.k1 || item.k2 || item.k3 || 0)` for channel `k`. */
  function ChannelValue(item: JsValue, k: nat, p: NumParsers): (x: Option<real>)
    requires k < CHANNELS
    ensures Truthy(Get(item, CHANNEL_KEYS[k][0])) ==> x == ParseFloat(Get(item, CHANNEL_KEYS[k][0]), p)
    ensures !Truthy(Get(item, CHANNEL_KEYS[k][0])) && Truthy(Get(item, CHANNEL_KEYS[k][1]))
      ==> x == ParseFloat(Get(item, CHANNEL_KEYS[k][1]), p)
    ensures !Truthy(Get(item, CHANNEL_KEYS[k][0])) && !Truthy(Get(item, CHANNEL_KEYS[k][1])) && Truthy(Get(item, CHANNEL_KEYS[k][2]))
      ==> x == ParseFloat(Get(item, CHANNEL_KEYS[k][2]), p)
    ensures (forall j :: 0 <= j < |CHANNEL_KEYS[k]| ==> !Truthy(Get(item, CHANNEL_KEYS[k][j]))) ==> x == Some(0.0)
    ensures Truthy(Get(item, CHANNEL_KEYS[k][0])) && Get(item, CHANNEL_KEYS[k][0]).JsNumber?
      ==> x == Some(Get(item, CHANNEL_KEYS[k][0]).n)
  {
    ParseFloat(FirstTruthy(item, CHANNEL_KEYS[k], JsNumber(0.0)), p)
  }

  /** One record of the import: the field fallbacks of the mapping step. */
  function MapItem(item: JsValue, aliases: Aliases, index: nat, p: NumParsers): (c: ImportedColor)
    ensures |c.channels| == CHANNELS
    ensures forall k :: 0 <= k < CHANNELS ==> c.channels[k] == ChannelValue(item, k, p)
    ensures Truthy(Get(item, "name")) ==> c.name == Get(item, "name")
    ensures !Truthy(Get(item, "name")) && Truthy(Get(item, aliases.colorName)) ==> c.name == Get(item, aliases.colorName)
    ensures !Truthy(Get(item, "name")) && !Truthy(Get(item, aliases.colorName)) ==> c.name == JsString(NameFallback(index))
    ensures Truthy(Get(item, "display_name")) ==> c.displayName == Get(item, "display_name")
    ensures !Truthy(Get(item, "display_name")) && Truthy(Get(item, aliases.displayName))
      ==> c.displayName == Get(item, aliases.displayName)
    ensures !Truthy(Get(item, "display_name")) && !Truthy(Get(item, aliases.displayName)) && Truthy(Get(item, "name"))
      ==> c.displayName == Get(item, "name")
    ensures !Truthy(Get(item, "display_name")) && !Truthy(Get(item, aliases.displayName)) && !Truthy(Get(item, "name"))
      ==> c.displayName == JsString(DisplayFallback(index))
    ensures Truthy(Get(item, "spot_color")) ==> c.spotColor == Get(item, "spot_color")
    ensures !Truthy(Get(item, "spot_color")) && Truthy(Get(item, aliases.spotColor)) ==> c.spotColor == Get(item, aliases.spotColor)
    ensures !Truthy(Get(item, "spot_color")) && !Truthy(Get(item, aliases.spotColor)) ==> c.spotColor == JsString("")
    ensures Truthy(Get(item, "color_space")) ==> c.colorSpace == Get(item, "color_space")
    ensures !Truthy(Get(item, "color_space")) && Truthy(Get(item, aliases.colorSpace))
      ==> c.colorSpace == Get(item, aliases.colorSpace)
    ensures !Truthy(Get(item, "color_space")) && !Truthy(Get(item, aliases.colorSpace))
      ==> c.colorSpace == JsString(ColorSpace.ADOBE_RGB)
  {
    var name := Or(Get(item, "name"), Or(Get(item, aliases.colorName), JsString(NameFallback(index))));
    var display := Or(Get(item, "display_name"), Or(Get(item, aliases.displayName),
                     Or(Get(item, "name"), JsString(DisplayFallback(index)))));
    var spot := Or(Get(item, "spot_color"), Or(Get(item, aliases.spotColor), JsString("")));
    var space := Or(Get(item, "color_space"), Or(Get(item, aliases.colorSpace), JsString(ColorSpace.ADOBE_RGB)));
    ImportedColor(name, display, seq(CHANNELS, k requires 0 <= k < CHANNELS => ChannelValue(item, k, p)), spot, space)
  }

  /** `v < 0 || v > max` on a parsed channel; `NaN` is never out of range. */
  predicate ChannelOutOfRange(x: Option<real>, k: nat)
    requires k < CHANNELS
  {
    x.Some? && (x.value < 0.0 || x.value > (if k < 3 then 255.0 else 100.0))
  }

  function RowPrefix(row: int): string {
    "Row " + IntToString(row) + ": "
  }

  function RowMessage(row: int, k: nat): string
    requires k < CHANNELS
  {
    RowPrefix(row) + RANGE_MESSAGES[k]
  }

  /** The range errors of the first `n` channels of one record, in channel order. */
  function RowErrors(channels: seq<Option<real>>, row: int, n: nat): (errors: seq<string>)
    requires n <= CHANNELS <= |channels|
    ensures |errors| <= n
    ensures forall k :: 0 <= k < n && ChannelOutOfRange(channels[k], k) ==> RowMessage(row, k) in errors
  {
    if n == 0 then []
    else
      RowErrors(channels, row, n - 1)
      + (if ChannelOutOfRange(channels[n - 1], n - 1) then [RowMessage(row, n - 1)] else [])
  }

  /** Every error of a record names one of its out-of-range channels. */
  lemma {:induction false} RowErrorsSound(channels: seq<Option<real>>, row: int, n: nat)
    requires n <= CHANNELS <= |channels|
    ensures forall m :: m in RowErrors(channels, row, n) ==>
      exists k :: 0 <= k < n && ChannelOutOfRange(channels[k], k) && m == RowMessage(row, k)
    decreases n
  {
    if n > 0 {
      RowErrorsSound(channels, row, n - 1);
    }
  }

  /** The row-free part of the same messages. */
  function RangeMessages(channels: seq<Option<real>>, n: nat): seq<string>
    requires n <= CHANNELS <= |channels|
  {
    if n == 0 then []
    else
      RangeMessages(channels, n - 1)
      + (if ChannelOutOfRange(channels[n - 1], n - 1) then [RANGE_MESSAGES[n - 1]] else [])
  }

  /** The rules do not depend on the row number: the errors for any row are
      the same messages, each behind that row's `Row n: ` prefix. */
  lemma {:induction false} RowErrorsArePrefixed(channels: seq<Option<real>>, row: int, n: nat)
    requires n <= CHANNELS <= |channels|
    ensures var ms := RangeMessages(channels, n);
      |RowErrors(channels, row, n)| == |ms|
      && forall i :: 0 <= i < |ms| ==> RowErrors(channels, row, n)[i] == RowPrefix(row) + ms[i]
    decreases n
  {
    if n > 0 {
      RowErrorsArePrefixed(channels, row, n - 1);
    }
  }

  /** A record raises no error exactly when every channel is in range or `NaN`. */
  lemma {:induction false} NoRowErrorsIff(channels: seq<Option<real>>, row: int, n: nat)
    requires n <= CHANNELS <= |channels|
    ensures RowErrors(channels, row, n) == [] <==> forall k :: 0 <= k < n ==> !ChannelOutOfRange(channels[k], k)
    decreases n
  {
    if n > 0 {
      NoRowErrorsIff(channels, row, n - 1);
    }
  }

  /** Every record carries the seven channels. */
  predicate Complete(colors: seq<ImportedColor>) {
    forall i :: 0 <= i < |colors| ==> |colors[i].channels| == CHANNELS
  }

  /** The messages of `errors` are exactly the row errors of the records,
      record `i` cited as row `i + offset`. */
  ghost predicate CitesRows(errors: seq<string>, colors: seq<ImportedColor>, offset: int)
    requires Complete(colors)
  {
    forall m :: m in errors <==>
      exists i :: 0 <= i < |colors| && m in RowErrors(colors[i].channels, i + offset, CHANNELS)
  }

  /** The errors of all records, record by record; record `i` is reported
      as row `i + offset`. */
  function AllErrors(colors: seq<ImportedColor>, offset: int): (errors: seq<string>)
    requires Complete(colors)
    ensures CitesRows(errors, colors, offset)
  {
    var rows := ErrorRows(colors, offset);
    RowsAreRecords(colors, offset, rows);
    Seqs.Flatten(rows)
  }

  /** Record `i`'s errors, as row `i + offset`, one list per record. */
  function ErrorRows(colors: seq<ImportedColor>, offset: int): (rows: seq<seq<string>>)
    requires Complete(colors)
    ensures |rows| == |colors|
    ensures forall i :: 0 <= i < |colors| ==> rows[i] == RowErrors(colors[i].channels, i + offset, CHANNELS)
  {
    seq(|colors|, i requires 0 <= i < |colors| => RowErrors(colors[i].channels, i + offset, CHANNELS))
  }

  /** The errors come record by record: those of two runs of records are the
      first run's followed by the second's, numbered on from where the first
      run stopped. */
  lemma AllErrorsInOrder(a: seq<ImportedColor>, b: seq<ImportedColor>, offset: int)
    requires Complete(a)
    requires Complete(b)
    ensures AllErrors(a + b, offset) == AllErrors(a, offset) + AllErrors(b, offset + |a|)
  {
    ErrorRowsAppend(a, b, offset);
    Seqs.FlattenAppend(ErrorRows(a, offset), ErrorRows(b, offset + |a|));
  }

  /** No record gives no error, and a single record gives exactly its row errors. */
  lemma AllErrorsSingle(c: ImportedColor, offset: int)
    requires |c.channels| == CHANNELS
    ensures AllErrors([], offset) == []
    ensures AllErrors([c], offset) == RowErrors(c.channels, offset, CHANNELS)
  {
    var rows := ErrorRows([c], offset);
    assert rows[..0] == [];
    assert Seqs.Flatten(rows) == Seqs.Flatten(rows[..0]) + rows[0];
  }

  lemma ErrorRowsAppend(a: seq<ImportedColor>, b: seq<ImportedColor>, offset: int)
    requires Complete(a)
    requires Complete(b)
    ensures ErrorRows(a + b, offset) == ErrorRows(a, offset) + ErrorRows(b, offset + |a|)
  {
    var ra := ErrorRows(a, offset);
    var rb := ErrorRows(b, offset + |a|);
    var rab := ErrorRows(a + b, offset);
    forall i | 0 <= i < |a| + |b|
      ensures rab[i] == (ra + rb)[i]
    {
      if i >= |a| {
        assert (a + b)[i] == b[i - |a|];
        assert i + offset == (i - |a|) + (offset + |a|);
      }
    }
  }

  lemma RowsAreRecords(colors: seq<ImportedColor>, offset: int, rows: seq<seq<string>>)
    requires Complete(colors)
    requires |rows| == |colors|
    requires forall i :: 0 <= i < |colors| ==> rows[i] == RowErrors(colors[i].channels, i + offset, CHANNELS)
    ensures CitesRows(Seqs.Flatten(rows), colors, offset)
  {
    Seqs.FlattenMembers(rows);
    forall m | m in Seqs.Flatten(rows)
      ensures exists i :: 0 <= i < |colors| && m in RowErrors(colors[i].channels, i + offset, CHANNELS)
    {
      var i :| 0 <= i < |rows| && m in rows[i];
      assert m in RowErrors(colors[i].channels, i + offset, CHANNELS);
    }
    forall m, i | 0 <= i < |colors| && m in RowErrors(colors[i].channels, i + offset, CHANNELS)
      ensures m in Seqs.Flatten(rows)
    {
      assert m in rows[i];
    }
  }

  datatype Parsed = Parsed(colors: seq<ImportedColor>, errors: seq<string>) | Failed

  /** Maps every record; reading a field of `null` or `undefined` throws, which
      fails the whole import. */
  function MapAll(items: seq<JsValue>, aliases: Aliases, offset: int, p: NumParsers): (r: Parsed)
    ensures r.Failed? <==> exists i :: 0 <= i < |items| && (items[i].JsNull? || items[i].JsUndefined?)
    ensures r.Parsed? ==> (
      && |r.colors| == |items|
      && (forall i :: 0 <= i < |items| ==> r.colors[i] == MapItem(items[i], aliases, i, p))
      && Complete(r.colors)
      && r.errors == AllErrors(r.colors, offset)
      && CitesRows(r.errors, r.colors, offset))
  {
    if exists i :: 0 <= i < |items| && (items[i].JsNull? || items[i].JsUndefined?) then Failed
    else MapPresent(items, aliases, offset, p)
  }

  /** The import of records that are all present: the mapped records and their errors. */
  function MapPresent(items: seq<JsValue>, aliases: Aliases, offset: int, p: NumParsers): (r: Parsed)
    ensures r.Parsed?
    ensures |r.colors| == |items|
    ensures forall i :: 0 <= i < |items| ==> r.colors[i] == MapItem(items[i], aliases, i, p)
    ensures Complete(r.colors)
    ensures r.errors == AllErrors(r.colors, offset)
    ensures CitesRows(r.errors, r.colors, offset)
  {
    var colors := MapRecords(items, aliases, p);
    Parsed(colors, AllErrors(colors, offset))
  }

  /** `items.map(mapItem)`: record `i` mapped with index `i`. */
  function MapRecords(items: seq<JsValue>, aliases: Aliases, p: NumParsers): (colors: seq<ImportedColor>)
    ensures |colors| == |items|
    ensures forall i :: 0 <= i < |items| ==> colors[i] == MapItem(items[i], aliases, i, p)
    ensures Complete(colors)
  {
    seq(|items|, i requires 0 <= i < |items| => MapItem(items[i], aliases, i, p))
  }

  // ---- JSON ----

  /** `Array.isArray(data) ? data : [data]`. */
  function JsonItems(data: JsValue): (items: seq<JsValue>)
    ensures data.JsArray? ==> items == data.items
    ensures !data.JsArray? ==> items == [data]
  {
    if data.JsArray? then data.items else [data]
  }

  /** `parseJsonColors` on the parsed value: record `i` is reported as row `i + 1`. */
  function ParseJson(data: JsValue, p: NumParsers): (r: Parsed)
    ensures r.Failed? <==> exists i :: 0 <= i < |JsonItems(data)| && (JsonItems(data)[i].JsNull? || JsonItems(data)[i].JsUndefined?)
    ensures r.Parsed? ==> (
      && |r.colors| == |JsonItems(data)|
      && (forall i :: 0 <= i < |r.colors| ==> r.colors[i] == MapItem(JsonItems(data)[i], JSON_ALIASES, i, p))
      && Complete(r.colors)
      && r.errors == AllErrors(r.colors, 1)
      && CitesRows(r.errors, r.colors, 1))
  {
    MapAll(JsonItems(data), JSON_ALIASES, 1, p)
  }

  /** A single JSON object imports as one colour whose errors cite row 1. */
  lemma JsonSingleObject(data: JsValue, p: NumParsers)
    requires data.JsObject?
    ensures var r := ParseJson(data, p);
      r.Parsed? && |r.colors| == 1 && r.colors[0] == MapItem(data, JSON_ALIASES, 0, p)
      && r.errors == RowErrors(r.colors[0].channels, 1, CHANNELS)
  {
    var r := ParseJson(data, p);
    assert JsonItems(data) == [data];
    assert r.Parsed? by {
      assert !(JsonItems(data)[0].JsNull? || JsonItems(data)[0].JsUndefined?);
    }
    assert r.colors == [r.colors[0]];
    AllErrorsSingle(r.colors[0], 1);
  }

  // ---- CSV ----

  /** `content.trim().split('\n')`. */
  function CsvLines(content: string): (lines: seq<string>)
    ensures |lines| >= 1
  {
    Split(Trim(content), '\n')
  }

  /** Header cells, trimmed and lower-cased. */
  function CsvHeaders(headerLine: string): (headers: seq<string>)
    ensures |headers| == |Split(headerLine, ',')|
  {
    var cells := Split(headerLine, ',');
    seq(|cells|, i requires 0 <= i < |cells| => ToLower(Trim(cells[i])))
  }

  /** Value cells, trimmed. */
  function CsvCells(line: string): (cells: seq<string>)
    ensures |cells| == |Split(line, ',')|
  {
    var parts := Split(line, ',');
    seq(|parts|, i requires 0 <= i < |parts| => Trim(parts[i]))
  }

  /** `values[i] || ''`: a missing trailing cell reads as the empty string. */
  function CellOr(values: seq<string>, i: nat): (cell: string)
    ensures i < |values| ==> cell == values[i]
    ensures i >= |values| ==> cell == ""
  {
    var v := if i < |values| then JsString(values[i]) else JsUndefined;
    var r := Or(v, JsString(""));
    assert r.JsString?;
    r.s
  }

  /** No later header among the first `n` repeats header `j`. */
  predicate LastOccurrence<K(==)>(headers: seq<K>, j: nat, n: nat)
    requires j < n <= |headers|
  {
    forall k :: j < k < n ==> headers[k] != headers[j]
  }

  /** The record built by `headers.forEach((h, i) => row[h] = values[i] || '')`
      over the first `n` headers: its keys are exactly those headers. */
  function RowObject<K(==)>(headers: seq<K>, values: seq<string>, n: nat): (row: map<K, JsValue>)
    requires n <= |headers|
    ensures row.Keys == set j | 0 <= j < n :: headers[j]
  {
    if n == 0 then map[]
    else
      var prev := RowObject(headers, values, n - 1);
      var row := prev[headers[n - 1] := JsString(CellOr(values, n - 1))];
      assert (set j | 0 <= j < n :: headers[j]) == (set j | 0 <= j < n - 1 :: headers[j]) + {headers[n - 1]};
      row
  }

  /** A header that is not repeated later maps to the cell at its position;
      a repeated header keeps the cell of its last occurrence. */
  lemma {:induction false} RowObjectCell<K>(headers: seq<K>, values: seq<string>, n: nat, j: nat)
    requires j < n <= |headers| && LastOccurrence(headers, j, n)
    ensures headers[j] in RowObject(headers, values, n)
    ensures RowObject(headers, values, n)[headers[j]] == JsString(CellOr(values, j))
    decreases n
  {
    if j < n - 1 {
      RowObjectCell(headers, values, n - 1, j);
      assert headers[n - 1] != headers[j];
    }
  }

  /** Every line after the header becomes one record keyed by the headers. */
  function CsvRecords(content: string): (records: seq<JsValue>)
    ensures |records| == |CsvLines(content)| - 1
    ensures forall i :: 0 <= i < |records| ==> records[i].JsObject?
  {
    var lines := CsvLines(content);
    var headers := CsvHeaders(lines[0]);
    seq(|lines| - 1, i requires 0 <= i < |lines| - 1 =>
      JsObject(RowObject(headers, CsvCells(lines[i + 1]), |headers|)))
  }

  /** In each record, a header that is not repeated maps to the trimmed cell
      at its position, or to `''` when the line has fewer cells. */
  lemma CsvRecordCell(content: string, i: nat, j: nat)
    requires i < |CsvRecords(content)|
    requires var headers := CsvHeaders(CsvLines(content)[0]);
      j < |headers| && LastOccurrence(headers, j, |headers|)
    ensures var lines := CsvLines(content);
      var headers := CsvHeaders(lines[0]);
      var cells := CsvCells(lines[i + 1]);
      Get(CsvRecords(content)[i], headers[j]) == JsString(if j < |cells| then cells[j] else "")
  {
    var lines := CsvLines(content);
    var headers := CsvHeaders(lines[0]);
    var cells := CsvCells(lines[i + 1]);
    var row := RowObject(headers, cells, |headers|);
    assert CsvRecords(content)[i] == JsObject(row);
    RowObjectCell(headers, cells, |headers|, j);
  }

  /** A blank file, or one with only a header line, imports nothing. */
  lemma CsvHeaderOnly(content: string)
    requires '\n' !in Trim(content)
    ensures CsvRecords(content) == []
  {
    SplitNoSeparator(Trim(content), '\n');
  }

  /** `parseCsvColors`: record `i` is line `i + 2` of the file (the header is
      line 1), and its errors cite that row. CSV records are never `null`, so
      the mapping always succeeds. */
  function ParseCsv(content: string, p: NumParsers): (r: Parsed)
    ensures r.Parsed?
    ensures |r.colors| == |CsvLines(content)| - 1
    ensures forall i :: 0 <= i < |r.colors| ==> r.colors[i] == MapItem(CsvRecords(content)[i], CSV_ALIASES, i, p)
    ensures Complete(r.colors)
    ensures r.errors == AllErrors(r.colors, 2)
    ensures CitesRows(r.errors, r.colors, 2)
  {
    var records := CsvRecords(content);
    RecordsPresent(records);
    MapAll(records, CSV_ALIASES, 2, p)
  }

  lemma RecordsPresent(records: seq<JsValue>)
    requires forall i :: 0 <= i < |records| ==> records[i].JsObject?
    ensures !exists i :: 0 <= i < |records| && (records[i].JsNull? || records[i].JsUndefined?)
  {
  }

  // ---- The file handler ----

  datatype ImportState = ImportState(preview: seq<ImportedColor>, errors: seq<string>)

  const JSON_FAILURE := "Failed to parse JSON: "

  /** `handleImportFileChange` once the file has been read: `json` is the
      result of `JSON.parse` on the text (`None` when it throws) and `reason`
      stands for the thrown error's message. */
  function HandleImportFile(fileName: string, text: string, json: Option<JsValue>, reason: string, p: NumParsers)
    : (s: ImportState)
    ensures !ColorsPage.ImportAccepted(fileName) ==> s == ImportState([], [ColorsPage.IMPORT_TYPE_ERROR])
    ensures ColorsPage.ImportExtension(fileName) == "csv" ==> s == ImportState(ParseCsv(text, p).colors, ParseCsv(text, p).errors)
    ensures ColorsPage.ImportExtension(fileName) == "json" && json.None? ==> s == ImportState([], [JSON_FAILURE + reason])
    ensures ColorsPage.ImportExtension(fileName) == "json" && json.Some? && ParseJson(json.value, p).Parsed?
      ==> s == ImportState(ParseJson(json.value, p).colors, ParseJson(json.value, p).errors)
    ensures ColorsPage.ImportExtension(fileName) == "json" && json.Some? && ParseJson(json.value, p).Failed?
      ==> s == ImportState([], [JSON_FAILURE + reason])
  {
    var ext := ColorsPage.ImportExtension(fileName);
    if !ColorsPage.ImportAccepted(fileName) then ImportState([], [ColorsPage.IMPORT_TYPE_ERROR])
    else if ext == "json" then
      match json
      case None => ImportState([], [JSON_FAILURE + reason])
      case Some(data) =>
        var r := ParseJson(data, p);
        if r.Failed? then ImportState([], [JSON_FAILURE + reason]) else ImportState(r.colors, r.errors)
    else
      var r := ParseCsv(text, p);
      ImportState(r.colors, r.errors)
  }
}

=== FILE: color_routes.dfy ===
/** The colour API: reading one colour, creating and updating a colour after
    the name and channel-range checks, and the soft delete. */
module ColorRoutes {
  import opened Wrappers
  import opened Text
  import opened Js
  import Sql
  import opened Http

  const INVALID_ID := "Invalid color ID"
  const NOT_FOUND := "Color not found"
  const NAMES_REQUIRED := "Name and display name are required"
  const RGB_RANGE := "RGB values must be between 0-255"
  const CMYK_RANGE := "CMYK values must be between 0-100"

  const RGB_CHANNELS: seq<string> := ["rgb_r", "rgb_g", "rgb_b"]
  const CMYK_CHANNELS: seq<string> := ["cmyk_c", "cmyk_m", "cmyk_y", "cmyk_k"]
  const CHANNELS: seq<string> := RGB_CHANNELS + CMYK_CHANNELS

  /** The columns of the colour record, in the order the handlers build it. */
  const COLOR_COLUMNS: seq<string> := ["name", "display_name"] + CHANNELS + ["spot_color"]

  /** Some channel among `keys` compares below 0 or above `hi`. */
  predicate AnyOutOfRange(body: JsValue, keys: seq<string>, hi: real, p: NumParsers) {
    exists i :: 0 <= i < |keys| && OutOfRange(Get(body, keys[i]), 0.0, hi, p)
  }

  predicate HasNames(body: JsValue) {
    Truthy(Get(body, "name")) && Truthy(Get(body, "display_name"))
  }

  /** The checks shared by create and update, in the order they run; `None`
      when the body passes all three. */
  function CheckColor(body: JsValue, p: NumParsers): (r: Option<string>)
    ensures r.None? <==>
      HasNames(body) && !AnyOutOfRange(body, RGB_CHANNELS, 255.0, p) && !AnyOutOfRange(body, CMYK_CHANNELS, 100.0, p)
    ensures !HasNames(body) ==> r == Some(NAMES_REQUIRED)
    ensures r.Some? ==> r.value == NAMES_REQUIRED || r.value == RGB_RANGE || r.value == CMYK_RANGE
  {
    if !HasNames(body) then Some(NAMES_REQUIRED)
    else if AnyOutOfRange(body, RGB_CHANNELS, 255.0, p) then Some(RGB_RANGE)
    else if AnyOutOfRange(body, CMYK_CHANNELS, 100.0, p) then Some(CMYK_RANGE)
    else None
  }

  /** The record handed to `createColor`/`updateColor`: the names as sent,
      each channel through `parseInt`, and `spot_color || null`. */
  function ColorRow(body: JsValue): (row: Sql.Row)
    ensures Sql.Columns(row) == COLOR_COLUMNS
    ensures row[0].1 == Get(body, "name") && row[1].1 == Get(body, "display_name")
    ensures forall i :: 0 <= i < |CHANNELS| ==> row[2 + i].1 == IntValue(ParseIntValue(Get(body, CHANNELS[i])))
    ensures row[9].1 == Or(Get(body, "spot_color"), JsNull)
  {
    [("name", Get(body, "name")), ("display_name", Get(body, "display_name"))]
    + seq(|CHANNELS|, i requires 0 <= i < |CHANNELS| => (CHANNELS[i], IntValue(ParseIntValue(Get(body, CHANNELS[i])))))
    + [("spot_color", Or(Get(body, "spot_color"), JsNull))]
  }

  /** `GET /api/colors/:id`. */
  function GetColor(rawId: string, lookup: Lookup): (r: Reply)
    ensures r.writes == []
    ensures Succeeded(r) <==> ParseInt(rawId).Some? && lookup == Found
    ensures ParseInt(rawId).None? ==> r == Refuse(400, INVALID_ID)
  {
    FetchReply(ParseInt(rawId), lookup, INVALID_ID, NOT_FOUND, "Failed to fetch color")
  }

  /** `POST /api/colors`: a rejected body is a 400 with no write; otherwise
      one `INSERT` binding the colour record and two timestamps. */
  function CreateColor(body: JsValue, p: NumParsers, now: JsValue, outcome: Outcome): (r: Reply)
    ensures CheckColor(body, p).Some? ==> r == Refuse(400, CheckColor(body, p).value)
    ensures CheckColor(body, p).None? ==>
      |r.writes| == 1 && Sql.Balanced(r.writes[0])
      && r.writes[0].params == Sql.Values(ColorRow(body)) + [now, now]
      && r.writes == [Sql.Insert("colors", ColorRow(body) + [("created_at", now), ("updated_at", now)])]
      && (Succeeded(r) <==> outcome.Affected?)
  {
    match CheckColor(body, p)
    case Some(message) => Refuse(400, message)
    case None =>
      var row := ColorRow(body) + [("created_at", now), ("updated_at", now)];
      assert Sql.Values(row) == Sql.Values(ColorRow(body)) + [now, now];
      InsertReply(Sql.Insert("colors", row), outcome, "Failed to create color")
  }

  /** `PUT /api/colors/:id`: the id is checked before the body; a valid
      request sends one `UPDATE ... WHERE id = ?` bound to the colour record,
      the timestamp and the id, and no affected row is a 404. */
  function UpdateColor(rawId: string, body: JsValue, p: NumParsers, now: JsValue, outcome: Outcome): (r: Reply)
    ensures ParseInt(rawId).None? ==> r == Refuse(400, INVALID_ID)
    ensures ParseInt(rawId).Some? && CheckColor(body, p).Some? ==> r == Refuse(400, CheckColor(body, p).value)
    ensures ParseInt(rawId).Some? && CheckColor(body, p).None? ==>
      |r.writes| == 1 && Sql.Balanced(r.writes[0])
      && r.writes[0].params == Sql.Values(ColorRow(body)) + [now, JsNumber(ParseInt(rawId).value as real)]
      && r.writes == [ColorUpdate(body, now, ParseInt(rawId).value)]
      && r.writes[0] == Sql.Update("colors", ColorRow(body) + [("updated_at", now)], Sql.ID_WHERE,
                                   Some([JsNumber(ParseInt(rawId).value as real)]))
      && (Succeeded(r) <==> outcome.Affected? && outcome.rows > 0)
      && (outcome == Affected(0) ==> r.status == 404)
  {
    match ParseInt(rawId)
    case None => Refuse(400, INVALID_ID)
    case Some(id) =>
      match CheckColor(body, p)
      case Some(message) => Refuse(400, message)
      case None => WriteReply(ColorUpdate(body, now, id), outcome, NOT_FOUND, "Failed to update color")
  }

  /** The `UPDATE colors ... WHERE id = ?` statement of a valid update: one
      `column = ?` per record column and then `updated_at`, bound to the
      record, the timestamp and the id. */
  function ColorUpdate(body: JsValue, now: JsValue, id: int): (st: Sql.Statement)
    ensures Sql.Balanced(st)
    ensures st.params == Sql.Values(ColorRow(body)) + [now, JsNumber(id as real)]
    ensures Sql.Render(st.sql) == "UPDATE colors SET " + Sql.SetClause(COLOR_COLUMNS + ["updated_at"]) + " WHERE id = ?"
  {
    var row := ColorRow(body) + [("updated_at", now)];
    Sql.UpdateById("colors", row, JsNumber(id as real));
    StampedColumns(body, now);
    UpdateColorsHead();
    Sql.UpdateBalanced("colors", row, Sql.ID_WHERE, Some([JsNumber(id as real)]));
    Sql.ValuesAppend(ColorRow(body), [("updated_at", now)]);
    assert Sql.Values([("updated_at", now)]) == [now];
    Sql.Update("colors", row, Sql.ID_WHERE, Some([JsNumber(id as real)]))
  }

  lemma StampedColumns(body: JsValue, now: JsValue)
    ensures Sql.Columns(ColorRow(body) + [("updated_at", now)]) == COLOR_COLUMNS + ["updated_at"]
  {
  }

  lemma UpdateColorsHead()
    ensures "UPDATE " + "colors" + " SET " == "UPDATE colors SET "
  {
  }

  /** `DELETE /api/colors/:id`: a soft delete of the parsed id. */
  function DeleteColor(rawId: string, now: JsValue, outcome: Outcome): (r: Reply)
    ensures ParseInt(rawId).None? ==> r == Refuse(400, INVALID_ID)
    ensures ParseInt(rawId).Some? ==>
      |r.writes| == 1 && r.writes[0].params == [JsBool(false), now, JsNumber(ParseInt(rawId).value as real)]
      && r.writes == [Sql.DeleteColor(ParseInt(rawId).value, now)]
      && (Succeeded(r) <==> outcome.Affected? && outcome.rows > 0)
      && (outcome == Affected(0) ==> r.status == 404)
  {
    match ParseInt(rawId)
    case None => Refuse(400, INVALID_ID)
    case Some(id) => WriteReply(Sql.DeleteColor(id, now), outcome, NOT_FOUND, "Failed to delete color")
  }

  // ---- Properties ----

  /** The bounds are inclusive: a body with both names and every channel a
      number in `[0, 255]` (RGB) or `[0, 100]` (CMYK) passes the checks. */
  lemma InRangeChannelsAccepted(body: JsValue, p: NumParsers)
    requires HasNames(body)
    requires forall i :: 0 <= i < |RGB_CHANNELS| ==>
      Get(body, RGB_CHANNELS[i]).JsNumber? && 0.0 <= Get(body, RGB_CHANNELS[i]).n <= 255.0
    requires forall i :: 0 <= i < |CMYK_CHANNELS| ==>
      Get(body, CMYK_CHANNELS[i]).JsNumber? && 0.0 <= Get(body, CMYK_CHANNELS[i]).n <= 100.0
    ensures CheckColor(body, p) == None
  {
  }

  /** A numeric channel outside its range is rejected with that range's
      message, as long as the names are present and (for CMYK) RGB passed. */
  lemma OutOfRangeChannelRejected(body: JsValue, p: NumParsers, k: nat)
    requires HasNames(body) && k < |CHANNELS|
    requires Get(body, CHANNELS[k]).JsNumber?
    requires var x := Get(body, CHANNELS[k]).n; x < 0.0 || x > (if k < 3 then 255.0 else 100.0)
    requires k >= 3 ==> !AnyOutOfRange(body, RGB_CHANNELS, 255.0, p)
    ensures CheckColor(body, p) == Some(if k < 3 then RGB_RANGE else CMYK_RANGE)
  {
    if k < 3 {
      assert OutOfRange(Get(body, RGB_CHANNELS[k]), 0.0, 255.0, p);
    } else {
      assert OutOfRange(Get(body, CMYK_CHANNELS[k - 3]), 0.0, 100.0, p);
    }
  }

  /** Missing names are reported first, whatever the channels hold. */
  lemma NamesCheckedFirst(body: JsValue, p: NumParsers)
    requires !Truthy(Get(body, "name"))
    ensures CreateColor(body, p, JsNull, Affected(1)) == Refuse(400, NAMES_REQUIRED)
    ensures forall rawId :: ParseInt(rawId).Some? ==>
      UpdateColor(rawId, body, p, JsNull, Affected(1)) == Refuse(400, NAMES_REQUIRED)
  {
  }

  /** A channel the body leaves out is not rejected, since every comparison
      with `undefined` is false; it is stored as `NaN`. */
  lemma MissingChannelPassesAsNaN(body: JsValue, p: NumParsers, k: nat)
    requires k < |CHANNELS| && Get(body, CHANNELS[k]) == JsUndefined
    ensures !OutOfRange(Get(body, CHANNELS[k]), 0.0, 255.0, p)
    ensures !OutOfRange(Get(body, CHANNELS[k]), 0.0, 100.0, p)
    ensures ColorRow(body)[2 + k].1 == JsNaN
  {
  }

  /** A numeric channel that passed its check is stored as a whole number
      in the same range: `parseInt` truncates and never leaves the bounds. */
  lemma AcceptedChannelStoredInRange(body: JsValue, p: NumParsers, k: nat)
    requires k < |CHANNELS| && Get(body, CHANNELS[k]).JsNumber?
    requires !OutOfRange(Get(body, CHANNELS[k]), 0.0, if k < 3 then 255.0 else 100.0, p)
    ensures var v := ColorRow(body)[2 + k].1;
      v.JsNumber? && v.n == v.n.Floor as real
      && 0.0 <= v.n <= (if k < 3 then 255.0 else 100.0)
  {
  }

  /** An array-valued channel is compared and parsed through its text:
      `[300]` is rejected by the RGB check and stored as 300. */
  lemma ArrayChannelCoerced(body: JsValue, p: NumParsers)
    requires HasNames(body) && Get(body, "rgb_r") == JsArray([JsNumber(300.0)])
    requires p.toText(300.0) == "300" && p.toNumber("300") == Some(300.0)
    ensures CheckColor(body, p) == Some(RGB_RANGE)
    ensures ColorRow(body)[2].1 == JsNumber(300.0)
  {
    DisplaySingle(JsNumber(300.0), p.toText);
    assert OutOfRange(Get(body, RGB_CHANNELS[0]), 0.0, 255.0, p);
  }

  /** An empty spot colour is stored as `null`; a non-empty one as sent. */
  lemma SpotColorStored(body: JsValue, s: string)
    requires Get(body, "spot_color") == JsString(s)
    ensures ColorRow(body)[9].1 == (if s == "" then JsNull else JsString(s))
  {
  }

  /** Create and update store the same record for the same body. */
  lemma CreateAndUpdateAgree(rawId: string, body: JsValue, p: NumParsers, now: JsValue)
    requires ParseInt(rawId).Some? && CheckColor(body, p).None?
    ensures var c := CreateColor(body, p, now, Affected(1)).writes[0].params;
      var u := UpdateColor(rawId, body, p, now, Affected(1)).writes[0].params;
      c[..10] == u[..10]
  {
    var c := CreateColor(body, p, now, Affected(1)).writes[0].params;
    var u := UpdateColor(rawId, body, p, now, Affected(1)).writes[0].params;
    assert |Sql.Values(ColorRow(body))| == 10;
    assert c[..10] == Sql.Values(ColorRow(body));
    assert u[..10] == Sql.Values(ColorRow(body));
  }

  /** Deleting a colour never removes its row: the one write is not a
      `DELETE`, and it binds `false` for `is_active`. */
  lemma DeleteIsSoft(rawId: string, now: JsValue, outcome: Outcome)
    requires ParseInt(rawId).Some?
    ensures var st := DeleteColor(rawId, now, outcome).writes[0];
      !StartsWith(Sql.Render(st.sql), "DELETE") && st.params[0] == JsBool(false)
  {
  }
}

=== FILE: color_space.dfy ===
/** Conversion of RGB triples between Adobe RGB (1998) and sRGB through the
    CIE XYZ space, and the two display formatters built on it.

    The sRGB curve and matrices are those of IEC 61966-2-1, section 5; the
    Adobe RGB gamma 2.19921875 and matrices are those of the Adobe RGB (1998)
    Color Image Encoding, section 4.3. The fractional power `Math.pow` is a
    parameter `pow` of every function that needs it; the only fact assumed
    about it is `ZeroBase`, stated as a hypothesis where it is needed.
    `Math.pow` of a negative base and the fractional Adobe RGB gamma is
    `NaN`, which spreads to every channel after the matrix; such a result is
    `None`. */
module ColorSpace {
  import opened Wrappers
  import opened Text

  /** The two colour-space tags the code compares against. */
  const SRGB: string := "sRGB"
  const ADOBE_RGB: string := "Adobe RGB"

  /** Adobe RGB (1998) gamma. */
  const ADOBE_GAMMA: real := 2.19921875

  /** `Math.pow` on reals. */
  type Pow = (real, real) -> real

  /** `Math.pow(0, e) == 0` for every positive exponent. */
  ghost predicate ZeroBase(pow: Pow) {
    forall e: real {:trigger pow(0.0, e)} :: e > 0.0 ==> pow(0.0, e) == 0.0
  }

  datatype Vec3 = Vec3(x: real, y: real, z: real)

  /** A 3x3 matrix given by its rows. */
  datatype Matrix = Matrix(r0: Vec3, r1: Vec3, r2: Vec3)

  /** An RGB triple of the kind the conversions return (`Math.round` results). */
  datatype Rgb = Rgb(r: int, g: int, b: int)

  const ZERO: Vec3 := Vec3(0.0, 0.0, 0.0)

  const ADOBE_TO_XYZ: Matrix := Matrix(
    Vec3(0.5767309, 0.1855540, 0.1881852),
    Vec3(0.2973769, 0.6273491, 0.0752741),
    Vec3(0.0270343, 0.0706872, 0.9911085))

  const XYZ_TO_SRGB: Matrix := Matrix(
    Vec3(3.2406, -1.5372, -0.4986),
    Vec3(-0.9689, 1.8758, 0.0415),
    Vec3(0.0557, -0.2040, 1.0570))

  const SRGB_TO_XYZ: Matrix := Matrix(
    Vec3(0.4124, 0.3576, 0.1805),
    Vec3(0.2126, 0.7152, 0.0722),
    Vec3(0.0193, 0.1192, 0.9505))

  const XYZ_TO_ADOBE: Matrix := Matrix(
    Vec3(2.0413690, -0.5649464, -0.3446944),
    Vec3(-0.9692660, 1.8760108, 0.0415560),
    Vec3(0.0134474, -0.1183897, 1.0154096))

  function Dot(u: Vec3, v: Vec3): real {
    u.x * v.x + u.y * v.y + u.z * v.z
  }

  /** Matrix-vector product; linear, so the zero vector is a fixed point. */
  function Apply(m: Matrix, v: Vec3): (w: Vec3)
    ensures v == ZERO ==> w == ZERO
  {
    Vec3(Dot(m.r0, v), Dot(m.r1, v), Dot(m.r2, v))
  }

  /** `Math.round`: the nearest integer, halves rounded up. */
  function Round(x: real): (n: int)
    ensures x - 0.5 < n as real <= x + 0.5
  {
    (x + 0.5).Floor
  }

  /** `Math.max(0, Math.min(1, v))`. */
  function Clamp01(v: real): (c: real)
    ensures 0.0 <= c <= 1.0
    ensures 0.0 <= v <= 1.0 ==> c == v
    ensures v <= 0.0 ==> c == 0.0
  {
    if v < 0.0 then 0.0 else if v > 1.0 then 1.0 else v
  }

  /** The last step of both XYZ-to-RGB stages: clamp, scale to 0..255, round. */
  function ToByte(v: real): (n: int)
    ensures 0 <= n <= 255
    ensures v <= 0.0 ==> n == 0
    ensures v >= 1.0 ==> n == 255
  {
    Round(Clamp01(v) * 255.0)
  }

  predicate InByteRange(c: Rgb) {
    0 <= c.r <= 255 && 0 <= c.g <= 255 && 0 <= c.b <= 255
  }

  /** sRGB gamma encoding: linear below the 0.0031308 threshold, a power law above. */
  function SrgbEncode(pow: Pow, v: real): (e: real)
    ensures v <= 0.0031308 ==> e == 12.92 * v
    ensures v <= 0.0 ==> e <= 0.0
  {
    if v > 0.0031308 then 1.055 * pow(v, 1.0 / 2.4) - 0.055 else 12.92 * v
  }

  /** sRGB gamma decoding: linear up to 0.04045, a power law above. */
  function SrgbDecode(pow: Pow, n: real): (l: real)
    ensures n <= 0.04045 ==> l == n / 12.92
    ensures n == 0.0 ==> l == 0.0
  {
    if n > 0.04045 then pow((n + 0.055) / 1.055, 2.4) else n / 12.92
  }

  /** Adobe RGB gamma encoding; a negative linear value is floored to 0 before the power. */
  function AdobeEncode(pow: Pow, v: real): (e: real)
    ensures v <= 0.0 ==> e == pow(0.0, 1.0 / ADOBE_GAMMA)
    ensures ZeroBase(pow) && v <= 0.0 ==> e == 0.0
  {
    pow(if v < 0.0 then 0.0 else v, 1.0 / ADOBE_GAMMA)
  }

  /** Adobe RGB gamma decoding: `NaN` (`None`) for a negative value, since
      the gamma is not an integer. */
  function AdobeDecode(pow: Pow, n: real): (l: Option<real>)
    ensures l.None? <==> n < 0.0
    ensures ZeroBase(pow) && n == 0.0 ==> l == Some(0.0)
  {
    if n < 0.0 then None else Some(pow(n, ADOBE_GAMMA))
  }

  /** `adobeRGBToXYZ`: normalise, decode, apply the Adobe RGB matrix. Every
      matrix entry is non-zero, so one `NaN` channel makes all of X, Y and Z
      `NaN`. */
  function AdobeRgbToXyz(pow: Pow, r: real, g: real, b: real): (xyz: Option<Vec3>)
    ensures xyz.None? <==> r < 0.0 || g < 0.0 || b < 0.0
    ensures ZeroBase(pow) && r == 0.0 && g == 0.0 && b == 0.0 ==> xyz == Some(ZERO)
  {
    var lr, lg, lb := AdobeDecode(pow, r / 255.0), AdobeDecode(pow, g / 255.0), AdobeDecode(pow, b / 255.0);
    if lr.None? || lg.None? || lb.None? then None
    else Some(Apply(ADOBE_TO_XYZ, Vec3(lr.value, lg.value, lb.value)))
  }

  /** `xyzToSRGB`: every channel is a byte, and a channel whose linear value
      is not positive comes out as 0. */
  function XyzToSrgb(pow: Pow, xyz: Vec3): (c: Rgb)
    ensures InByteRange(c)
    ensures var lin := Apply(XYZ_TO_SRGB, xyz);
      (lin.x <= 0.0 ==> c.r == 0) && (lin.y <= 0.0 ==> c.g == 0) && (lin.z <= 0.0 ==> c.b == 0)
  {
    var lin := Apply(XYZ_TO_SRGB, xyz);
    Rgb(ToByte(SrgbEncode(pow, lin.x)), ToByte(SrgbEncode(pow, lin.y)), ToByte(SrgbEncode(pow, lin.z)))
  }

  /** `sRGBToXYZ`: normalise, decode, apply the sRGB matrix. */
  function SrgbToXyz(pow: Pow, r: real, g: real, b: real): (xyz: Vec3)
    ensures r == 0.0 && g == 0.0 && b == 0.0 ==> xyz == ZERO
  {
    var lin := Vec3(SrgbDecode(pow, r / 255.0), SrgbDecode(pow, g / 255.0), SrgbDecode(pow, b / 255.0));
    Apply(SRGB_TO_XYZ, lin)
  }

  /** `xyzToAdobeRGB`: every channel is a byte, and (given `ZeroBase`) a
      channel whose linear value is not positive comes out as 0. */
  function XyzToAdobeRgb(pow: Pow, xyz: Vec3): (c: Rgb)
    ensures InByteRange(c)
    ensures var lin := Apply(XYZ_TO_ADOBE, xyz);
      ZeroBase(pow) ==>
        (lin.x <= 0.0 ==> c.r == 0) && (lin.y <= 0.0 ==> c.g == 0) && (lin.z <= 0.0 ==> c.b == 0)
  {
    var lin := Apply(XYZ_TO_ADOBE, xyz);
    Rgb(ToByte(AdobeEncode(pow, lin.x)), ToByte(AdobeEncode(pow, lin.y)), ToByte(AdobeEncode(pow, lin.z)))
  }

  /** `adobeRGBToSRGB`: bytes, or `NaN` in every channel when an input
      channel is negative (`Math.min` and `Math.round` keep a `NaN`). */
  function AdobeRgbToSrgb(pow: Pow, r: real, g: real, b: real): (c: Option<Rgb>)
    ensures c.None? <==> r < 0.0 || g < 0.0 || b < 0.0
    ensures c.Some? ==> InByteRange(c.value)
  {
    match AdobeRgbToXyz(pow, r, g, b)
    case None => None
    case Some(xyz) => Some(XyzToSrgb(pow, xyz))
  }

  /** `sRGBToAdobeRGB`. */
  function SrgbToAdobeRgb(pow: Pow, r: real, g: real, b: real): (c: Rgb)
    ensures InByteRange(c)
  {
    XyzToAdobeRgb(pow, SrgbToXyz(pow, r, g, b))
  }

  /** The two tag pairs `convertColor` routes through XYZ. */
  predicate IsCrossSpace(from: string, to: string) {
    (from == ADOBE_RGB && to == SRGB) || (from == SRGB && to == ADOBE_RGB)
  }

  /** Each channel rounded, without clamping. */
  function RoundAll(r: real, g: real, b: real): (c: Rgb)
    ensures c.r as real <= r + 0.5 && c.g as real <= g + 0.5 && c.b as real <= b + 0.5
    ensures c.r as real > r - 0.5 && c.g as real > g - 0.5 && c.b as real > b - 0.5
  {
    Rgb(Round(r), Round(g), Round(b))
  }

  /** `convertColor`: equal tags and unknown tag pairs give the rounded input
      unclamped; the two cross-space pairs give bytes, except that Adobe RGB
      to sRGB gives `NaN` channels (`None`) for a negative input channel. */
  function ConvertColor(pow: Pow, r: real, g: real, b: real, from: string, to: string): (c: Option<Rgb>)
    ensures c.None? <==> from == ADOBE_RGB && to == SRGB && (r < 0.0 || g < 0.0 || b < 0.0)
    ensures from == to ==> c == Some(RoundAll(r, g, b))
    ensures !IsCrossSpace(from, to) ==> c == Some(RoundAll(r, g, b))
    ensures IsCrossSpace(from, to) && c.Some? ==> InByteRange(c.value)
  {
    if from == to then Some(RoundAll(r, g, b))
    else if from == ADOBE_RGB && to == SRGB then AdobeRgbToSrgb(pow, r, g, b)
    else if from == SRGB && to == ADOBE_RGB then Some(SrgbToAdobeRgb(pow, r, g, b))
    else Some(RoundAll(r, g, b))
  }

  /** `Math.round` leaves integers alone. */
  lemma RoundInteger(n: int)
    ensures Round(n as real) == n
  {
  }

  /** On in-range integer channels the same-space path is the identity. */
  lemma SameSpaceIdentity(pow: Pow, r: int, g: int, b: int, space: string)
    ensures ConvertColor(pow, r as real, g as real, b as real, space, space) == Some(Rgb(r, g, b))
  {
    RoundInteger(r);
    RoundInteger(g);
    RoundInteger(b);
  }

  /** The same-space path does not clamp: (300, -10, 128) passes through. */
  lemma SameSpaceDoesNotClamp(pow: Pow)
    ensures ConvertColor(pow, 300.0, -10.0, 128.0, SRGB, SRGB) == Some(Rgb(300, -10, 128))
  {
    RoundInteger(300);
    RoundInteger(-10);
    RoundInteger(128);
  }

  /** The cross-space pairs go through XYZ: Adobe RGB to sRGB, or sRGB to Adobe RGB. */
  lemma CrossSpaceDispatch(pow: Pow, r: real, g: real, b: real, from: string, to: string)
    requires IsCrossSpace(from, to)
    ensures from == ADOBE_RGB ==> ConvertColor(pow, r, g, b, from, to) == AdobeRgbToSrgb(pow, r, g, b)
    ensures from != ADOBE_RGB ==> ConvertColor(pow, r, g, b, from, to) == Some(SrgbToAdobeRgb(pow, r, g, b))
  {
    assert |ADOBE_RGB| != |SRGB|;
  }

  /** Black maps to black in both cross-space directions. */
  lemma BlackToBlack(pow: Pow, r: real, g: real, b: real, from: string, to: string)
    requires ZeroBase(pow)
    requires r == 0.0 && g == 0.0 && b == 0.0
    requires IsCrossSpace(from, to)
    ensures ConvertColor(pow, r, g, b, from, to) == Some(Rgb(0, 0, 0))
  {
    CrossSpaceDispatch(pow, r, g, b, from, to);
    if from == ADOBE_RGB {
      AdobeBlack(pow, r, g, b);
    } else {
      SrgbBlack(pow, r, g, b);
    }
  }

  lemma AdobeBlack(pow: Pow, r: real, g: real, b: real)
    requires ZeroBase(pow)
    requires r == 0.0 && g == 0.0 && b == 0.0
    ensures AdobeRgbToSrgb(pow, r, g, b) == Some(Rgb(0, 0, 0))
  {
    AdobeBlackViaXyz(pow, r, g, b);
    SrgbOfZero(pow);
  }

  lemma AdobeBlackViaXyz(pow: Pow, r: real, g: real, b: real)
    requires ZeroBase(pow)
    requires r == 0.0 && g == 0.0 && b == 0.0
    ensures AdobeRgbToSrgb(pow, r, g, b) == Some(XyzToSrgb(pow, ZERO))
  {
    AdobeZeroXyz(pow, r, g, b);
    AdobeToSrgbVia(pow, r, g, b, ZERO);
  }

  lemma AdobeZeroXyz(pow: Pow, r: real, g: real, b: real)
    requires ZeroBase(pow)
    requires r == 0.0 && g == 0.0 && b == 0.0
    ensures AdobeRgbToXyz(pow, r, g, b) == Some(ZERO)
  {
  }

  lemma AdobeToSrgbVia(pow: Pow, r: real, g: real, b: real, xyz: Vec3)
    requires AdobeRgbToXyz(pow, r, g, b) == Some(xyz)
    ensures AdobeRgbToSrgb(pow, r, g, b) == Some(XyzToSrgb(pow, xyz))
  {
  }

  lemma SrgbBlack(pow: Pow, r: real, g: real, b: real)
    requires ZeroBase(pow)
    requires r == 0.0 && g == 0.0 && b == 0.0
    ensures SrgbToAdobeRgb(pow, r, g, b) == Rgb(0, 0, 0)
  {
    ZeroToAdobe(pow, SrgbToXyz(pow, r, g, b));
  }

  lemma ZeroToSrgb(pow: Pow, xyz: Vec3)
    requires xyz == ZERO
    ensures XyzToSrgb(pow, xyz) == Rgb(0, 0, 0)
  {
    assert Apply(XYZ_TO_SRGB, xyz) == ZERO;
  }

  lemma SrgbOfZero(pow: Pow)
    ensures XyzToSrgb(pow, ZERO) == Rgb(0, 0, 0)
  {
    ZeroToSrgb(pow, ZERO);
  }

  lemma ZeroToAdobe(pow: Pow, xyz: Vec3)
    requires ZeroBase(pow)
    requires xyz == ZERO
    ensures XyzToAdobeRgb(pow, xyz) == Rgb(0, 0, 0)
  {
    assert Apply(XYZ_TO_ADOBE, xyz) == ZERO;
  }

  /** `Math.max(0, Math.min(255, n))`. */
  function Clamp255(n: int): (m: nat)
    ensures m <= 255
    ensures 0 <= n <= 255 ==> m == n
    ensures n < 0 ==> m == 0
    ensures n > 255 ==> m == 255
  {
    if n < 0 then 0 else if n > 255 then 255 else n
  }

  /** `toHex` inside `getHexColor`: the clamped channel in base 16, padded to two digits. */
  function HexByte(n: int): (h: string)
    ensures h == [DigitChar(Clamp255(n) / 16), DigitChar(Clamp255(n) % 16)]
  {
    HexByteDigits(Clamp255(n));
    PadStart2(NatToString(Clamp255(n), 16))
  }

  /** The byte written as two hex digits starting at index `i`. */
  function ByteAt(h: string, i: nat): nat
    requires i + 1 < |h|
  {
    DigitValue(h[i]) * 16 + DigitValue(h[i + 1])
  }

  /** The `#rrggbb` text of an RGB triple, each channel clamped to [0,255]. */
  function HexColor(c: Rgb): (h: string)
    ensures |h| == 7 && h[0] == '#'
    ensures forall i :: 1 <= i < 7 ==> IsHexDigitLower(h[i])
    ensures ByteAt(h, 1) == Clamp255(c.r) && ByteAt(h, 3) == Clamp255(c.g) && ByteAt(h, 5) == Clamp255(c.b)
  {
    HexColorSpelled(c);
    "#" + HexByte(c.r) + HexByte(c.g) + HexByte(c.b)
  }

  lemma HexColorSpelled(c: Rgb)
    ensures var h := "#" + HexByte(c.r) + HexByte(c.g) + HexByte(c.b);
      && |h| == 7 && h[0] == '#'
      && (forall i :: 1 <= i < 7 ==> IsHexDigitLower(h[i]))
      && ByteAt(h, 1) == Clamp255(c.r) && ByteAt(h, 3) == Clamp255(c.g) && ByteAt(h, 5) == Clamp255(c.b)
  {
    var hr, hg, hb := HexByte(c.r), HexByte(c.g), HexByte(c.b);
    HexPair(c.r);
    HexPair(c.g);
    HexPair(c.b);
    SpellOut(hr, hg, hb);
    SpelledDigits(hr, hg, hb);
    SpelledBytes(hr, hg, hb);
  }

  /** Six hex digits spelled after '#' are all hex digits. */
  lemma SpelledDigits(hr: string, hg: string, hb: string)
    requires |hr| == 2 && |hg| == 2 && |hb| == 2
    requires IsHexDigitLower(hr[0]) && IsHexDigitLower(hr[1]) && IsHexDigitLower(hg[0])
    requires IsHexDigitLower(hg[1]) && IsHexDigitLower(hb[0]) && IsHexDigitLower(hb[1])
    ensures var h: string := ['#', hr[0], hr[1], hg[0], hg[1], hb[0], hb[1]];
      forall i :: 1 <= i < 7 ==> IsHexDigitLower(h[i])
  {
  }

  /** Each pair of the spelled text reads back as the pair it came from. */
  lemma SpelledBytes(hr: string, hg: string, hb: string)
    requires |hr| == 2 && |hg| == 2 && |hb| == 2
    ensures var h: string := ['#', hr[0], hr[1], hg[0], hg[1], hb[0], hb[1]];
      && ByteAt(h, 1) == DigitValue(hr[0]) * 16 + DigitValue(hr[1])
      && ByteAt(h, 3) == DigitValue(hg[0]) * 16 + DigitValue(hg[1])
      && ByteAt(h, 5) == DigitValue(hb[0]) * 16 + DigitValue(hb[1])
  {
  }

  /** The two digits of `HexByte(n)` are lowercase hex digits that read back as the clamped channel. */
  lemma HexPair(n: int)
    ensures var h := HexByte(n);
      |h| == 2 && IsHexDigitLower(h[0]) && IsHexDigitLower(h[1])
      && DigitValue(h[0]) * 16 + DigitValue(h[1]) == Clamp255(n)
  {
    HexRoundTrip(Clamp255(n));
  }

  lemma SpellOut(hr: string, hg: string, hb: string)
    requires |hr| == 2 && |hg| == 2 && |hb| == 2
    ensures "#" + hr + hg + hb == ['#', hr[0], hr[1], hg[0], hg[1], hb[0], hb[1]]
  {
  }

  /** `getHexColor`: `#` and six lowercase hex digits, the three pairs
      reading back as the converted channels clamped to [0,255]. A `NaN`
      channel survives the clamp and prints as `NaN`, which `padStart` leaves
      alone. */
  function GetHexColor(pow: Pow, r: real, g: real, b: real, space: string): (h: string)
    ensures var c := ConvertColor(pow, r, g, b, space, SRGB);
      c.None? ==> h == "#NaNNaNNaN"
    ensures var c := ConvertColor(pow, r, g, b, space, SRGB);
      c.Some? ==>
        && |h| == 7 && h[0] == '#'
        && (forall i :: 1 <= i < 7 ==> IsHexDigitLower(h[i]))
        && ByteAt(h, 1) == Clamp255(c.value.r) && ByteAt(h, 3) == Clamp255(c.value.g)
        && ByteAt(h, 5) == Clamp255(c.value.b)
  {
    match ConvertColor(pow, r, g, b, space, SRGB)
    case None => "#NaNNaNNaN"
    case Some(c) => HexColor(c)
  }

  lemma HexRoundTrip(n: nat)
    requires n < 256
    ensures DigitValue(DigitChar(n / 16)) * 16 + DigitValue(DigitChar(n % 16)) == n
  {
    DigitRoundTrip(n / 16);
    DigitRoundTrip(n % 16);
  }

  /** `getCSSColor`: `rgb(R, G, B)` from the converted channels, not
      re-clamped; `NaN` channels print as `NaN`. */
  function GetCssColor(pow: Pow, r: real, g: real, b: real, space: string): (s: string)
    ensures var c := ConvertColor(pow, r, g, b, space, SRGB);
      c.None? ==> s == "rgb(NaN, NaN, NaN)"
    ensures var c := ConvertColor(pow, r, g, b, space, SRGB);
      c.Some? ==>
        s == "rgb(" + IntToString(c.value.r) + ", " + IntToString(c.value.g) + ", " + IntToString(c.value.b) + ")"
  {
    match ConvertColor(pow, r, g, b, space, SRGB)
    case None => "rgb(NaN, NaN, NaN)"
    case Some(c) => "rgb(" + IntToString(c.r) + ", " + IntToString(c.g) + ", " + IntToString(c.b) + ")"
  }

  /** Whenever the converted channels are bytes, the CSS text carries the very
      numbers the hex text encodes. */
  lemma CssAgreesWithHex(pow: Pow, r: real, g: real, b: real, space: string)
    requires ConvertColor(pow, r, g, b, space, SRGB).Some?
    requires InByteRange(ConvertColor(pow, r, g, b, space, SRGB).value)
    ensures var h := GetHexColor(pow, r, g, b, space);
      GetCssColor(pow, r, g, b, space)
        == "rgb(" + IntToString(ByteAt(h, 1)) + ", " + IntToString(ByteAt(h, 3)) + ", " + IntToString(ByteAt(h, 5)) + ")"
  {
  }

  /** A negative Adobe RGB channel: both formatters print `NaN` channels,
      whatever the other two channels are. */
  lemma NegativeAdobeIsNaN(pow: Pow, g: real, b: real)
    ensures GetHexColor(pow, -5.0, g, b, ADOBE_RGB) == "#NaNNaNNaN"
    ensures GetCssColor(pow, -5.0, g, b, ADOBE_RGB) == "rgb(NaN, NaN, NaN)"
  {
  }

  /** An sRGB red of 300 reaches the CSS text unclamped but the hex text clamped. */
  lemma CssDoesNotClamp(pow: Pow)
    ensures GetCssColor(pow, 300.0, 0.0, 0.0, SRGB) == "rgb(300, 0, 0)"
    ensures GetHexColor(pow, 300.0, 0.0, 0.0, SRGB) == "#ff0000"
  {
    RoundInteger(300);
    RoundInteger(0);
    assert NatToString(300, 10) == NatToString(30, 10) + [DigitChar(0)];
    assert NatToString(30, 10) == NatToString(3, 10) + [DigitChar(0)];
    assert NatToString(0, 10) == "0";
    assert HexByte(300) == "ff";
    assert HexByte(0) == "00";
  }
}

=== FILE: colors_page.dfy ===
/** The colour library screen: the search and colour-space filter over the
    colour list, the add/edit form's validation, and the file-type check of
    the import dialog. */
module ColorsPage {
  import opened Text
  import Seqs
  import Search
  import ColorSpace
  import opened Wrappers

  /** The seven numeric channels of a colour: RGB in [0, 255], CMYK in [0, 100]. */
  datatype Channels = Channels(r: real, g: real, b: real, c: real, m: real, y: real, k: real)

  /** A stored colour. `spotColor` is `None` when the field is missing;
      `colorSpace` is `""` when it is missing or empty. */
  datatype Color = Color(
    id: int,
    name: string,
    displayName: string,
    channels: Channels,
    spotColor: Option<string>,
    colorSpace: string)

  const ALL_SPACES := "all"

  /** `color.color_space || 'Adobe RGB'`. */
  function SpaceOf(c: Color): (s: string)
    ensures c.colorSpace == "" ==> s == ColorSpace.ADOBE_RGB
    ensures c.colorSpace != "" ==> s == c.colorSpace
  {
    if c.colorSpace == "" then ColorSpace.ADOBE_RGB else c.colorSpace
  }

  /** The search box: an empty term matches everything; otherwise the name,
      the display name or the spot colour (when present) must contain it,
      ignoring case. */
  predicate MatchesSearch(c: Color, term: string) {
    term == ""
    || Search.FieldMatches(c.name, term)
    || Search.FieldMatches(c.displayName, term)
    || (c.spotColor.Some? && Search.FieldMatches(c.spotColor.value, term))
  }

  predicate MatchesSpace(c: Color, spaceFilter: string) {
    spaceFilter == ALL_SPACES || SpaceOf(c) == spaceFilter
  }

  predicate Kept(c: Color, term: string, spaceFilter: string) {
    MatchesSearch(c, term) && MatchesSpace(c, spaceFilter)
  }

  /** `filteredColors`: the colours passing both the search and the colour-space filter. */
  function FilterColors(colors: seq<Color>, term: string, spaceFilter: string): (r: seq<Color>)
    ensures forall c :: c in r <==>
      c in colors
      && (term == "" || Search.FieldMatches(c.name, term) || Search.FieldMatches(c.displayName, term)
          || (c.spotColor.Some? && Search.FieldMatches(c.spotColor.value, term)))
      && (spaceFilter == ALL_SPACES || (c.colorSpace == "" && spaceFilter == ColorSpace.ADOBE_RGB)
          || (c.colorSpace != "" && c.colorSpace == spaceFilter))
    ensures |r| <= |colors|
  {
    Seqs.FilterMembers(colors, (c: Color) => Kept(c, term, spaceFilter));
    Seqs.Filter(colors, (c: Color) => Kept(c, term, spaceFilter))
  }

  /** The filter keeps the colours it passes in their original order. */
  lemma FilterColorsKeepsOrder(a: seq<Color>, b: seq<Color>, term: string, spaceFilter: string)
    ensures FilterColors(a + b, term, spaceFilter) == FilterColors(a, term, spaceFilter) + FilterColors(b, term, spaceFilter)
  {
    Seqs.FilterConcat(a, b, (c: Color) => Kept(c, term, spaceFilter));
  }

  /** An empty search with the `'all'` filter shows every colour. */
  lemma NoFilterKeepsAll(colors: seq<Color>)
    ensures FilterColors(colors, "", ALL_SPACES) == colors
  {
    Seqs.FilterAllPass(colors, (c: Color) => Kept(c, "", ALL_SPACES));
  }

  /** The search ignores the case of the term. */
  lemma FilterIgnoresTermCase(colors: seq<Color>, term: string, spaceFilter: string)
    ensures FilterColors(colors, ToLower(term), spaceFilter) == FilterColors(colors, term, spaceFilter)
  {
    forall c: Color
      ensures Kept(c, ToLower(term), spaceFilter) == Kept(c, term, spaceFilter)
    {
      Search.MatchIgnoresCase(c.name, term);
      Search.MatchIgnoresCase(c.displayName, term);
      if c.spotColor.Some? {
        Search.MatchIgnoresCase(c.spotColor.value, term);
      }
    }
    Seqs.FilterEquivalent(colors,
      (c: Color) => Kept(c, ToLower(term), spaceFilter), (c: Color) => Kept(c, term, spaceFilter));
  }

  /** A colour with no colour space is listed under `'Adobe RGB'` and never under `'sRGB'`. */
  lemma MissingSpaceIsAdobe(c: Color, term: string)
    requires c.colorSpace == ""
    ensures Kept(c, term, ColorSpace.ADOBE_RGB) == MatchesSearch(c, term)
    ensures !Kept(c, term, ColorSpace.SRGB)
  {
  }

  /** The colour-space filter splits the list: every colour shown under `'all'`
      is shown under exactly one of `'Adobe RGB'` and `'sRGB'`, provided its
      stored space is one of the two. */
  lemma SpaceFilterSplits(c: Color, term: string)
    requires c.colorSpace in {"", ColorSpace.ADOBE_RGB, ColorSpace.SRGB}
    ensures Kept(c, term, ALL_SPACES) <==> (Kept(c, term, ColorSpace.ADOBE_RGB) != Kept(c, term, ColorSpace.SRGB))
  {
  }

  // ---- The add/edit form ----

  datatype ColorForm = ColorForm(name: string, displayName: string, channels: Channels)

  /** The keys of the form's error record: `name`, `display_name`, and the
      channels `rgb_r` ... `cmyk_k` by position. */
  datatype Field = NameField | DisplayNameField | ChannelField(index: nat)

  const CHANNEL_ERRORS: seq<string> := [
    "RGB Red must be between 0-255", "RGB Green must be between 0-255", "RGB Blue must be between 0-255",
    "CMYK Cyan must be between 0-100", "CMYK Magenta must be between 0-100",
    "CMYK Yellow must be between 0-100", "CMYK Black must be between 0-100"]
  const NAME_REQUIRED := "Color name is required"
  const DISPLAY_NAME_REQUIRED := "Display name is required"

  /** Channel `i` in the order r, g, b, c, m, y, k. */
  function ChannelAt(ch: Channels, i: nat): real
    requires i < 7
  {
    match i
    case 0 => ch.r
    case 1 => ch.g
    case 2 => ch.b
    case 3 => ch.c
    case 4 => ch.m
    case 5 => ch.y
    case _ => ch.k
  }

  /** The inclusive upper bound of channel `i`: 255 for RGB, 100 for CMYK. */
  function ChannelMax(i: nat): real
    requires i < 7
  {
    if i < 3 then 255.0 else 100.0
  }

  predicate ChannelOutOfRange(ch: Channels, i: nat)
    requires i < 7
  {
    ChannelAt(ch, i) < 0.0 || ChannelAt(ch, i) > ChannelMax(i)
  }

  function AddIf(errors: map<Field, string>, cond: bool, key: Field, message: string): (r: map<Field, string>)
    ensures key in r <==> cond || key in errors
    ensures forall k :: k != key ==> (k in r <==> k in errors)
  {
    if cond then errors[key := message] else errors
  }

  /** The range errors of the first `n` channels. */
  function ChannelErrors(ch: Channels, n: nat): (errors: map<Field, string>)
    requires n <= 7
    ensures forall k :: k in errors <==> k.ChannelField? && k.index < n && ChannelOutOfRange(ch, k.index)
  {
    if n == 0 then map[]
    else AddIf(ChannelErrors(ch, n - 1), ChannelOutOfRange(ch, n - 1), ChannelField(n - 1), CHANNEL_ERRORS[n - 1])
  }

  /** The error record `validateForm` builds: one entry per failing field. */
  function FormErrors(f: ColorForm): (errors: map<Field, string>)
    ensures NameField in errors <==> Trim(f.name) == ""
    ensures DisplayNameField in errors <==> Trim(f.displayName) == ""
    ensures forall i :: 0 <= i < 7 ==> (ChannelField(i) in errors <==> ChannelOutOfRange(f.channels, i))
    ensures forall k :: k in errors && k.ChannelField? ==> k.index < 7
  {
    var channels := ChannelErrors(f.channels, 7);
    var e1 := AddIf(channels, Trim(f.displayName) == "", DisplayNameField, DISPLAY_NAME_REQUIRED);
    AddIf(e1, Trim(f.name) == "", NameField, NAME_REQUIRED)
  }

  /** `validateForm()`: true when the error record is empty. */
  predicate ValidateForm(f: ColorForm) {
    |FormErrors(f).Keys| == 0
  }

  /** The form is valid exactly when both names are non-blank, every RGB value
      lies in [0, 255] and every CMYK value in [0, 100], bounds included. */
  lemma ValidateFormIff(f: ColorForm)
    ensures ValidateForm(f) <==>
      Trim(f.name) != "" && Trim(f.displayName) != "" && ChannelsInRange(f.channels)
  {
    var e := FormErrors(f);
    ChannelsInRangeIff(f.channels);
    if ValidateForm(f) {
      assert e == map[];
    } else {
      var k :| k in e;
      if k.ChannelField? {
        assert ChannelOutOfRange(f.channels, k.index);
      }
    }
  }

  /** RGB in [0, 255] and CMYK in [0, 100], bounds included. */
  predicate ChannelsInRange(ch: Channels) {
    0.0 <= ch.r <= 255.0 && 0.0 <= ch.g <= 255.0 && 0.0 <= ch.b <= 255.0
    && 0.0 <= ch.c <= 100.0 && 0.0 <= ch.m <= 100.0 && 0.0 <= ch.y <= 100.0 && 0.0 <= ch.k <= 100.0
  }

  lemma ChannelsInRangeIff(ch: Channels)
    ensures ChannelsInRange(ch) <==> forall i :: 0 <= i < 7 ==> !ChannelOutOfRange(ch, i)
  {
    if forall i :: 0 <= i < 7 ==> !ChannelOutOfRange(ch, i) {
      assert !ChannelOutOfRange(ch, 0) && !ChannelOutOfRange(ch, 1) && !ChannelOutOfRange(ch, 2);
      assert !ChannelOutOfRange(ch, 3) && !ChannelOutOfRange(ch, 4) && !ChannelOutOfRange(ch, 5);
      assert !ChannelOutOfRange(ch, 6);
    }
  }

  /** A blank name, e.g. only spaces, fails validation even when every number is in range. */
  lemma BlankNameRejected(f: ColorForm)
    requires forall i :: 0 <= i < |f.name| ==> IsSpace(f.name[i])
    ensures !ValidateForm(f)
  {
    TrimEmptyIffAllSpace(f.name);
    assert NameField in FormErrors(f);
  }

  // ---- The import dialog's file-type check ----

  const IMPORT_TYPE_ERROR := "Only CSV and JSON files are supported"

  /** `file.name.split('.').pop()?.toLowerCase()`. */
  function ImportExtension(fileName: string): (ext: string)
    ensures '.' !in ext
  {
    var parts := Split(fileName, '.');
    ToLower(parts[|parts| - 1])
  }

  /** The import extension is the lower-cased text after the last dot, the
      same value the font upload check reads. */
  lemma ImportExtensionIsFinal(fileName: string)
    ensures ImportExtension(fileName) == FinalExtension(fileName)
  {
    var parts := Split(fileName, '.');
    var k := LastIndexOf(fileName, '.');
    SplitLastPart(fileName, '.');
    assert parts[|parts| - 1] == fileName[k + 1..];
    ToLowerSuffix(fileName, k + 1);
  }

  /** Only the `csv` and `json` extensions are accepted for import. */
  predicate ImportAccepted(fileName: string) {
    ImportExtension(fileName) in ["csv", "json"]
  }

  /** The file name carries extension `e`, ignoring case: it ends in `"." + e`,
      or it has no dot at all and is `e` itself. */
  predicate HasExtension(fileName: string, e: string) {
    ('.' in fileName && EndsWith(ToLower(fileName), "." + e))
    || ('.' !in fileName && ToLower(fileName) == e)
  }

  /** The final extension is `e` exactly when the name carries extension `e`. */
  lemma FinalExtensionIff(fileName: string, e: string)
    requires '.' !in e
    ensures FinalExtension(fileName) == e <==> HasExtension(fileName, e)
  {
    var lower := ToLower(fileName);
    if '.' in fileName {
      var k := LastIndexOf(fileName, '.');
      assert k >= 0;
      assert lower[k] == '.';
      if EndsWith(lower, "." + e) {
        TailAfterLastDot(lower, k, e);
      }
    }
  }

  /** A name is accepted for import exactly when it carries the extension
      `csv` or `json`, in any case. */
  lemma ImportAcceptedIff(fileName: string)
    ensures ImportAccepted(fileName) <==> HasExtension(fileName, "csv") || HasExtension(fileName, "json")
  {
    AcceptedFinalExtension(fileName);
    DotFreeExtensions();
    FinalExtensionIff(fileName, "csv");
    FinalExtensionIff(fileName, "json");
  }

  lemma AcceptedFinalExtension(fileName: string)
    ensures ImportAccepted(fileName) <==> FinalExtension(fileName) == "csv" || FinalExtension(fileName) == "json"
  {
    ImportExtensionIsFinal(fileName);
  }

  lemma DotFreeExtensions()
    ensures '.' !in "csv" && '.' !in "json"
  {
  }

  /** If a string whose last dot is at `k` ends with `"." + e` for a dot-free
      `e`, then `e` is exactly the text after position `k`. */
  lemma TailAfterLastDot(s: string, k: int, e: string)
    requires 0 <= k < |s| && s[k] == '.'
    requires forall j :: k < j < |s| ==> s[j] != '.'
    requires '.' !in e && EndsWith(s, "." + e)
    ensures s[k + 1..] == e
  {
    var d := |s| - |e| - 1;
    assert s[d] == '.';
    assert d == k;
    assert s[d + 1..] == ("." + e)[1..];
  }
}

=== FILE: font_files.dfy ===
/** Font file names: the client-side upload check, the format and family
    derived from a file name, the `@font-face` rule, the stored name slug,
    the URL a stored path is served from, and the server-side upload filter. */
module FontFiles {
  import opened Text
  import opened Wrappers
  import Seqs

  /** 5 * 1024 * 1024 bytes. */
  const MAX_FONT_BYTES: nat := 5242880

  const SIZE_MESSAGE: string := "Font file must be smaller than 5MB"
  const TYPE_MESSAGE: string := "Only TTF, OTF, WOFF, and WOFF2 files are allowed"

  const FONT_EXTENSIONS: seq<string> := [".ttf", ".otf", ".woff", ".woff2"]

  /** The same four formats without their dot. */
  const FONT_FORMATS: seq<string> := ["ttf", "otf", "woff", "woff2"]

  datatype FontCheck = FontOk | FontRejected(message: string)

  /** The suffix the client compares: the lower-cased name from the last dot
      on, or the whole lower-cased name when there is no dot (`substring(-1)`
      starts at 0). */
  function DottedSuffix(name: string): (ext: string)
    ensures '.' in name ==> ext == "." + FinalExtension(name)
    ensures '.' !in name ==> ext == ToLower(name)
  {
    var k := LastIndexOf(name, '.');
    var lower := ToLower(name);
    if k >= 0 then
      assert lower[k..] == [lower[k]] + lower[k + 1..];
      lower[k..]
    else
      lower[0..]
  }

  /** `validateFontFile`: the size check runs first; then the file is accepted
      exactly when its name has a dot and the lower-cased text after the last
      dot is one of the four font formats. */
  function ValidateFontFile(name: string, size: nat): (v: FontCheck)
    ensures size > MAX_FONT_BYTES ==> v == FontRejected(SIZE_MESSAGE)
    ensures size <= MAX_FONT_BYTES ==>
      (v == FontOk <==> '.' in name && FinalExtension(name) in FONT_FORMATS)
    ensures size <= MAX_FONT_BYTES && v != FontOk ==> v == FontRejected(TYPE_MESSAGE)
  {
    if size > MAX_FONT_BYTES then FontRejected(SIZE_MESSAGE)
    else
      var ext := DottedSuffix(name);
      DottedExtensions(name);
      if ext in FONT_EXTENSIONS then FontOk else FontRejected(TYPE_MESSAGE)
  }

  /** The dotted suffix is an allowed extension exactly when the name has a
      dot and its final extension is an allowed format. */
  lemma DottedExtensions(name: string)
    ensures DottedSuffix(name) in FONT_EXTENSIONS <==> '.' in name && FinalExtension(name) in FONT_FORMATS
  {
    if '.' in name {
      ExtensionsAreDottedFormats(FinalExtension(name));
    } else {
      LowerKeepsDots(name);
      UndottedNotExtension(ToLower(name));
    }
  }

  lemma ExtensionsAreDottedFormats(f: string)
    ensures "." + f in FONT_EXTENSIONS <==> f in FONT_FORMATS
  {
    var e := "." + f;
    assert e[1..] == f;
    assert FONT_EXTENSIONS[0] == "." + FONT_FORMATS[0];
    assert FONT_EXTENSIONS[1] == "." + FONT_FORMATS[1];
    assert FONT_EXTENSIONS[2] == "." + FONT_FORMATS[2];
    assert FONT_EXTENSIONS[3] == "." + FONT_FORMATS[3];
    if e in FONT_EXTENSIONS {
      var j :| 0 <= j < 4 && FONT_EXTENSIONS[j] == e;
      assert FONT_EXTENSIONS[j][1..] == FONT_FORMATS[j];
    }
    if f in FONT_FORMATS {
      var j :| 0 <= j < 4 && FONT_FORMATS[j] == f;
      assert FONT_EXTENSIONS[j] == e;
    }
  }

  lemma UndottedNotExtension(x: string)
    requires '.' !in x
    ensures x !in FONT_EXTENSIONS
  {
    assert forall e :: e in FONT_EXTENSIONS ==> |e| > 0 && e[0] == '.';
  }

  /** A name without a dot never passes, whatever its size. */
  lemma NoDotRejected(name: string, size: nat)
    requires '.' !in name
    ensures ValidateFontFile(name, size) != FontOk
  {
  }

  /** The extension check ignores case. */
  lemma ValidationIgnoresCase(name: string, size: nat)
    ensures ValidateFontFile(ToLower(name), size) == ValidateFontFile(name, size)
  {
    LowerKeepsDots(name);
    LowerIdempotent(name);
    FinalExtensionOfLower(name);
  }

  lemma LowerKeepsDots(s: string)
    ensures forall i :: 0 <= i < |s| ==> (ToLower(s)[i] == '.' <==> s[i] == '.')
    ensures ('.' in ToLower(s)) <==> ('.' in s)
  {
    if '.' in s {
      var i :| 0 <= i < |s| && s[i] == '.';
      assert ToLower(s)[i] == '.';
    }
  }

  lemma LowerIdempotent(s: string)
    ensures ToLower(ToLower(s)) == ToLower(s)
  {
  }

  lemma FinalExtensionOfLower(s: string)
    ensures FinalExtension(ToLower(s)) == FinalExtension(s)
  {
    LowerKeepsDots(s);
    LowerIdempotent(s);
    LastIndexOfLower(s);
  }

  lemma {:induction false} LastIndexOfLower(s: string)
    ensures LastIndexOf(ToLower(s), '.') == LastIndexOf(s, '.')
    decreases |s|
  {
    if |s| > 0 {
      var t := s[..|s| - 1];
      LastIndexOfLower(t);
      assert ToLower(s)[..|s| - 1] == ToLower(t);
    }
  }

  /** A character `generateFontFamily` keeps: `[a-zA-Z0-9\s]`. */
  predicate FamilyChar(c: char) {
    IsAlnum(c) || IsSpace(c)
  }

  /** Replaces every maximal run of whitespace by the single character `c`
      (`replace(/\s+/g, c)`). */
  function ReplaceRuns(s: string, c: char): (r: string)
    ensures forall i :: 0 <= i < |r| ==> r[i] == c || (!IsSpace(r[i]) && r[i] in s)
    ensures |s| > 0 ==> |r| > 0
    ensures |s| > 0 && !IsSpace(s[0]) ==> r[0] == s[0]
    ensures IsSpace(c) ==> forall i :: 0 <= i < |r| - 1 ==> !(r[i] == c && r[i + 1] == c)
    decreases |s|
  {
    if |s| == 0 then ""
    else if IsSpace(s[0]) then
      var rest := TrimStart(s[1..]);
      [c] + ReplaceRuns(rest, c)
    else [s[0]] + ReplaceRuns(s[1..], c)
  }

  /** A string with no whitespace is left alone by `ReplaceRuns`. */
  lemma {:induction false} ReplaceRunsNoSpace(s: string, c: char)
    requires forall i :: 0 <= i < |s| ==> !IsSpace(s[i])
    ensures ReplaceRuns(s, c) == s
    decreases |s|
  {
    if |s| > 0 {
      ReplaceRunsNoSpace(s[1..], c);
      assert s == [s[0]] + s[1..];
    }
  }

  /** A whitespace run between two pieces becomes one `c`: text without
      whitespace is copied, the run is replaced, and the rest is processed
      from the first character after the run. */
  lemma {:induction false} ReplaceRunsRun(x: string, w: string, y: string, c: char)
    requires forall i :: 0 <= i < |x| ==> !IsSpace(x[i])
    requires |w| > 0 && forall i :: 0 <= i < |w| ==> IsSpace(w[i])
    requires |y| > 0 ==> !IsSpace(y[0])
    ensures ReplaceRuns(x + w + y, c) == x + [c] + ReplaceRuns(y, c)
    decreases |x|
  {
    var s := x + w + y;
    if |x| == 0 {
      assert s == w + y;
      assert s[0] == w[0];
      assert s[1..] == w[1..] + y;
      TrimStartSkipsSpaces(w[1..], y);
    } else {
      assert s[0] == x[0];
      assert s[1..] == x[1..] + w + y;
      ReplaceRunsRun(x[1..], w, y, c);
      assert x == [x[0]] + x[1..];
    }
  }

  /** Dropping leading whitespace keeps every character of a class that has no whitespace. */
  lemma TrimStartKeeps(s: string, p: char -> bool)
    requires forall x :: p(x) ==> IsAlnum(x)
    ensures Seqs.Filter(TrimStart(s), p) == Seqs.Filter(s, p)
  {
    var t := TrimStart(s);
    var head := s[..|s| - |t|];
    assert forall i :: 0 <= i < |head| ==> IsSpace(head[i]);
    SpacesFail(head, p);
    assert s == head + t;
    Seqs.FilterSkipsFailing(head, t, p);
  }

  lemma TrimEndKeeps(s: string, p: char -> bool)
    requires forall x :: p(x) ==> IsAlnum(x)
    ensures Seqs.Filter(TrimEnd(s), p) == Seqs.Filter(s, p)
  {
    var t := TrimEnd(s);
    var tail := s[|t|..];
    assert forall i :: 0 <= i < |tail| ==> IsSpace(tail[i]);
    SpacesFail(tail, p);
    assert s == t + tail;
    Seqs.FilterSkipsFailing(tail, t, p);
  }

  /** Whitespace is neither a letter nor a digit. */
  lemma SpacesFail(xs: string, p: char -> bool)
    requires forall x :: p(x) ==> IsAlnum(x)
    requires forall i :: 0 <= i < |xs| ==> IsSpace(xs[i])
    ensures forall i :: 0 <= i < |xs| ==> !p(xs[i])
  {
  }

  /** `trim` keeps every letter and digit, in order. */
  lemma TrimKeeps(s: string, p: char -> bool)
    requires forall x :: p(x) ==> IsAlnum(x)
    ensures Seqs.Filter(Trim(s), p) == Seqs.Filter(s, p)
  {
    TrimStartKeeps(s, p);
    TrimEndKeeps(TrimStart(s), p);
  }

  /** Replacing whitespace runs keeps every letter and digit, in order. */
  lemma {:induction false} ReplaceRunsKeeps(s: string, c: char, p: char -> bool)
    requires forall x :: p(x) ==> IsAlnum(x)
    requires !IsAlnum(c)
    ensures Seqs.Filter(ReplaceRuns(s, c), p) == Seqs.Filter(s, p)
    decreases |s|
  {
    if |s| > 0 {
      if IsSpace(s[0]) {
        var rest := TrimStart(s[1..]);
        ReplaceRunsKeeps(rest, c, p);
        TrimStartKeeps(s[1..], p);
        Seqs.FilterCons(c, ReplaceRuns(rest, c), p);
        assert !p(s[0]);
      } else {
        ReplaceRunsKeeps(s[1..], c, p);
        Seqs.FilterCons(s[0], ReplaceRuns(s[1..], c), p);
      }
    }
  }

  /** The part of a file name before its last dot; `substring(0, -1)` is empty. */
  function Stem(name: string): (stem: string)
    ensures '.' !in name ==> stem == ""
    ensures '.' in name ==> |stem| < |name| && stem == name[..|stem|] && name[|stem|] == '.' && '.' !in name[|stem| + 1..]
  {
    var k := LastIndexOf(name, '.');
    if k < 0 then "" else name[..k]
  }

  /** Only ASCII letters, digits and single spaces, no space at either end. */
  predicate FamilyText(s: string) {
    && (forall i :: 0 <= i < |s| ==> IsAlnum(s[i]) || s[i] == ' ')
    && (forall i :: 0 <= i < |s| - 1 ==> !(s[i] == ' ' && s[i + 1] == ' '))
  }

  /** `generateFontFamily`: the stem, stripped of everything but ASCII letters,
      digits and whitespace, with each whitespace run made one space and the
      ends trimmed. */
  function GenerateFontFamily(name: string): (family: string)
    ensures forall i :: 0 <= i < |family| ==> IsAlnum(family[i]) || family[i] == ' '
    ensures |family| > 0 ==> family[0] != ' ' && family[|family| - 1] != ' '
    ensures forall i :: 0 <= i < |family| - 1 ==> !(family[i] == ' ' && family[i + 1] == ' ')
    ensures '.' !in name ==> family == ""
  {
    var kept := Seqs.Filter(Stem(name), FamilyChar);
    var single := ReplaceRuns(kept, ' ');
    RunsOfFamilyChars(kept);
    var t := Trim(single);
    InfixFamilyText(t, single);
    t
  }

  lemma RunsOfFamilyChars(kept: string)
    requires forall i :: 0 <= i < |kept| ==> FamilyChar(kept[i])
    ensures FamilyText(ReplaceRuns(kept, ' '))
  {
    var r := ReplaceRuns(kept, ' ');
    forall i | 0 <= i < |r|
      ensures IsAlnum(r[i]) || r[i] == ' '
    {
      if r[i] != ' ' {
        assert r[i] in kept;
      }
    }
  }

  lemma InfixFamilyText(t: string, s: string)
    requires FamilyText(s)
    requires exists a :: InfixAt(t, s, a)
    ensures FamilyText(t)
  {
    var a :| InfixAt(t, s, a);
    assert forall i :: 0 <= i < |t| ==> t[i] == s[a + i];
  }

  /** The family keeps exactly the letters and digits of the stem, in order. */
  lemma FamilyKeepsAlnum(name: string)
    ensures Seqs.Filter(GenerateFontFamily(name), IsAlnum) == Seqs.Filter(Stem(name), IsAlnum)
  {
    var kept := Seqs.Filter(Stem(name), FamilyChar);
    var single := ReplaceRuns(kept, ' ');
    TrimKeeps(single, IsAlnum);
    ReplaceRunsKeeps(kept, ' ', IsAlnum);
    Seqs.FilterSubsumed(Stem(name), FamilyChar, IsAlnum);
  }

  /** Two words separated by a whitespace run, before a dot-free extension,
      give the family of the two words' letters and digits joined by one
      space: "Open Sans.ttf" gives "Open Sans". */
  lemma FamilyJoinsWords(x: string, w: string, y: string, e: string)
    requires forall i :: 0 <= i < |x| ==> !IsSpace(x[i])
    requires |w| > 0 && forall i :: 0 <= i < |w| ==> IsSpace(w[i])
    requires forall i :: 0 <= i < |y| ==> !IsSpace(y[i])
    requires exists i :: 0 <= i < |x| && IsAlnum(x[i])
    requires exists i :: 0 <= i < |y| && IsAlnum(y[i])
    requires '.' !in e
    ensures GenerateFontFamily(x + w + y + "." + e) == Seqs.Filter(x, IsAlnum) + " " + Seqs.Filter(y, IsAlnum)
  {
    var xa, ya := Seqs.Filter(x, IsAlnum), Seqs.Filter(y, IsAlnum);
    StemBeforeExtension(x + w + y, e);
    KeptWords(x, w, y);
    HasAlnumKept(x);
    HasAlnumKept(y);
    ReplaceRunsRun(xa, w, ya, ' ');
    ReplaceRunsNoSpace(ya, ' ');
    TrimUnpadded(xa + [' '] + ya);
  }

  /** The stem of a name whose extension has no dot is everything before it. */
  lemma StemBeforeExtension(s: string, e: string)
    requires '.' !in e
    ensures Stem(s + "." + e) == s
  {
    var name := s + "." + e;
    var stem := Stem(name);
    assert name[|s|] == '.';
    assert forall j :: |s| < j < |name| ==> name[j] == e[j - |s| - 1] && name[j] != '.';
    assert name[..|s|] == s;
  }

  /** Two words around a whitespace run keep their letters and digits and the whole run. */
  lemma KeptWords(x: string, w: string, y: string)
    requires forall i :: 0 <= i < |x| ==> !IsSpace(x[i])
    requires forall i :: 0 <= i < |w| ==> IsSpace(w[i])
    requires forall i :: 0 <= i < |y| ==> !IsSpace(y[i])
    ensures Seqs.Filter(x + w + y, FamilyChar) == Seqs.Filter(x, IsAlnum) + w + Seqs.Filter(y, IsAlnum)
  {
    Seqs.FilterConcat(x + w, y, FamilyChar);
    Seqs.FilterConcat(x, w, FamilyChar);
    Seqs.FilterAllPass(w, FamilyChar);
    UnspacedKept(x);
    UnspacedKept(y);
  }

  /** Without whitespace, keeping family characters is keeping letters and digits. */
  lemma {:induction false} UnspacedKept(s: string)
    requires forall i :: 0 <= i < |s| ==> !IsSpace(s[i])
    ensures Seqs.Filter(s, FamilyChar) == Seqs.Filter(s, IsAlnum)
    decreases |s|
  {
    if |s| > 0 {
      UnspacedKept(s[1..]);
    }
  }

  /** A word with a letter or digit keeps a non-empty run of them, free of whitespace. */
  lemma HasAlnumKept(s: string)
    requires exists i :: 0 <= i < |s| && IsAlnum(s[i])
    ensures |Seqs.Filter(s, IsAlnum)| > 0
    ensures forall i :: 0 <= i < |Seqs.Filter(s, IsAlnum)| ==> !IsSpace(Seqs.Filter(s, IsAlnum)[i])
  {
    var i :| 0 <= i < |s| && IsAlnum(s[i]);
    Seqs.FilterMembers(s, IsAlnum);
    assert s[i] in Seqs.Filter(s, IsAlnum);
  }

  /** Only the final extension is cut; the dot left in the stem is then filtered out. */
  lemma MyFontExample(name: string)
    requires name == "My.Font.ttf"
    ensures GenerateFontFamily(name) == "MyFont"
  {
    StemExample(name);
    KeptExample(Stem(name));
    UnspacedExample(Seqs.Filter(Stem(name), FamilyChar));
  }

  lemma StemExample(name: string)
    requires name == "My.Font.ttf"
    ensures Stem(name) == "My.Font"
  {
    assert name[7] == '.' && name[8] != '.' && name[9] != '.' && name[10] != '.';
    assert LastIndexOf(name, '.') == 7;
  }

  lemma KeptExample(stem: string)
    requires stem == "My.Font"
    ensures Seqs.Filter(stem, FamilyChar) == "MyFont"
  {
    var a, d, b := "My", ".", "Font";
    assert stem == a + d + b;
    AlnumKept(a);
    AlnumKept(b);
    DotDropped(d);
    FilterDropsMiddle(a, d, b, FamilyChar);
    JoinedExample();
  }

  lemma JoinedExample()
    ensures "My" + "Font" == "MyFont"
  {
  }

  /** Text made only of the letters `M`, `y`, `F`, `o`, `n`, `t` passes the family filter whole. */
  lemma AlnumKept(s: string)
    requires s == "My" || s == "Font"
    ensures Seqs.Filter(s, FamilyChar) == s
  {
    forall i | 0 <= i < |s|
      ensures FamilyChar(s[i])
    {
      assert IsUpper(s[i]) || IsLower(s[i]);
    }
    Seqs.FilterAllPass(s, FamilyChar);
  }

  lemma DotDropped(d: string)
    requires d == "."
    ensures Seqs.Filter(d, FamilyChar) == []
  {
    assert !FamilyChar(d[0]);
    Seqs.FilterNonePass(d, FamilyChar);
  }

  lemma UnspacedExample(kept: string)
    requires kept == "MyFont"
    ensures Trim(ReplaceRuns(kept, ' ')) == "MyFont"
  {
    assert !IsSpace(kept[0]) && !IsSpace(kept[1]) && !IsSpace(kept[2]);
    assert !IsSpace(kept[3]) && !IsSpace(kept[4]) && !IsSpace(kept[5]);
    UnspacedFamily(kept);
  }

  lemma FilterDropsMiddle(a: string, d: string, b: string, p: char -> bool)
    requires Seqs.Filter(a, p) == a && Seqs.Filter(d, p) == [] && Seqs.Filter(b, p) == b
    ensures Seqs.Filter(a + d + b, p) == a + b
  {
    Seqs.FilterConcat(a, d, p);
    assert a + [] == a;
    Seqs.FilterConcat(a + d, b, p);
  }

  /** Text without whitespace goes through the run replacement and the trim unchanged. */
  lemma UnspacedFamily(kept: string)
    requires forall i :: 0 <= i < |kept| ==> !IsSpace(kept[i])
    ensures Trim(ReplaceRuns(kept, ' ')) == kept
  {
    ReplaceRunsNoSpace(kept, ' ');
    assert TrimStart(kept) == kept;
    assert TrimEnd(kept) == kept;
  }

  /** The `@font-face` rule without the template's surrounding line breaks. */
  function FontFaceRule(family: string, path: string): string {
    "@font-face {\n  font-family: '" + family + "';\n  src: url('" + path + "');\n  font-display: swap;\n}"
  }

  /** `createFontFaceCSS`: the template literal starts with a line break and
      ends with a line break and two spaces; `trim` leaves exactly the rule. */
  function CreateFontFaceCss(family: string, path: string): (css: string)
    ensures css == FontFaceRule(family, path)
  {
    var rule := FontFaceRule(family, path);
    TrimPadding(rule);
    Trim("\n" + rule + "\n  ")
  }

  lemma TrimPadding(rule: string)
    requires |rule| > 0 && !IsSpace(rule[0]) && !IsSpace(rule[|rule| - 1])
    ensures Trim("\n" + rule + "\n  ") == rule
  {
    var padded := "\n" + rule + "\n  ";
    assert padded[1..] == rule + "\n  ";
    assert TrimStart(padded) == TrimStart(rule + "\n  ");
    assert TrimStart(rule + "\n  ") == rule + "\n  ";
    var t := rule + "\n  ";
    assert t[..|t| - 1] == rule + "\n ";
    assert (rule + "\n ")[..|rule| + 1] == rule + "\n";
    assert (rule + "\n")[..|rule|] == rule;
  }

  /** The character class the stored slug keeps: `[a-z0-9\-\.]`. */
  predicate SlugChar(c: char) {
    IsLower(c) || IsDigit(c) || c == '-' || c == '.'
  }

  predicate LowerAlnum(c: char) {
    IsLower(c) || IsDigit(c)
  }

  /** The stored font name: lower-cased, each whitespace run replaced by
      `-`, then every character outside `[a-z0-9.-]` removed. */
  function NameSlug(name: string): (slug: string)
    ensures forall i :: 0 <= i < |slug| ==> SlugChar(slug[i])
  {
    Seqs.Filter(ReplaceRuns(ToLower(name), '-'), SlugChar)
  }

  /** The slug keeps every lower-case letter and digit of the lower-cased name, in order. */
  lemma SlugKeepsAlnum(name: string)
    ensures Seqs.Filter(NameSlug(name), LowerAlnum) == Seqs.Filter(ToLower(name), LowerAlnum)
  {
    Seqs.FilterSubsumed(ReplaceRuns(ToLower(name), '-'), SlugChar, LowerAlnum);
    ReplaceRunsKeeps(ToLower(name), '-', LowerAlnum);
  }

  /** A slug is its own slug. */
  lemma SlugIdempotent(name: string)
    ensures NameSlug(NameSlug(name)) == NameSlug(name)
  {
    var s := NameSlug(name);
    assert ToLower(s) == s;
    ReplaceRunsNoSpace(s, '-');
    Seqs.FilterAllPass(s, SlugChar);
  }

  /** Two words separated by a whitespace run give the two words' slugs
      joined by one `-`. */
  lemma SlugJoinsWords(x: string, w: string, y: string)
    requires forall i :: 0 <= i < |x| ==> !IsSpace(x[i])
    requires |w| > 0 && forall i :: 0 <= i < |w| ==> IsSpace(w[i])
    requires forall i :: 0 <= i < |y| ==> !IsSpace(y[i])
    ensures NameSlug(x + w + y) == NameSlug(x) + "-" + NameSlug(y)
  {
    var lx, lw, ly := ToLower(x), ToLower(w), ToLower(y);
    assert ToLower(x + w + y) == lx + lw + ly;
    assert lw == w;
    ReplaceRunsRun(lx, w, ly, '-');
    ReplaceRunsNoSpace(lx, '-');
    ReplaceRunsNoSpace(ly, '-');
    Seqs.FilterConcat(lx + "-", ly, SlugChar);
    Seqs.FilterConcat(lx, "-", SlugChar);
    assert Seqs.Filter("-", SlugChar) == "-" by {
      Seqs.FilterCons('-', [], SlugChar);
      assert ['-'] + [] == "-";
    }
  }

  const UPLOADS_URL: string := "http://localhost:3001/uploads/"

  /** `replace(/^\/?(uploads\/)?/, '')`: one optional leading slash, then one
      optional `uploads/`. */
  function CleanPath(path: string): (clean: string)
    ensures StartsWith(path, "/uploads/") ==> clean == path[9..]
    ensures !StartsWith(path, "/") && !StartsWith(path, "uploads/") ==> clean == path
    ensures StartsWith(path, "uploads/") ==> clean == path[8..]
    ensures StartsWith(path, "/") && !StartsWith(path, "/uploads/") ==> clean == path[1..]
  {
    UploadsPrefix(path);
    SlashThenUploads(path);
    var p := if StartsWith(path, "/") then path[1..] else path;
    if StartsWith(p, "uploads/") then p[8..] else p
  }

  /** A path under `/uploads/` is a slash followed by a path under `uploads/`. */
  lemma UploadsPrefix(path: string)
    ensures StartsWith(path, "/uploads/") ==>
      (StartsWith(path, "/") && StartsWith(path[1..], "uploads/") && path[1..][8..] == path[9..])
  {
    if StartsWith(path, "/uploads/") {
      var full, tail := "/uploads/", "uploads/";
      assert path[..9] == full;
      assert path[0] == full[0] == '/';
      assert path[..1] == "/";
      forall i | 0 <= i < 8
        ensures path[1..][i] == tail[i]
      {
        assert path[1..][i] == path[..9][i + 1] == full[i + 1];
      }
      assert path[1..][..8] == tail;
    }
  }

  /** A slash followed by a path under `uploads/` is a path under `/uploads/`,
      and a path under `uploads/` has no leading slash. */
  lemma SlashThenUploads(path: string)
    ensures StartsWith(path, "/") && StartsWith(path[1..], "uploads/") ==> StartsWith(path, "/uploads/")
    ensures StartsWith(path, "uploads/") ==> !StartsWith(path, "/")
  {
    if StartsWith(path, "/") && StartsWith(path[1..], "uploads/") {
      assert path[..9] == path[..1] + path[1..][..8];
    }
    if StartsWith(path, "uploads/") {
      assert path[0] == path[..8][0] == 'u';
    }
  }

  /** The URL `loadFontIntoDocument` loads a stored font from. */
  function FontUrl(path: string): (url: string)
    ensures StartsWith(url, UPLOADS_URL)
  {
    UPLOADS_URL + CleanPath(path)
  }

  /** A path with or without the leading `/` and `uploads/` loads from the same URL. */
  lemma FontUrlIgnoresPrefix(rest: string)
    requires !StartsWith(rest, "/") && !StartsWith(rest, "uploads/")
    ensures FontUrl("/uploads/" + rest) == UPLOADS_URL + rest
    ensures FontUrl("uploads/" + rest) == UPLOADS_URL + rest
    ensures FontUrl("/" + rest) == UPLOADS_URL + rest
    ensures FontUrl(rest) == UPLOADS_URL + rest
  {
    assert ("/uploads/" + rest)[1..] == "uploads/" + rest;
    assert ("uploads/" + rest)[8..] == rest;
    assert ("/" + rest)[1..] == rest;
    assert StartsWith("/" + rest, "/");
    assert StartsWith("uploads/" + rest, "uploads/");
    assert StartsWith("/uploads/" + rest, "/");
    assert ("uploads/" + rest)[0] == 'u';
    assert !StartsWith("uploads/" + rest, "/");
  }

  /** `loadFontIntoDocument` does nothing unless both the path and the family are non-empty. */
  function FontToLoad(path: string, family: string): (url: Option<string>)
    ensures url.Some? <==> path != "" && family != ""
    ensures url.Some? ==> url.value == FontUrl(path)
  {
    if path == "" || family == "" then None else Some(FontUrl(path))
  }


  /** Node's `path.extname`: the text from the last dot of the last path
      segment (trailing slashes ignored), or `""` when that segment has no
      dot, starts with its only dot, or is `..`. */
  function ExtName(path: string): (ext: string)
    ensures ext == "" || (ext[0] == '.' && '/' !in ext)
    ensures '/' !in path && LastIndexOf(path, '.') > 0 && path != ".." ==>
      ext == path[LastIndexOf(path, '.')..]
    ensures '/' !in path && LastIndexOf(path, '.') <= 0 ==> ext == ""
  {
    var trimmed := TrimSlashes(path);
    var base := trimmed[LastIndexOf(trimmed, '/') + 1..];
    var k := LastIndexOf(base, '.');
    if k <= 0 || base == ".." then "" else base[k..]
  }

  function TrimSlashes(s: string): (r: string)
    ensures |r| <= |s| && r == s[..|r|]
    ensures '/' !in s ==> r == s
    decreases |s|
  {
    if |s| > 0 && s[|s| - 1] == '/' then TrimSlashes(s[..|s| - 1]) else s
  }

  /** The value of `ALLOWED_FILE_TYPES` when unset or empty. */
  const DEFAULT_ALLOWED_TYPES: string := "ttf,otf,woff,woff2"

  /** `(ALLOWED_FILE_TYPES || 'ttf,otf,woff,woff2').split(',')`. */
  function AllowedTypes(setting: string): (allowed: seq<string>)
    ensures setting == "" ==> allowed == FONT_FORMATS
    ensures setting != "" ==> allowed == Split(setting, ',')
  {
    DefaultAllowedSplit();
    Split(if setting == "" then DEFAULT_ALLOWED_TYPES else setting, ',')
  }

  /** The upload filter: the lower-cased extension of the original name,
      without its dot, looked up in the allowed list. */
  function UploadAccepted(allowedSetting: string, originalName: string): (ok: bool)
    ensures var ext := ExtName(originalName);
      (ext == "" ==> (ok <==> "" in AllowedTypes(allowedSetting)))
      && (ext != "" ==> (ok <==> ToLower(ext)[1..] in AllowedTypes(allowedSetting)))
  {
    var ext := ToLower(ExtName(originalName));
    var fileExt := if |ext| >= 1 then ext[1..] else ext;
    fileExt in AllowedTypes(allowedSetting)
  }

  /** With the default setting, the server filter and the client extension
      check agree on every plain file name except those whose only dot is the first character. */
  lemma UploadFilterAgreesWithClient(name: string)
    requires '/' !in name && LastIndexOf(name, '.') != 0
    ensures UploadAccepted("", name) <==> ValidateFontFile(name, 0) == FontOk
  {
    var k := LastIndexOf(name, '.');
    if k < 0 {
      UndottedRefusedByBoth(name);
    } else if name == ".." {
      DotDotRefusedByBoth(name);
    } else {
      ServerReadsFinalExtension(name, k);
      assert name[k] == '.';
    }
  }

  lemma UndottedRefusedByBoth(name: string)
    requires '/' !in name && LastIndexOf(name, '.') < 0
    ensures !UploadAccepted("", name) && ValidateFontFile(name, 0) != FontOk
  {
    assert '.' !in name;
    assert ExtName(name) == "";
    FormatsNonEmpty();
  }

  lemma DotDotRefusedByBoth(name: string)
    requires name == ".."
    ensures !UploadAccepted("", name) && ValidateFontFile(name, 0) != FontOk
  {
    DotDotExtensions(name);
    FormatsNonEmpty();
  }

  lemma DotDotExtensions(name: string)
    requires name == ".."
    ensures ExtName(name) == "" && FinalExtension(name) == ""
  {
    assert name[1] == '.';
    assert LastIndexOf(name, '.') == 1;
    assert '/' !in name;
    assert TrimSlashes(name) == name;
    assert LastIndexOf(name, '/') == -1;
    assert name[LastIndexOf(name, '/') + 1..] == name;
  }

  lemma FormatsNonEmpty()
    ensures forall f :: f in FONT_FORMATS ==> |f| >= 3
  {
  }

  lemma ServerReadsFinalExtension(name: string, k: int)
    requires '/' !in name && k == LastIndexOf(name, '.') && k > 0 && name != ".."
    ensures UploadAccepted("", name) <==> FinalExtension(name) in FONT_FORMATS
  {
    var ext := ExtName(name);
    assert ext == name[k..];
    LowerSuffix(name, k);
    assert ToLower(ext)[1..] == FinalExtension(name);
  }

  lemma LowerSuffix(s: string, k: nat)
    requires k < |s|
    ensures ToLower(s[k..])[1..] == ToLower(s)[k + 1..]
  {
  }

  lemma DefaultAllowedSplit()
    ensures Split(DEFAULT_ALLOWED_TYPES, ',') == FONT_FORMATS
  {
    var parts := FONT_FORMATS;
    assert Join(parts[3..], ',') == "woff2";
    assert Join(parts[2..], ',') == "woff,woff2";
    assert Join(parts[1..], ',') == "otf,woff,woff2";
    assert Join(parts, ',') == DEFAULT_ALLOWED_TYPES;
    assert forall i :: 0 <= i < |parts| ==> ',' !in parts[i];
    SplitJoin(parts, ',');
  }

  /** A file whose name is only an extension, such as `.ttf`, passes the
      client check but not the server filter. */
  lemma DotFileDisagreement(name: string)
    requires name == ".ttf"
    ensures ValidateFontFile(name, 0) == FontOk
    ensures !UploadAccepted("", name)
  {
    DotFileIndex(name);
    assert ExtName(name) == "";
    FormatsNonEmpty();
    DotFileExtension(name);
    assert FONT_FORMATS[0] == "ttf";
  }

  lemma DotFileIndex(name: string)
    requires name == ".ttf"
    ensures LastIndexOf(name, '.') == 0 && '/' !in name
  {
    assert name[0] == '.' && name[1] != '.' && name[2] != '.' && name[3] != '.';
    assert forall i :: 0 <= i < |name| ==> name[i] != '/';
  }

  lemma DotFileExtension(name: string)
    requires name == ".ttf"
    ensures FinalExtension(name) == "ttf" && '.' in name
  {
    DotFileIndex(name);
    var f := FinalExtension(name);
    assert f == ToLower(name)[1..];
    assert |f| == 3;
    assert f[0] == LowerChar(name[1]) == 't';
    assert f[1] == LowerChar(name[2]) == 't';
    assert f[2] == LowerChar(name[3]) == 'f';
    assert name[0] == '.';
  }

  /** The stored file name: a caller-supplied unique prefix and the original extension. */
  function StoredFileName(uniqueSuffix: string, originalName: string): (f: string)
    ensures EndsWith(f, ExtName(originalName))
  {
    uniqueSuffix + ExtName(originalName)
  }

  /** The `filePath` returned by the upload endpoint. */
  function UploadedFilePath(storedName: string): (path: string)
    ensures StartsWith(path, "/uploads/fonts/")
  {
    "/uploads/fonts/" + storedName
  }

  /** An uploaded font is loaded from `.../uploads/fonts/<stored name>`. */
  lemma UploadedFontUrl(storedName: string)
    ensures FontUrl(UploadedFilePath(storedName)) == UPLOADS_URL + "fonts/" + storedName
  {
    var rest := "fonts/" + storedName;
    var path := UploadedFilePath(storedName);
    assert path == "/uploads/" + rest;
    assert StartsWith(path, "/uploads/") by {
      assert path[..9] == "/uploads/";
    }
    assert CleanPath(path) == rest;
    assert UPLOADS_URL + rest == UPLOADS_URL + "fonts/" + storedName;
  }
}

=== FILE: font_routes.dfy ===
/** The font API: reading one font, the upload reply, recording an uploaded
    font, and the soft delete that first looks the font up. */
module FontRoutes {
  import opened Wrappers
  import opened Text
  import opened Js
  import Sql
  import opened Http
  import FontFiles

  const INVALID_ID := "Invalid font ID"
  const NOT_FOUND := "Font not found"
  const MISSING_FIELDS := "Missing required fields"

  /** The fields `POST /api/fonts` requires to be truthy, in the order it tests them. */
  const REQUIRED: seq<string> := ["name", "display_name", "file_name", "file_path", "font_format", "font_family"]

  predicate HasRequired(body: JsValue) {
    forall i :: 0 <= i < |REQUIRED| ==> Truthy(Get(body, REQUIRED[i]))
  }

  /** The columns of the record handed to `createFont`, in order. */
  const FONT_COLUMNS: seq<string> :=
    ["name", "display_name", "file_name", "file_path", "file_size", "font_format", "font_family", "uploaded_by"]

  /** The record handed to `createFont`: the required fields as sent,
      `parseInt(file_size) || 0`, and `uploaded_by` parsed when truthy and
      `null` otherwise. */
  function FontRow(body: JsValue): (row: Sql.Row)
    ensures Sql.Columns(row) == FONT_COLUMNS
    ensures forall i :: 0 <= i < 4 ==> row[i].1 == Get(body, REQUIRED[i])
    ensures row[5].1 == Get(body, "font_format") && row[6].1 == Get(body, "font_family")
    ensures row[4].1 == JsNumber(ParseIntOr(Get(body, "file_size"), 0) as real)
    ensures row[7].1 == (if Truthy(Get(body, "uploaded_by")) then IntValue(ParseIntValue(Get(body, "uploaded_by"))) else JsNull)
  {
    var values := FontValues(body);
    var row := Sql.Zip(FONT_COLUMNS, values);
    assert forall i :: 0 <= i < |row| ==> row[i].1 == values[i];
    forall i | 0 <= i < 4
      ensures row[i].1 == Get(body, REQUIRED[i])
    {
      if i == 0 {} else if i == 1 {} else if i == 2 {} else {}
    }
    row
  }

  /** The values of `FontRow`, column by column. */
  function FontValues(body: JsValue): (values: seq<JsValue>)
    ensures |values| == |FONT_COLUMNS|
    ensures values[0] == Get(body, REQUIRED[0]) && values[1] == Get(body, REQUIRED[1])
    ensures values[2] == Get(body, REQUIRED[2]) && values[3] == Get(body, REQUIRED[3])
    ensures values[5] == Get(body, "font_format") && values[6] == Get(body, "font_family")
    ensures values[4] == StoredSize(body) && values[7] == StoredUploader(body)
  {
    [Get(body, REQUIRED[0]), Get(body, REQUIRED[1]), Get(body, REQUIRED[2]), Get(body, REQUIRED[3]),
     StoredSize(body), Get(body, REQUIRED[4]), Get(body, REQUIRED[5]), StoredUploader(body)]
  }

  /** `parseInt(file_size) || 0`, as stored. */
  function StoredSize(body: JsValue): (v: JsValue)
    ensures v == JsNumber(ParseIntOr(Get(body, "file_size"), 0) as real)
  {
    JsNumber(ParseIntOr(Get(body, "file_size"), 0) as real)
  }

  /** `uploaded_by ? parseInt(uploaded_by) : null`, as stored. */
  function StoredUploader(body: JsValue): (v: JsValue)
    ensures v == (if Truthy(Get(body, "uploaded_by")) then IntValue(ParseIntValue(Get(body, "uploaded_by"))) else JsNull)
  {
    var uploader := Get(body, "uploaded_by");
    if Truthy(uploader) then IntValue(ParseIntValue(uploader)) else JsNull
  }

  /** `GET /api/fonts/:id`. */
  function GetFont(rawId: string, lookup: Lookup): (r: Reply)
    ensures r.writes == []
    ensures Succeeded(r) <==> ParseInt(rawId).Some? && lookup == Found
    ensures ParseInt(rawId).None? ==> r == Refuse(400, INVALID_ID)
  {
    FetchReply(ParseInt(rawId), lookup, INVALID_ID, NOT_FOUND, "Failed to fetch font")
  }

  /** The stored file the upload middleware hands to the handler. */
  datatype StoredFile = StoredFile(filename: string, originalName: string, size: nat)

  /** The body of a successful upload reply. */
  datatype UploadBody = UploadBody(filePath: string, originalName: string, size: nat)

  /** `POST /api/fonts/upload` once the middleware has run: no file is a
      400 (`None`); otherwise the reply carries the public path of the
      stored file with its original name and size. */
  function UploadReply(file: Option<StoredFile>): (r: Option<UploadBody>)
    ensures r.None? <==> file.None?
    ensures file.Some? ==> r.value.originalName == file.value.originalName && r.value.size == file.value.size
    ensures file.Some? ==>
      (StartsWith(r.value.filePath, "/uploads/fonts/") && r.value.filePath[|"/uploads/fonts/"|..] == file.value.filename)
  {
    match file
    case None => None
    case Some(f) => Some(UploadBody(FontFiles.UploadedFilePath(f.filename), f.originalName, f.size))
  }

  /** `POST /api/fonts`: any required field falsy is a 400 with no write;
      otherwise one `INSERT` binding the font record and two timestamps. */
  function CreateFont(body: JsValue, now: JsValue, outcome: Outcome): (r: Reply)
    ensures !HasRequired(body) <==> r == Refuse(400, MISSING_FIELDS)
    ensures HasRequired(body) ==>
      |r.writes| == 1 && Sql.Balanced(r.writes[0])
      && r.writes[0].params == Sql.Values(FontRow(body)) + [now, now]
      && r.writes == [Sql.Insert("fonts", FontRow(body) + [("created_at", now), ("updated_at", now)])]
      && (Succeeded(r) <==> outcome.Affected?)
  {
    if !HasRequired(body) then Refuse(400, MISSING_FIELDS)
    else
      var row := FontRow(body) + [("created_at", now), ("updated_at", now)];
      assert Sql.Values(row) == Sql.Values(FontRow(body)) + [now, now];
      InsertReply(Sql.Insert("fonts", row), outcome, "Failed to create font")
  }

  /** `DELETE /api/fonts/:id`: a `NaN` id is a 400; the font is looked up
      first and a missing one is a 404 with no write; otherwise the row is
      soft-deleted and no affected row is a 404 as well. */
  function DeleteFont(rawId: string, lookup: Lookup, now: JsValue, outcome: Outcome): (r: Reply)
    ensures ParseInt(rawId).None? ==> r == Refuse(400, INVALID_ID)
    ensures ParseInt(rawId).Some? && lookup == Missing ==> r == Refuse(404, NOT_FOUND)
    ensures ParseInt(rawId).Some? && lookup == LookupFailed ==> r.status == 500 && r.writes == []
    ensures |r.writes| > 0 <==> ParseInt(rawId).Some? && lookup == Found
    ensures Succeeded(r) <==> ParseInt(rawId).Some? && lookup == Found && outcome.Affected? && outcome.rows > 0
    ensures |r.writes| > 0 ==>
      r.writes == [Sql.SoftDelete("fonts", JsNumber(ParseInt(rawId).value as real), now)]
  {
    match ParseInt(rawId)
    case None => Refuse(400, INVALID_ID)
    case Some(id) =>
      match lookup
      case LookupFailed => Refuse(500, "Failed to delete font")
      case Missing => Refuse(404, NOT_FOUND)
      case Found => WriteReply(Sql.DeleteFont(id, now), outcome, NOT_FOUND, "Failed to delete font")
  }

  // ---- Properties ----

  /** Each required field on its own is enough to refuse the request. */
  lemma EachFieldRequired(body: JsValue, k: nat, now: JsValue, outcome: Outcome)
    requires k < |REQUIRED| && !Truthy(Get(body, REQUIRED[k]))
    ensures CreateFont(body, now, outcome) == Refuse(400, MISSING_FIELDS)
  {
  }

  /** A size that does not parse, or parses to 0, is stored as 0; a
      decimal size is stored as the number it spells. */
  lemma FileSizeStored(body: JsValue, n: nat)
    ensures ParseIntValue(Get(body, "file_size")).None? ==> FontRow(body)[4].1 == JsNumber(0.0)
    ensures Get(body, "file_size") == JsString(NatToString(n, 10)) ==> FontRow(body)[4].1 == JsNumber(n as real)
  {
    var v := Get(body, "file_size");
    if v == JsString(NatToString(n, 10)) {
      ParseIntOfIntToString(n);
      assert IntToString(n) == NatToString(n, 10);
      assert ParseIntValue(v) == Some(n);
      assert ParseIntOr(v, 0) == n;
    }
  }

  /** The uploader is `null` unless it is truthy, and an uploader id written
      in decimal is stored as that number. */
  lemma UploaderStored(body: JsValue, n: int)
    ensures !Truthy(Get(body, "uploaded_by")) ==> FontRow(body)[7].1 == JsNull
    ensures Get(body, "uploaded_by") == JsString(IntToString(n)) ==> FontRow(body)[7].1 == JsNumber(n as real)
  {
    var v := Get(body, "uploaded_by");
    if v == JsString(IntToString(n)) {
      ParseIntOfIntToString(n);
      assert ParseIntValue(v) == Some(n);
      assert Truthy(v) by {
        ParseIntEmpty();
      }
    }
  }

  /** The browser loads an uploaded font from the upload folder, under the
      name the middleware stored it with. */
  lemma UploadPathServed(file: StoredFile)
    ensures var r := UploadReply(Some(file));
      r.Some? && FontFiles.FontUrl(r.value.filePath) == FontFiles.UPLOADS_URL + "fonts/" + file.filename
  {
    FontFiles.UploadedFontUrl(file.filename);
  }

  /** A font that is looked up but whose update reports no row is still a 404. */
  lemma VanishedFontNotFound(rawId: string, now: JsValue)
    requires ParseInt(rawId).Some?
    ensures DeleteFont(rawId, Found, now, Affected(0)).status == 404
    ensures |DeleteFont(rawId, Found, now, Affected(0)).writes| == 1
  {
  }
}

=== FILE: fonts_page.dfy ===
/** The font library screen: the search and format filter over the font
    list, the validation pass over the files picked for upload, and the
    record saved for each uploaded file. */
module FontsPage {
  import opened Text
  import opened Wrappers
  import Seqs
  import Search
  import FontFiles

  /** A stored font; `fontFormat` is `None` when the field is missing. */
  datatype Font = Font(
    id: int,
    name: string,
    displayName: string,
    fontFamily: string,
    filePath: string,
    fontFormat: Option<string>)

  const ALL_FORMATS := "all"

  /** The search box: an empty term matches everything; otherwise the name,
      the display name or the family must contain it, ignoring case. */
  predicate MatchesSearch(f: Font, term: string) {
    term == ""
    || Search.FieldMatches(f.name, term)
    || Search.FieldMatches(f.displayName, term)
    || Search.FieldMatches(f.fontFamily, term)
  }

  /** `font.font_format?.toLowerCase() === formatFilter`: a missing format never matches. */
  predicate MatchesFormat(f: Font, formatFilter: string) {
    formatFilter == ALL_FORMATS || (f.fontFormat.Some? && ToLower(f.fontFormat.value) == formatFilter)
  }

  predicate Kept(f: Font, term: string, formatFilter: string) {
    MatchesSearch(f, term) && MatchesFormat(f, formatFilter)
  }

  /** `filteredFonts`. */
  function FilterFonts(fonts: seq<Font>, term: string, formatFilter: string): (r: seq<Font>)
    ensures forall f :: f in r <==>
      f in fonts
      && (term == "" || Search.FieldMatches(f.name, term) || Search.FieldMatches(f.displayName, term)
          || Search.FieldMatches(f.fontFamily, term))
      && (formatFilter == ALL_FORMATS || (f.fontFormat.Some? && ToLower(f.fontFormat.value) == formatFilter))
    ensures |r| <= |fonts|
  {
    Seqs.FilterMembers(fonts, (f: Font) => Kept(f, term, formatFilter));
    Seqs.Filter(fonts, (f: Font) => Kept(f, term, formatFilter))
  }

  /** The filter keeps the fonts it passes in their original order. */
  lemma FilterFontsKeepsOrder(a: seq<Font>, b: seq<Font>, term: string, formatFilter: string)
    ensures FilterFonts(a + b, term, formatFilter) == FilterFonts(a, term, formatFilter) + FilterFonts(b, term, formatFilter)
  {
    Seqs.FilterConcat(a, b, (f: Font) => Kept(f, term, formatFilter));
  }

  /** An empty search with the `'all'` filter shows every font. */
  lemma NoFilterKeepsAll(fonts: seq<Font>)
    ensures FilterFonts(fonts, "", ALL_FORMATS) == fonts
  {
    Seqs.FilterAllPass(fonts, (f: Font) => Kept(f, "", ALL_FORMATS));
  }

  /** The search ignores the case of the term. */
  lemma FilterIgnoresTermCase(fonts: seq<Font>, term: string, formatFilter: string)
    ensures FilterFonts(fonts, ToLower(term), formatFilter) == FilterFonts(fonts, term, formatFilter)
  {
    forall f: Font
      ensures Kept(f, ToLower(term), formatFilter) == Kept(f, term, formatFilter)
    {
      Search.MatchIgnoresCase(f.name, term);
      Search.MatchIgnoresCase(f.displayName, term);
      Search.MatchIgnoresCase(f.fontFamily, term);
    }
    Seqs.FilterEquivalent(fonts,
      (f: Font) => Kept(f, ToLower(term), formatFilter), (f: Font) => Kept(f, term, formatFilter));
  }

  /** The format filter ignores the case of the stored format, and a font
      without a format is only listed under `'all'`. */
  lemma FormatFilterCases(f: Font, formatFilter: string)
    requires formatFilter != ALL_FORMATS
    ensures f.fontFormat.None? ==> !MatchesFormat(f, formatFilter)
    ensures f.fontFormat.Some? ==>
      MatchesFormat(f, formatFilter) == MatchesFormat(f.(fontFormat := Some(ToLower(f.fontFormat.value))), formatFilter)
  {
    if f.fontFormat.Some? {
      FontFiles.LowerIdempotent(f.fontFormat.value);
    }
  }

  // ---- Picking files ----

  /** A picked file: its name and size in bytes. */
  datatype PickedFile = PickedFile(name: string, size: nat)

  predicate IsValid(file: PickedFile) {
    FontFiles.ValidateFontFile(file.name, file.size) == FontFiles.FontOk
  }

  /** `${file.name}: ${validation.error}` for each rejected file, in order. */
  function RejectionLines(files: seq<PickedFile>): (lines: seq<string>)
    ensures |lines| == |files| - |Seqs.Filter(files, IsValid)|
    decreases |files|
  {
    if |files| == 0 then [] else FileLines(files[0]) + RejectionLines(files[1..])
  }

  /** The line one picked file contributes: none when it is valid. */
  function FileLines(file: PickedFile): (lines: seq<string>)
    ensures |lines| == if IsValid(file) then 0 else 1
  {
    match FontFiles.ValidateFontFile(file.name, file.size)
    case FontOk => []
    case FontRejected(message) => [file.name + ": " + message]
  }

  /** Unfolds RejectionLines once on a list that starts with a non-empty part. */
  lemma RejectionLinesStep(a: seq<PickedFile>, b: seq<PickedFile>)
    requires |a| > 0
    ensures RejectionLines(a) == FileLines(a[0]) + RejectionLines(a[1..])
    ensures RejectionLines(a + b) == FileLines(a[0]) + RejectionLines(a[1..] + b)
  {
    assert (a + b)[0] == a[0];
    assert (a + b)[1..] == a[1..] + b;
  }

  /** The lines come file by file: a pick split in two gives the first
      part's lines followed by the second's. */
  lemma {:induction false} RejectionLinesInOrder(a: seq<PickedFile>, b: seq<PickedFile>)
    ensures RejectionLines(a + b) == RejectionLines(a) + RejectionLines(b)
    decreases |a|
  {
    if |a| == 0 {
      assert a + b == b;
    } else {
      RejectionLinesStep(a, b);
      RejectionLinesInOrder(a[1..], b);
      Seqs.AppendAssociates(FileLines(a[0]), RejectionLines(a[1..]), RejectionLines(b));
    }
  }

  /** A valid file gives no line, a rejected one gives `<name>: <error>`. */
  lemma RejectionLineOfFile(file: PickedFile)
    ensures IsValid(file) ==> RejectionLines([file]) == []
    ensures !IsValid(file) ==>
      RejectionLines([file]) == [file.name + ": " + FontFiles.ValidateFontFile(file.name, file.size).message]
  {
    assert [file][1..] == [];
  }

  /** What the upload dialog shows after files are picked. */
  datatype PickState = PickState(selected: seq<PickedFile>, uploadError: Option<string>)

  const INVALID_HEADER := "Some files are invalid:\n"

  /** `handleFileSelect`: an empty pick changes nothing; otherwise the valid
      files become the selection and the rejected ones are listed in one
      error, one `<name>: <error>` line each under a fixed header. */
  function HandleFileSelect(previous: PickState, files: seq<PickedFile>): (s: PickState)
    ensures |files| == 0 ==> s == previous
    ensures |files| > 0 ==> s.selected == Seqs.Filter(files, IsValid)
    ensures |files| > 0 ==> (s.uploadError.None? <==> forall i :: 0 <= i < |files| ==> IsValid(files[i]))
    ensures |files| > 0 && s.uploadError.Some? ==>
      s.uploadError.value == INVALID_HEADER + JoinWith(RejectionLines(files), "\n")
  {
    if |files| == 0 then previous
    else
      var valid := Seqs.Filter(files, IsValid);
      var errors := RejectionLines(files);
      Seqs.FilterKeepsAll(files, IsValid);
      PickState(valid, if |errors| > 0 then Some(INVALID_HEADER + JoinWith(errors, "\n")) else None)
  }

  /** The pick partitions the files: each is either selected or reported,
      and the selection keeps the picking order. */
  lemma PickPartitions(files: seq<PickedFile>)
    requires |files| > 0
    ensures var s := HandleFileSelect(PickState([], None), files);
      |s.selected| + |RejectionLines(files)| == |files|
      && (forall f :: f in s.selected <==> f in files && IsValid(f))
  {
    var s := HandleFileSelect(PickState([], None), files);
    assert s.selected == Seqs.Filter(files, IsValid);
    Seqs.FilterMembers(files, IsValid);
  }

  /** A file over the size limit is always reported, whatever its name. */
  lemma OversizedFileReported(name: string, size: nat)
    requires size > FontFiles.MAX_FONT_BYTES
    ensures RejectionLines([PickedFile(name, size)]) == [name + ": " + FontFiles.SIZE_MESSAGE]
  {
  }

  // ---- The record saved after an upload ----

  datatype FontPayload = FontPayload(
    name: string,
    displayName: string,
    fileName: string,
    filePath: string,
    fileSize: nat,
    fontFormat: string,
    fontFamily: string)

  /** The body of `createFont` for an uploaded file stored at `filePath`. */
  function UploadPayload(file: PickedFile, filePath: string): (p: FontPayload)
    ensures p.displayName == p.fontFamily
    ensures p.fileName == file.name && p.filePath == filePath && p.fileSize == file.size
    ensures forall i :: 0 <= i < |p.name| ==> FontFiles.SlugChar(p.name[i])
    ensures '.' !in p.fontFormat
    ensures p.name == FontFiles.NameSlug(file.name)
    ensures p.fontFamily == FontFiles.GenerateFontFamily(file.name)
    ensures p.fontFormat == FinalExtension(file.name)
  {
    var family := FontFiles.GenerateFontFamily(file.name);
    FontPayload(FontFiles.NameSlug(file.name), family, file.name, filePath, file.size,
                FinalExtension(file.name), family)
  }

  /** A file that passed validation is saved with one of the four font formats. */
  lemma ValidFileFormat(file: PickedFile, filePath: string)
    requires IsValid(file)
    ensures UploadPayload(file, filePath).fontFormat in FontFiles.FONT_FORMATS
  {
  }

  /** A stem without letters or digits gives an empty family. */
  lemma EmptyFamilyWithoutAlnum(name: string)
    requires forall i :: 0 <= i < |FontFiles.Stem(name)| ==> !IsAlnum(FontFiles.Stem(name)[i])
    ensures FontFiles.GenerateFontFamily(name) == ""
  {
    FontFiles.FamilyKeepsAlnum(name);
    Seqs.FilterNonePass(FontFiles.Stem(name), IsAlnum);
  }

  /** A file can pass validation and still get an empty family and display
      name: `-.ttf` has no letter or digit before its extension. */
  lemma ValidFileEmptyFamily(name: string)
    requires name == "-.ttf"
    ensures IsValid(PickedFile(name, 0))
    ensures UploadPayload(PickedFile(name, 0), "").displayName == ""
  {
    DashTtfParts(name);
    EmptyFamilyWithoutAlnum(name);
  }

  lemma DashTtfParts(name: string)
    requires name == "-.ttf"
    ensures FontFiles.Stem(name) == "-"
    ensures '.' in name && FinalExtension(name) == "ttf"
  {
    assert name[1] == '.' && name[2] != '.' && name[3] != '.' && name[4] != '.';
    assert LastIndexOf(name, '.') == 1;
    assert ToLower(name)[2..] == "ttf";
  }
}

=== FILE: http.dfy ===
/** What the Express handlers answer and what the database hands back to
    them. A handler is modelled as a function of the request and of the
    database's answers; the writes it sends are part of its reply. */
module Http {
  import opened Wrappers
  import Sql

  /** A reply: the status code, the `error` text of a failure reply, and the
      writes the handler sent to the database, in order. */
  datatype Reply = Reply(status: int, error: Option<string>, writes: seq<Sql.Statement>)

  /** What a write came back with: the affected-row count, or an exception. */
  datatype Outcome = Affected(rows: nat) | Threw

  /** What a lookup by id came back with: a row, no row (`null`), or an exception. */
  datatype Lookup = Found | Missing | LookupFailed

  /** A failure reply sent before any write. */
  function Refuse(status: int, message: string): (r: Reply)
    ensures r.status == status && r.error == Some(message) && r.writes == []
  {
    Reply(status, Some(message), [])
  }

  predicate Succeeded(r: Reply) {
    r.error.None?
  }

  /** The reply to an `INSERT`: 201 unless the write throws, which the
      handler's `catch` turns into a 500. */
  function InsertReply(st: Sql.Statement, outcome: Outcome, failed: string): (r: Reply)
    ensures r.writes == [st]
    ensures Succeeded(r) <==> outcome.Affected?
    ensures Succeeded(r) ==> r.status == 201
    ensures !Succeeded(r) ==> r.status == 500 && r.error == Some(failed)
  {
    if outcome.Threw? then Reply(500, Some(failed), [st]) else Reply(201, None, [st])
  }

  /** The reply to an `UPDATE` or `DELETE` whose affected-row count decides
      between success and "not found"; an exception is a 500. */
  function WriteReply(st: Sql.Statement, outcome: Outcome, notFound: string, failed: string): (r: Reply)
    ensures r.writes == [st]
    ensures Succeeded(r) <==> outcome.Affected? && outcome.rows > 0
    ensures Succeeded(r) ==> r.status == 200
    ensures outcome == Affected(0) ==> r.status == 404 && r.error == Some(notFound)
    ensures outcome.Threw? ==> r.status == 500 && r.error == Some(failed)
  {
    match outcome
    case Threw => Reply(500, Some(failed), [st])
    case Affected(n) => if n == 0 then Reply(404, Some(notFound), [st]) else Reply(200, None, [st])
  }

  /** A `GET /:id` handler: `NaN` id is a 400, no row a 404, and nothing is written. */
  function FetchReply(id: Option<int>, lookup: Lookup, invalid: string, notFound: string, failed: string): (r: Reply)
    ensures r.writes == []
    ensures Succeeded(r) <==> id.Some? && lookup == Found
    ensures id.None? ==> r.status == 400 && r.error == Some(invalid)
    ensures id.Some? && lookup == Missing ==> r.status == 404 && r.error == Some(notFound)
    ensures id.Some? && lookup == LookupFailed ==> r.status == 500 && r.error == Some(failed)
  {
    if id.None? then Refuse(400, invalid)
    else match lookup
      case Found => Reply(200, None, [])
      case Missing => Refuse(404, notFound)
      case LookupFailed => Refuse(500, failed)
  }
}

=== FILE: item_routes.dfy ===
/** The item API: reading one item, creating an item, the partial update
    that only touches the fields the body defines, and the hard delete. */
module ItemRoutes {
  import opened Wrappers
  import opened Js
  import Sql
  import Seqs
  import opened Http

  const INVALID_ID := "Invalid item ID"
  const NOT_FOUND := "Item not found"
  const MISSING_FIELDS := "Missing required fields: name, category, price"

  /** The item fields a body may carry, in the order the handlers read them. */
  const ITEM_FIELDS: seq<string> := ["name", "category", "price", "stock", "description"]

  /** `POST /api/items` accepts a body with a truthy name and category and
      any defined price; a price of `0` is allowed. */
  predicate CreateAccepted(body: JsValue) {
    Truthy(Get(body, "name")) && Truthy(Get(body, "category")) && Get(body, "price") != JsUndefined
  }

  /** The record handed to `createItem`: the price through `parseFloat`, the
      stock through `parseInt(stock) || 0`, and the description as sent, even
      when it is `undefined`. */
  function ItemRow(body: JsValue, p: NumParsers): (row: Sql.Row)
    ensures Sql.Columns(row) == ITEM_FIELDS
    ensures row[0].1 == Get(body, "name") && row[1].1 == Get(body, "category")
    ensures row[2].1 == NumberValue(ParseFloat(Get(body, "price"), p))
    ensures row[3].1 == JsNumber(ParseIntOr(Get(body, "stock"), 0) as real)
    ensures row[4].1 == Get(body, "description")
  {
    var values := [Get(body, ITEM_FIELDS[0]), Get(body, ITEM_FIELDS[1]),
                   NumberValue(ParseFloat(Get(body, ITEM_FIELDS[2]), p)),
                   JsNumber(ParseIntOr(Get(body, ITEM_FIELDS[3]), 0) as real),
                   Get(body, ITEM_FIELDS[4])];
    var row := Sql.Zip(ITEM_FIELDS, values);
    assert forall i :: 0 <= i < |row| ==> row[i].1 == values[i];
    row
  }

  /** How `PUT /api/items/:id` converts a defined field: the price through
      `parseFloat`, the stock through `parseInt` with no fallback, the rest as sent. */
  function Convert(field: string, v: JsValue, p: NumParsers): (w: JsValue)
    ensures field != "price" && field != "stock" ==> w == v
    ensures field == "price" || field == "stock" ==> w.JsNumber? || w.JsNaN?
  {
    if field == "price" then NumberValue(ParseFloat(v, p))
    else if field == "stock" then IntValue(ParseIntValue(v))
    else v
  }

  predicate Defined(body: JsValue, field: string) {
    Get(body, field) != JsUndefined
  }

  /** The update record: one entry per field of `fields` that the body
      defines, converted, in the order of `fields`. */
  function Changes(body: JsValue, fields: seq<string>, p: NumParsers): (row: Sql.Row)
    ensures |row| <= |fields|
    ensures forall i :: 0 <= i < |row| ==> row[i].0 in fields && Defined(body, row[i].0)
    ensures forall i :: 0 <= i < |row| ==> row[i].1 == Convert(row[i].0, Get(body, row[i].0), p)
    decreases |fields|
  {
    if |fields| == 0 then []
    else
      var rest := Changes(body, fields[1..], p);
      var k := fields[0];
      if Defined(body, k) then [(k, Convert(k, Get(body, k), p))] + rest else rest
  }

  /** `GET /api/items/:id`. */
  function GetItem(rawId: string, lookup: Lookup): (r: Reply)
    ensures r.writes == []
    ensures Succeeded(r) <==> ParseInt(rawId).Some? && lookup == Found
    ensures ParseInt(rawId).None? ==> r == Refuse(400, INVALID_ID)
  {
    FetchReply(ParseInt(rawId), lookup, INVALID_ID, NOT_FOUND, "Failed to fetch item")
  }

  /** `POST /api/items`: a rejected body is a 400 with no write; otherwise
      one `INSERT` binding the item record and two timestamps. */
  function CreateItem(body: JsValue, p: NumParsers, now: JsValue, outcome: Outcome): (r: Reply)
    ensures !CreateAccepted(body) <==> r == Refuse(400, MISSING_FIELDS)
    ensures CreateAccepted(body) ==>
      |r.writes| == 1 && Sql.Balanced(r.writes[0])
      && r.writes[0].params == Sql.Values(ItemRow(body, p)) + [now, now]
      && r.writes == [Sql.Insert("items", ItemRow(body, p) + [("created_at", now), ("updated_at", now)])]
      && (Succeeded(r) <==> outcome.Affected?)
  {
    if !CreateAccepted(body) then Refuse(400, MISSING_FIELDS)
    else
      var row := ItemRow(body, p) + [("created_at", now), ("updated_at", now)];
      assert Sql.Values(row) == Sql.Values(ItemRow(body, p)) + [now, now];
      InsertReply(Sql.Insert("items", row), outcome, "Failed to create item")
  }

  /** `PUT /api/items/:id`: a `NaN` id is a 400; otherwise one `UPDATE`
      setting the defined fields and the timestamp, bound to the id, and no
      affected row is a 404. */
  function UpdateItem(rawId: string, body: JsValue, p: NumParsers, now: JsValue, outcome: Outcome): (r: Reply)
    ensures ParseInt(rawId).None? ==> r == Refuse(400, INVALID_ID)
    ensures ParseInt(rawId).Some? ==>
      |r.writes| == 1 && Sql.Balanced(r.writes[0])
      && r.writes[0].params == Sql.Values(Changes(body, ITEM_FIELDS, p)) + [now, JsNumber(ParseInt(rawId).value as real)]
      && r.writes == [UpdateStatement(Changes(body, ITEM_FIELDS, p), now, ParseInt(rawId).value)]
      && (Succeeded(r) <==> outcome.Affected? && outcome.rows > 0)
      && (outcome == Affected(0) ==> r.status == 404)
  {
    match ParseInt(rawId)
    case None => Refuse(400, INVALID_ID)
    case Some(id) =>
      WriteReply(UpdateStatement(Changes(body, ITEM_FIELDS, p), now, id), outcome, NOT_FOUND, "Failed to update item")
  }

  /** The `UPDATE items` statement for the converted fields: the fields, then
      `updated_at`, bound to the id. */
  function UpdateStatement(changes: Sql.Row, now: JsValue, id: int): (st: Sql.Statement)
    ensures Sql.Balanced(st)
    ensures st.params == Sql.Values(changes) + [now, JsNumber(id as real)]
    ensures Sql.Render(st.sql) == "UPDATE items SET " + Sql.SetClause(Sql.Columns(changes) + ["updated_at"]) + " WHERE id = ?"
  {
    var stamp := [("updated_at", now)];
    var row := changes + stamp;
    Sql.UpdateById("items", row, JsNumber(id as real));
    assert Sql.Columns(row) == Sql.Columns(changes) + ["updated_at"];
    UpdateItemsHead();
    Sql.UpdateBalanced("items", row, Sql.ID_WHERE, Some([JsNumber(id as real)]));
    Sql.ValuesAppend(changes, stamp);
    assert Sql.Values(stamp) == [now];
    Sql.Update("items", row, Sql.ID_WHERE, Some([JsNumber(id as real)]))
  }

  /** `DELETE /api/items/:id`: a `NaN` id is a 400; otherwise the row is
      removed with `DELETE FROM items WHERE id = ?`. */
  function DeleteItem(rawId: string, outcome: Outcome): (r: Reply)
    ensures ParseInt(rawId).None? ==> r == Refuse(400, INVALID_ID)
    ensures ParseInt(rawId).Some? ==>
      |r.writes| == 1 && r.writes[0].params == [JsNumber(ParseInt(rawId).value as real)]
      && Sql.Balanced(r.writes[0])
      && Sql.Render(r.writes[0].sql) == "DELETE FROM items WHERE " + Sql.Render(Sql.ID_WHERE)
      && (Succeeded(r) <==> outcome.Affected? && outcome.rows > 0)
      && (outcome == Affected(0) ==> r.status == 404)
  {
    match ParseInt(rawId)
    case None => Refuse(400, INVALID_ID)
    case Some(id) =>
      var st := Sql.Delete("items", Sql.ID_WHERE, Some([JsNumber(id as real)]));
      DeleteHead();
      WriteReply(st, outcome, NOT_FOUND, "Failed to delete item")
  }

  lemma UpdateItemsHead()
    ensures "UPDATE " + "items" + " SET " == "UPDATE items SET "
  {
  }

  lemma DeleteHead()
    ensures "DELETE FROM " + "items" + " WHERE " == "DELETE FROM items WHERE "
  {
  }

  // ---- Properties ----

  /** The update sets exactly the fields the body defines, in the handler's order. */
  lemma {:induction false} ChangesAreDefinedFields(body: JsValue, fields: seq<string>, p: NumParsers)
    ensures Sql.Columns(Changes(body, fields, p)) == Seqs.Filter(fields, (k: string) => Defined(body, k))
    decreases |fields|
  {
    if |fields| > 0 {
      ChangesAreDefinedFields(body, fields[1..], p);
      var rest := Changes(body, fields[1..], p);
      var k := fields[0];
      if Defined(body, k) {
        assert Sql.Columns([(k, Convert(k, Get(body, k), p))] + rest) == [k] + Sql.Columns(rest);
      }
    }
  }

  /** A body that defines no item field updates only the timestamp. */
  lemma EmptyBodyTouchesOnlyTimestamp(rawId: string, p: NumParsers, now: JsValue)
    requires ParseInt(rawId).Some?
    ensures UpdateItem(rawId, JsObject(map[]), p, now, Affected(1)).writes[0].params
      == [now, JsNumber(ParseInt(rawId).value as real)]
  {
    ChangesAreDefinedFields(JsObject(map[]), ITEM_FIELDS, p);
    Seqs.FilterNonePass(ITEM_FIELDS, (k: string) => Defined(JsObject(map[]), k));
  }

  /** The update never binds `undefined`: an undefined field is left out
      and a defined one converts to a defined value. */
  lemma UpdateBindsNoUndefined(rawId: string, body: JsValue, p: NumParsers, now: JsValue)
    requires ParseInt(rawId).Some? && now != JsUndefined
    ensures JsUndefined !in UpdateItem(rawId, body, p, now, Affected(1)).writes[0].params
  {
    var vs := Sql.Values(Changes(body, ITEM_FIELDS, p));
    DefinedValues(body, ITEM_FIELDS, p);
    assert JsUndefined !in vs;
  }

  lemma DefinedValues(body: JsValue, fields: seq<string>, p: NumParsers)
    ensures JsUndefined !in Sql.Values(Changes(body, fields, p))
  {
    var c := Changes(body, fields, p);
    var vs := Sql.Values(c);
    forall i | 0 <= i < |vs|
      ensures vs[i] != JsUndefined
    {
      assert vs[i] == c[i].1;
      assert Defined(body, c[i].0);
    }
  }

  /** The create binds the description as sent, `undefined` included. */
  lemma CreateBindsUndefinedDescription(body: JsValue, p: NumParsers, now: JsValue)
    requires CreateAccepted(body) && Get(body, "description") == JsUndefined
    ensures JsUndefined in CreateItem(body, p, now, Affected(1)).writes[0].params
  {
    assert Sql.Values(ItemRow(body, p))[4] == JsUndefined;
  }

  /** A zero price is a price: the create accepts it, while an empty name is refused. */
  lemma ZeroPriceAccepted(body: JsValue)
    requires Truthy(Get(body, "name")) && Truthy(Get(body, "category"))
    requires Get(body, "price") == JsNumber(0.0)
    ensures CreateAccepted(body)
    ensures !CreateAccepted(JsObject(map["name" := JsString(""), "category" := Get(body, "category"), "price" := JsNumber(0.0)]))
  {
  }

  /** A stock that does not parse: the create stores 0, the update stores `NaN`. */
  lemma UnparsedStock(rawId: string, body: JsValue, p: NumParsers, now: JsValue)
    requires CreateAccepted(body) && ParseInt(rawId).Some?
    requires Defined(body, "stock") && ParseIntValue(Get(body, "stock")).None?
    ensures ItemRow(body, p)[3].1 == JsNumber(0.0)
    ensures ("stock", JsNaN) in Changes(body, ITEM_FIELDS, p)
  {
    var c := Changes(body, ITEM_FIELDS, p);
    assert ITEM_FIELDS[3..][0] == "stock";
    assert c == Changes(body, ITEM_FIELDS[..3], p) + Changes(body, ITEM_FIELDS[3..], p) by {
      ChangesSplit(body, ITEM_FIELDS, 3, p);
    }
    assert Changes(body, ITEM_FIELDS[3..], p)[0] == ("stock", JsNaN);
  }

  /** Create and update read the price alike, and a stock that parses alike;
      they differ only on an unparsable stock (`UnparsedStock`). */
  lemma ConvertAgreesWithCreate(body: JsValue, p: NumParsers)
    ensures Convert("price", Get(body, "price"), p) == ItemRow(body, p)[2].1
    ensures ParseIntValue(Get(body, "stock")).Some? ==>
      Convert("stock", Get(body, "stock"), p) == ItemRow(body, p)[3].1
  {
  }

  lemma {:induction false} ChangesSplit(body: JsValue, fields: seq<string>, n: nat, p: NumParsers)
    requires n <= |fields|
    ensures Changes(body, fields, p) == Changes(body, fields[..n], p) + Changes(body, fields[n..], p)
    decreases n
  {
    if n > 0 {
      ChangesSplit(body, fields[1..], n - 1, p);
      assert fields[..n][1..] == fields[1..][..n - 1];
      assert fields[1..][n - 1..] == fields[n..];
    }
  }
}

=== FILE: js.dfy ===
/** The JavaScript values that reach the dashboard's handlers (request bodies,
    query strings, imported records) and the coercions the code applies to
    them: truthiness, `||`, `parseInt`, `parseFloat` and the numeric
    conversion done by `<` and `>`. */
module Js {
  import opened Text
  import opened Wrappers

  datatype JsValue =
    | JsUndefined
    | JsNull
    | JsBool(b: bool)
    | JsNumber(n: real)
    | JsNaN
    | JsString(s: string)
    | JsArray(items: seq<JsValue>)
    | JsObject(fields: map<string, JsValue>)

  /** JavaScript truthiness: `undefined`, `null`, `false`, `0`, `NaN` and `''` are falsy. */
  predicate Truthy(v: JsValue) {
    match v
    case JsUndefined => false
    case JsNull => false
    case JsBool(b) => b
    case JsNumber(n) => n != 0.0
    case JsNaN => false
    case JsString(s) => s != ""
    case JsArray(_) => true
    case JsObject(_) => true
  }

  /** `a || b`. */
  function Or(a: JsValue, b: JsValue): (r: JsValue)
    ensures Truthy(a) ==> r == a
    ensures !Truthy(a) ==> r == b
  {
    if Truthy(a) then a else b
  }

  /** Property access `v.key`: `undefined` when `v` is not an object or lacks the key. */
  function Get(v: JsValue, key: string): (r: JsValue)
    ensures v.JsObject? && key in v.fields ==> r == v.fields[key]
    ensures !(v.JsObject? && key in v.fields) ==> r == JsUndefined
  {
    if v.JsObject? && key in v.fields then v.fields[key] else JsUndefined
  }

  /** The first truthy property among `keys`, as `v.k1 || v.k2 || ... || fallback`. */
  function FirstTruthy(v: JsValue, keys: seq<string>, fallback: JsValue): (r: JsValue)
    ensures (exists i :: 0 <= i < |keys| && Truthy(Get(v, keys[i]))) ==> Truthy(r)
    ensures (forall i :: 0 <= i < |keys| ==> !Truthy(Get(v, keys[i]))) ==> r == fallback
    decreases |keys|
  {
    if |keys| == 0 then fallback else Or(Get(v, keys[0]), FirstTruthy(v, keys[1..], fallback))
  }

  /** Number-to-integer truncation toward zero, as `parseInt` applies it to a plain number. */
  function Trunc(x: real): (n: int)
    ensures x >= 0.0 ==> n as real <= x < n as real + 1.0
    ensures x < 0.0 ==> n as real - 1.0 < x <= n as real
  {
    if x >= 0.0 then x.Floor else -((-x).Floor)
  }

  /** The longest prefix of `s` made of digits of the given base. */
  function DigitPrefix(s: string, base: nat): (d: string)
    requires base == 10 || base == 16
    ensures |d| <= |s| && d == s[..|d|]
    ensures forall i :: 0 <= i < |d| ==> IsBaseDigit(d[i], base)
    ensures |d| < |s| ==> !IsBaseDigit(s[|d|], base)
    decreases |s|
  {
    if |s| > 0 && IsBaseDigit(s[0], base) then [s[0]] + DigitPrefix(s[1..], base) else ""
  }

  predicate IsBaseDigit(c: char, base: nat) {
    IsDigit(c) || (base == 16 && ('a' <= c <= 'f' || 'A' <= c <= 'F'))
  }

  /** `parseInt(s)` with no radix: leading whitespace, an optional sign, an
      optional `0x`/`0X` prefix selecting base 16, then the longest digit
      prefix; `None` stands for `NaN`. */
  function ParseInt(s: string): (r: Option<int>)
  {
    var t := TrimStart(s);
    Signed(t, ParseUnsigned(Unsigned(t)))
  }

  /** The magnitude read after the sign, negated when `t` starts with `-`. */
  function Signed(t: string, m: Option<nat>): (r: Option<int>)
    ensures r.None? <==> m.None?
  {
    if m.None? then None
    else if |t| > 0 && t[0] == '-' then Some(-(m.value as int))
    else Some(m.value)
  }

  /** The text after an optional leading sign. */
  function Unsigned(t: string): (u: string)
    ensures |t| > 0 && (t[0] == '-' || t[0] == '+') ==> u == t[1..]
    ensures !(|t| > 0 && (t[0] == '-' || t[0] == '+')) ==> u == t
  {
    if |t| > 0 && (t[0] == '-' || t[0] == '+') then t[1..] else t
  }

  /** The unsigned part of `parseInt`: an optional `0x`/`0X` prefix selects
      base 16, then the longest digit prefix is read. */
  function ParseUnsigned(u: string): (r: Option<nat>)
  {
    var hex := |u| >= 2 && u[0] == '0' && (u[1] == 'x' || u[1] == 'X');
    var base := if hex then 16 else 10;
    var digits := DigitPrefix(if hex then u[2..] else u, base);
    if |digits| == 0 then None else Some(DigitsValue(ToLower(digits), base))
  }

  /** The decimal rendering of an integer parses back to the same integer. */
  lemma ParseIntOfIntToString(n: int)
    ensures ParseInt(IntToString(n)) == Some(n)
  {
    var m := if n < 0 then -n else n;
    var ds := NatToString(m, 10);
    var s := IntToString(n);
    assert TrimStart(s) == s;
    ParseUnsignedDigits(m);
    if n < 0 {
      assert s == "-" + ds;
      assert Unsigned(s) == ds;
    } else {
      assert Unsigned(s) == ds;
    }
  }

  /** A rendered natural number reads back as itself. */
  lemma ParseUnsignedDigits(m: nat)
    ensures ParseUnsigned(NatToString(m, 10)) == Some(m)
  {
    var ds := NatToString(m, 10);
    DigitPrefixAll(ds);
    NatToStringRoundTrip(m, 10);
    LowerDigits(ds);
    NoHexPrefix(m);
  }

  lemma {:induction false} DigitPrefixAll(ds: string)
    requires forall i :: 0 <= i < |ds| ==> IsDigit(ds[i])
    ensures DigitPrefix(ds, 10) == ds
    decreases |ds|
  {
    if |ds| > 0 {
      DigitPrefixAll(ds[1..]);
      assert ds == [ds[0]] + ds[1..];
    }
  }

  lemma LowerDigits(ds: string)
    requires forall i :: 0 <= i < |ds| ==> IsDigit(ds[i])
    ensures ToLower(ds) == ds
  {
  }

  /** A rendered natural number never starts with `0x`: a leading zero only occurs in "0". */
  lemma NoHexPrefix(m: nat)
    ensures var ds := NatToString(m, 10); !(|ds| >= 2 && ds[0] == '0')
  {
    var ds := NatToString(m, 10);
    if |ds| >= 2 {
      LeadingDigit(m);
    }
  }

  lemma {:induction false} LeadingDigit(m: nat)
    ensures var ds := NatToString(m, 10); |ds| >= 2 ==> ds[0] != '0'
    decreases m
  {
    if m >= 10 {
      LeadingDigit(m / 10);
      var ds := NatToString(m, 10);
      var hi := NatToString(m / 10, 10);
      assert ds[0] == hi[0];
      if |hi| == 1 {
        assert hi == [DigitChar(m / 10)];
        assert m / 10 >= 1;
      }
    }
  }

  /** The text a value becomes inside a template literal (`String(v)`);
      `showNumber` is the number-to-text conversion. Array elements that are
      `null` or `undefined` render as empty text. */
  function Display(v: JsValue, showNumber: real -> string): (s: string)
    ensures v.JsString? ==> s == v.s
    decreases v
  {
    match v
    case JsUndefined => "undefined"
    case JsNull => "null"
    case JsBool(b) => if b then "true" else "false"
    case JsNumber(n) => showNumber(n)
    case JsNaN => "NaN"
    case JsString(s) => s
    case JsArray(items) =>
      JoinWith(seq(|items|, i requires 0 <= i < |items| =>
        if items[i].JsNull? || items[i].JsUndefined? then "" else Display(items[i], showNumber)), ",")
    case JsObject(_) => "[object Object]"
  }

  /** A one-element array reads as its element. */
  lemma DisplaySingle(x: JsValue, show: real -> string)
    requires !x.JsNull? && !x.JsUndefined?
    ensures Display(JsArray([x]), show) == Display(x, show)
  {
    var parts := seq(1, i requires 0 <= i < 1 =>
      if [x][i].JsNull? || [x][i].JsUndefined? then "" else Display([x][i], show));
    assert parts == [Display(x, show)];
  }

  /** Abstract conversions between numbers and text: `parseFloat(s)` and
      `Number(s)` on a string (the second is what `<` and `>` apply), and
      `String(n)` on a number. `None` is `NaN`. */
  datatype NumParsers = NumParsers(
    parseFloat: string -> Option<real>,
    toNumber: string -> Option<real>,
    toText: real -> string)

  /** `parseFloat(v)`: numbers pass through, strings are parsed, an array is
      parsed through its text; other values read as `NaN`. */
  function ParseFloat(v: JsValue, p: NumParsers): (r: Option<real>)
    ensures v.JsNumber? ==> r == Some(v.n)
    ensures v.JsString? ==> r == p.parseFloat(v.s)
    ensures v.JsArray? ==> r == p.parseFloat(Display(v, p.toText))
    ensures !v.JsNumber? && !v.JsString? && !v.JsArray? ==> r == None
  {
    match v
    case JsNumber(n) => Some(n)
    case JsString(s) => p.parseFloat(s)
    case JsArray(_) => p.parseFloat(Display(v, p.toText))
    case _ => None
  }

  /** `parseInt(v)`: strings are parsed, numbers truncated, an array reads as
      its first element (its text stops at the first comma); everything
      else is `NaN`. `ParseIntValueReadsText` shows this is `parseInt` of
      the value's text. */
  function ParseIntValue(v: JsValue): (r: Option<int>)
    ensures v.JsNumber? ==> r == Some(Trunc(v.n))
    ensures v.JsString? ==> r == ParseInt(v.s)
    ensures v.JsArray? && |v.items| == 0 ==> r == None
    ensures !v.JsNumber? && !v.JsString? && !v.JsArray? ==> r == None
    decreases v
  {
    match v
    case JsNumber(n) => Some(Trunc(n))
    case JsString(s) => ParseInt(s)
    case JsArray(items) => if |items| == 0 then None else ParseIntValue(items[0])
    case _ => None
  }

  /** The numeric value `v` takes in a relational comparison such as `v < 0`;
      an array is compared through its text. */
  function ToNumber(v: JsValue, p: NumParsers): (r: Option<real>)
    ensures v.JsUndefined? || v.JsNaN? || v.JsObject? ==> r == None
    ensures v.JsNull? ==> r == Some(0.0)
    ensures v.JsArray? ==> r == p.toNumber(Display(v, p.toText))
  {
    match v
    case JsUndefined => None
    case JsNull => Some(0.0)
    case JsBool(b) => Some(if b then 1.0 else 0.0)
    case JsNumber(n) => Some(n)
    case JsNaN => None
    case JsString(s) => p.toNumber(s)
    case JsArray(_) => p.toNumber(Display(v, p.toText))
    case JsObject(_) => None
  }

  /** `parseInt(v)` converts `v` to text first: for any `String(n)` that
      writes numbers in positional notation, `ParseIntValue` is `parseInt`
      of the value's text, arrays included. */
  lemma {:induction false} ParseIntValueReadsText(v: JsValue, show: real -> string)
    requires forall n :: ParseInt(show(n)) == Some(Trunc(n))
    ensures ParseIntValue(v) == ParseInt(Display(v, show))
    decreases v
  {
    match v
    case JsUndefined => WordTexts();
    case JsNull => WordTexts();
    case JsBool(b) => WordTexts();
    case JsNumber(n) =>
    case JsNaN => WordTexts();
    case JsString(s) =>
    case JsObject(_) => WordTexts();
    case JsArray(items) =>
      ArrayTextFirst(items, show);
      if |items| > 0 && !items[0].JsNull? && !items[0].JsUndefined? {
        ParseIntValueReadsText(items[0], show);
      }
  }

  /** `parseInt` of an array's text reads only its first element's text,
      which is empty for no element, `null` or `undefined`. */
  lemma ArrayTextFirst(items: seq<JsValue>, show: real -> string)
    ensures |items| == 0 ==> ParseInt(Display(JsArray(items), show)) == None
    ensures |items| > 0 && (items[0].JsNull? || items[0].JsUndefined?) ==>
      ParseInt(Display(JsArray(items), show)) == None
    ensures |items| > 0 && !items[0].JsNull? && !items[0].JsUndefined? ==>
      ParseInt(Display(JsArray(items), show)) == ParseInt(Display(items[0], show))
  {
    var parts := seq(|items|, i requires 0 <= i < |items| =>
      if items[i].JsNull? || items[i].JsUndefined? then "" else Display(items[i], show));
    assert Display(JsArray(items), show) == JoinWith(parts, ",");
    ParseIntEmpty();
    if |items| > 1 {
      ParseIntStopsAtComma(parts[0], JoinWith(parts[1..], ","));
    }
  }

  /** The texts of `undefined`, `null`, the booleans, `NaN` and a plain object all read as `NaN`. */
  lemma WordTexts()
    ensures ParseInt("undefined") == None && ParseInt("null") == None
    ensures ParseInt("true") == None && ParseInt("false") == None
    ensures ParseInt("NaN") == None && ParseInt("[object Object]") == None
  {
    NotNumeric("undefined");
    NotNumeric("null");
    NotNumeric("true");
    NotNumeric("false");
    NotNumeric("NaN");
    NotNumeric("[object Object]");
  }

  lemma ParseIntEmpty()
    ensures ParseInt("") == None
  {
  }

  /** Text that starts with anything but a blank, a sign or a digit is `NaN`. */
  lemma NotNumeric(s: string)
    requires |s| > 0 && !IsSpace(s[0]) && s[0] != '-' && s[0] != '+' && !IsDigit(s[0])
    ensures ParseInt(s) == None
  {
    assert TrimStart(s) == s;
  }

  /** `parseInt("0")` is 0. */
  lemma ParseIntZero()
    ensures ParseInt("0") == Some(0)
  {
    ParseIntOfIntToString(0);
    assert IntToString(0) == "0";
  }

  /** `parseInt` stops at a comma: what follows it is never read. */
  lemma ParseIntStopsAtComma(a: string, rest: string)
    ensures ParseInt(a + "," + rest) == ParseInt(a)
  {
    var b := "," + rest;
    assert a + "," + rest == a + b;
    TrimStartAppend(a, b);
    var t := TrimStart(a);
    UnsignedStops(t, b);
    UnsignedPartStops(Unsigned(t), b);
    var m := ParseUnsigned(Unsigned(t));
    if |t| == 0 {
      ParseUnsignedEmpty(Unsigned(t));
    } else {
      assert (t + b)[0] == t[0];
    }
    assert Signed(t + b, m) == Signed(t, m);
  }

  lemma ParseUnsignedEmpty(u: string)
    requires u == ""
    ensures ParseUnsigned(u) == None
  {
  }

  lemma UnsignedStops(t: string, b: string)
    requires |b| > 0 && b[0] == ','
    ensures Unsigned(t + b) == Unsigned(t) + b
  {
    if |t| > 0 && (t[0] == '-' || t[0] == '+') {
      assert (t + b)[1..] == t[1..] + b;
    } else if |t| == 0 {
      assert t + b == b;
    }
  }

  lemma UnsignedPartStops(u: string, b: string)
    requires |b| > 0 && b[0] == ','
    ensures ParseUnsigned(u + b) == ParseUnsigned(u)
  {
    var hex := |u| >= 2 && u[0] == '0' && (u[1] == 'x' || u[1] == 'X');
    var u' := u + b;
    if |u| < 2 {
      assert |u| == 0 ==> u'[0] == ',';
      assert |u| == 1 ==> u'[1] == ',';
    } else {
      assert u'[0] == u[0] && u'[1] == u[1];
    }
    if hex {
      assert u'[2..] == u[2..] + b;
      DigitPrefixStops(u[2..], b, 16);
    } else {
      DigitPrefixStops(u, b, 10);
    }
  }

  /** Blanks are skipped across the join of two texts. */
  lemma {:induction false} TrimStartAppend(a: string, b: string)
    requires |b| > 0 && !IsSpace(b[0])
    ensures TrimStart(a + b) == TrimStart(a) + b
    decreases |a|
  {
    if |a| == 0 {
      assert a + b == b;
    } else {
      assert (a + b)[0] == a[0];
      if IsSpace(a[0]) {
        assert (a + b)[1..] == a[1..] + b;
        TrimStartAppend(a[1..], b);
      }
    }
  }

  /** The digit prefix of `w + b` is that of `w` when `b` starts with a non-digit. */
  lemma {:induction false} DigitPrefixStops(w: string, b: string, base: nat)
    requires base == 10 || base == 16
    requires |b| > 0 && !IsBaseDigit(b[0], base)
    ensures DigitPrefix(w + b, base) == DigitPrefix(w, base)
    decreases |w|
  {
    if |w| == 0 {
      assert w + b == b;
    } else {
      assert (w + b)[0] == w[0];
      if IsBaseDigit(w[0], base) {
        assert (w + b)[1..] == w[1..] + b;
        DigitPrefixStops(w[1..], b, base);
      }
    }
  }

  /** `v < lo || v > hi`; any comparison with `NaN` is false. */
  predicate OutOfRange(v: JsValue, lo: real, hi: real, p: NumParsers) {
    var x := ToNumber(v, p);
    x.Some? && (x.value < lo || x.value > hi)
  }

  /** An optional number as the JavaScript number it stands for. */
  function NumberValue(x: Option<real>): (v: JsValue)
    ensures x.Some? ==> v == JsNumber(x.value)
    ensures x.None? ==> v == JsNaN
  {
    if x.Some? then JsNumber(x.value) else JsNaN
  }

  function IntValue(x: Option<int>): (v: JsValue)
    ensures x.Some? ==> v == JsNumber(x.value as real)
    ensures x.None? ==> v == JsNaN
  {
    if x.Some? then JsNumber(x.value as real) else JsNaN
  }

  /** `parseInt(v) || d`: a NaN or zero parse falls back to `d`. */
  function ParseIntOr(v: JsValue, d: int): (r: int)
    ensures ParseIntValue(v).Some? && ParseIntValue(v).value != 0 ==> r == ParseIntValue(v).value
    ensures ParseIntValue(v).None? || ParseIntValue(v).value == 0 ==> r == d
  {
    var x := ParseIntValue(v);
    if x.Some? && x.value != 0 then x.value else d
  }
}

=== FILE: paging.dfy ===
/** The twelve-per-page windows shared by the colour, font and print-option
    lists: the page count, the page slice and the Previous/Next buttons. The
    "Showing a to b of n" summary belongs to the print-option list only; the
    colour and font lists show "Showing X of Y" (filtered of total). */
module Paging {

  const PAGE_SIZE: nat := 12

  /** `Math.ceil(n / 12)`. */
  function TotalPages(n: nat): (t: nat)
    ensures t * PAGE_SIZE >= n
    ensures t == 0 || (t - 1) * PAGE_SIZE < n
    ensures t == 0 <==> n == 0
  {
    (n + PAGE_SIZE - 1) / PAGE_SIZE
  }

  /** A `slice` index as JavaScript resolves it: negative counts from the end,
      and the result is clamped into `[0, len]`. */
  function SliceIndex(i: int, len: nat): (k: nat)
    ensures k <= len
    ensures 0 <= i <= len ==> k == i
    ensures i > len ==> k == len
  {
    if i < 0 then (if len + i < 0 then 0 else len + i)
    else if i > len then len
    else i
  }

  /** `xs.slice(start, end)`. */
  function Slice<T>(xs: seq<T>, start: int, end: int): (ys: seq<T>)
    ensures |ys| <= |xs|
    ensures 0 <= start <= end <= |xs| ==> ys == xs[start..end]
  {
    var s := SliceIndex(start, |xs|);
    var e := SliceIndex(end, |xs|);
    if s < e then xs[s..e] else []
  }

  function Min(a: int, b: int): int { if a <= b then a else b }
  function Max(a: int, b: int): int { if a >= b then a else b }

  /** Page `p` of a filtered list: `slice((p - 1) * 12, (p - 1) * 12 + 12)`. */
  function Page<T>(xs: seq<T>, p: int): (ys: seq<T>)
    ensures p >= 1 ==> ys == xs[Min((p - 1) * PAGE_SIZE, |xs|)..Min(p * PAGE_SIZE, |xs|)]
    ensures |ys| <= PAGE_SIZE
  {
    Slice(xs, (p - 1) * PAGE_SIZE, (p - 1) * PAGE_SIZE + PAGE_SIZE)
  }

  /** The first `k` pages, concatenated. */
  function FirstPages<T>(xs: seq<T>, k: nat): seq<T>
  {
    if k == 0 then [] else FirstPages(xs, k - 1) + Page(xs, k)
  }

  lemma {:induction false} FirstPagesPrefix<T>(xs: seq<T>, k: nat)
    ensures FirstPages(xs, k) == xs[..Min(k * PAGE_SIZE, |xs|)]
    decreases k
  {
    if k > 0 {
      FirstPagesPrefix(xs, k - 1);
      var a := Min((k - 1) * PAGE_SIZE, |xs|);
      var b := Min(k * PAGE_SIZE, |xs|);
      assert xs[..a] + xs[a..b] == xs[..b];
    }
  }

  /** The pages partition the list: concatenating pages 1 to `TotalPages`
      gives back the whole list, in order. */
  lemma PagesPartition<T>(xs: seq<T>)
    ensures FirstPages(xs, TotalPages(|xs|)) == xs
  {
    FirstPagesPrefix(xs, TotalPages(|xs|));
    assert xs[..|xs|] == xs;
  }

  /** Every page up to `TotalPages` is non-empty and every later page is empty;
      only the last page may hold fewer than twelve items. */
  lemma PageSizes<T>(xs: seq<T>, p: int)
    requires p >= 1
    ensures p <= TotalPages(|xs|) <==> |Page(xs, p)| > 0
    ensures p < TotalPages(|xs|) ==> |Page(xs, p)| == PAGE_SIZE
  {
  }

  /** Item `k` of the list is item `k % 12` of page `k / 12 + 1`, and that
      page exists. */
  lemma ItemOnPage<T>(xs: seq<T>, k: nat)
    requires k < |xs|
    ensures 1 <= k / PAGE_SIZE + 1 <= TotalPages(|xs|)
    ensures k % PAGE_SIZE < |Page(xs, k / PAGE_SIZE + 1)|
    ensures Page(xs, k / PAGE_SIZE + 1)[k % PAGE_SIZE] == xs[k]
  {
    var p := k / PAGE_SIZE + 1;
    assert (p - 1) * PAGE_SIZE + k % PAGE_SIZE == k;
  }

  /** The Previous button: `Math.max(prev - 1, 1)`. */
  function PrevPage(p: int): (q: int)
    ensures q >= 1
    ensures p > 1 ==> q == p - 1
  {
    Max(p - 1, 1)
  }

  /** The Next button: `Math.min(prev + 1, totalPages)`. */
  function NextPage(p: int, total: nat): (q: int)
    ensures q <= total
    ensures p < total ==> q == p + 1
  {
    Min(p + 1, total)
  }

  /** The buttons are only shown when there is more than one page; from any
      page in range they keep the page in `[1, totalPages]` and move by at
      most one. */
  lemma ButtonsStayInRange(p: int, total: nat)
    requires total > 1 && 1 <= p <= total
    ensures 1 <= PrevPage(p) <= total && 1 <= NextPage(p, total) <= total
    ensures p - 1 <= PrevPage(p) <= p <= NextPage(p, total) <= p + 1
  {
  }

  /** "Showing a to b of n": `a = (p - 1) * 12 + 1` and `b = min(p * 12, n)`. */
  function ShowingRange(p: int, n: nat): (range: (int, int))
  {
    ((p - 1) * PAGE_SIZE + 1, Min(p * PAGE_SIZE, n))
  }

  /** On an existing page the summary names exactly the items on display:
      a 1-based inclusive range inside the list whose length is the page's. */
  lemma ShowingMatchesPage<T>(xs: seq<T>, p: int)
    requires 1 <= p <= TotalPages(|xs|)
    ensures var (a, b) := ShowingRange(p, |xs|);
      1 <= a <= b <= |xs| && b - a + 1 == |Page(xs, p)|
      && forall i :: 0 <= i < |Page(xs, p)| ==> Page(xs, p)[i] == xs[a - 1 + i]
  {
  }
}

=== FILE: print_option_categories.dfy ===
/** The print-options overview: the categories loaded from the server (or
    the built-in defaults when that fails), split into print options and
    production options. */
module PrintOptionCategories {
  import opened Wrappers
  import opened PrintOptionTypes
  import Seqs

  function DefaultCategory(id: string, name: string, categoryType: string, description: string, icon: string): (c: Category)
    ensures c.id == id && c.categoryType == categoryType && c.optionCount == 0 && c.isActive
  {
    Category(id, name, categoryType, description, icon, 0, true)
  }

  /** `defaultCategories`. */
  const DEFAULT_CATEGORIES: seq<Category> := [
    DefaultCategory("paper", "Paper", PRINT_OPTION, "Paper types and weights", "\U{1F4C4}"),
    DefaultCategory("format", "Format", PRINT_OPTION, "Paper sizes and dimensions", "\U{1F4D0}"),
    DefaultCategory("colors", "Colors", PRINT_OPTION, "Color printing options", "\U{1F3A8}"),
    DefaultCategory("pages", "Pages", PRINT_OPTION, "Page printing configurations", "\U{1F4C3}"),
    DefaultCategory("binding", "Binding", PRINT_OPTION, "Binding and assembly options", "\U{1F4DA}"),
    DefaultCategory("refinement", "Refinement", PRINT_OPTION, "Surface treatments and coatings", "\U{2728}"),
    DefaultCategory("finishing", "Finishing", PRINT_OPTION, "Post-processing and finishing", "\U{1F3AF}"),
    DefaultCategory("production", "Production", PRODUCTION_OPTION, "Production timing and priority", "\U{1F3ED}"),
    DefaultCategory("quantity", "Quantity", PRODUCTION_OPTION, "Quantity tiers and pricing", "\U{1F4CA}"),
    DefaultCategory("proofing", "Proofing", PRODUCTION_OPTION, "Proofing and approval options", "\U{1F50D}")
  ]

  predicate IsPrint(c: Category) { c.categoryType == PRINT_OPTION }
  predicate IsProduction(c: Category) { c.categoryType == PRODUCTION_OPTION }

  /** `printOptionCategories`: the print-option categories in load order. */
  function PrintCategories(categories: seq<Category>): (r: seq<Category>)
    ensures forall c :: c in r <==> c in categories && c.categoryType == PRINT_OPTION
  {
    Seqs.FilterMembers(categories, IsPrint);
    Seqs.Filter(categories, IsPrint)
  }

  /** `productionOptionCategories`: the production-option categories in load order. */
  function ProductionCategories(categories: seq<Category>): (r: seq<Category>)
    ensures forall c :: c in r <==> c in categories && c.categoryType == PRODUCTION_OPTION
  {
    Seqs.FilterMembers(categories, IsProduction);
    Seqs.Filter(categories, IsProduction)
  }

  /** No category is listed in both sections, and one of any other type is
      listed in neither. */
  lemma SectionsDisjoint(categories: seq<Category>, c: Category)
    ensures !(c in PrintCategories(categories) && c in ProductionCategories(categories))
    ensures c.categoryType != PRINT_OPTION && c.categoryType != PRODUCTION_OPTION ==>
      c !in PrintCategories(categories) && c !in ProductionCategories(categories)
  {
  }

  /** When every category has one of the two types, the sections together
      list each category exactly once. */
  lemma SectionsCover(categories: seq<Category>)
    requires forall i :: 0 <= i < |categories| ==> categories[i].categoryType in {PRINT_OPTION, PRODUCTION_OPTION}
    ensures |PrintCategories(categories)| + |ProductionCategories(categories)| == |categories|
  {
    Seqs.FilterComplementCount(categories, IsPrint, IsProduction);
  }

  /** Each section keeps the load order. */
  lemma SectionsKeepOrder(a: seq<Category>, b: seq<Category>)
    ensures PrintCategories(a + b) == PrintCategories(a) + PrintCategories(b)
    ensures ProductionCategories(a + b) == ProductionCategories(a) + ProductionCategories(b)
  {
    Seqs.FilterConcat(a, b, IsPrint);
    Seqs.FilterConcat(a, b, IsProduction);
  }

  /** `loadCategories`: the server's categories, or the defaults when the
      request fails (`None`). */
  function LoadCategories(response: Option<seq<Category>>): (r: seq<Category>)
    ensures response.Some? ==> r == response.value
    ensures response.None? ==> r == DEFAULT_CATEGORIES
    ensures response.None? ==> |r| == 10 && forall i :: 0 <= i < |r| ==> r[i].optionCount == 0 && r[i].isActive
  {
    if response.Some? then response.value else DEFAULT_CATEGORIES
  }

  /** The defaults are ten categories with distinct ids, all active and empty. */
  lemma DefaultsDistinct()
    ensures |DEFAULT_CATEGORIES| == 10
    ensures forall i, j :: 0 <= i < j < |DEFAULT_CATEGORIES| ==> DEFAULT_CATEGORIES[i].id != DEFAULT_CATEGORIES[j].id
    ensures forall i :: 0 <= i < |DEFAULT_CATEGORIES| ==>
      DEFAULT_CATEGORIES[i].optionCount == 0 && DEFAULT_CATEGORIES[i].isActive
  {
  }

  /** Seven defaults are print options and three are production options. */
  lemma DefaultSections()
    ensures |PrintCategories(DEFAULT_CATEGORIES)| == 7
    ensures |ProductionCategories(DEFAULT_CATEGORIES)| == 3
  {
    assert forall i :: 0 <= i < 7 ==> DEFAULT_CATEGORIES[i].categoryType == PRINT_OPTION;
    assert forall i :: 7 <= i < 10 ==> DEFAULT_CATEGORIES[i].categoryType == PRODUCTION_OPTION;
    SectionCounts(DEFAULT_CATEGORIES, 7);
  }

  /** A list of `k` print options followed by production options splits at `k`. */
  lemma SectionCounts(categories: seq<Category>, k: nat)
    requires k <= |categories|
    requires forall i :: 0 <= i < k ==> categories[i].categoryType == PRINT_OPTION
    requires forall i :: k <= i < |categories| ==> categories[i].categoryType == PRODUCTION_OPTION
    ensures |PrintCategories(categories)| == k
    ensures |ProductionCategories(categories)| == |categories| - k
  {
    var printPart, productionPart := categories[..k], categories[k..];
    assert categories == printPart + productionPart;
    assert forall i :: 0 <= i < |printPart| ==> IsPrint(printPart[i]) && !IsProduction(printPart[i]);
    assert forall i :: 0 <= i < |productionPart| ==> IsProduction(productionPart[i]) && !IsPrint(productionPart[i]);
    assert |PrintCategories(categories)| == k by {
      Seqs.FilterSkipsFailing(productionPart, printPart, IsPrint);
      Seqs.FilterAllPass(printPart, IsPrint);
    }
    assert |ProductionCategories(categories)| == |categories| - k by {
      Seqs.FilterSkipsFailing(printPart, productionPart, IsProduction);
      Seqs.FilterAllPass(productionPart, IsProduction);
    }
  }
}

=== FILE: print_option_form.dfy ===
/** The "add option" form, used both as a dialog component and inline in the
    category manager: the request body built from the form, and what a
    submit does to the form and the screen. */
module PrintOptionForm {
  import opened Wrappers
  import opened Js
  import opened PrintOptionTypes

  /** The form's fields; `iconFile` names the picked icon, if any. */
  datatype OptionForm = OptionForm(
    name: string,
    displayName: string,
    description: string,
    weight: string,
    purchaseWidth: string,
    purchaseHeight: string,
    pricePerThousandSqFt: string,
    iconFile: Option<string>)

  /** The state the form starts in and is reset to. */
  const EMPTY_FORM := OptionForm("", "", "", "", "", "", "", None)

  /** The only category whose options carry specifications and pricing. */
  const PAPER := "paper"
  const PER_UNIT := "per_unit"

  /** The body sent to create an option. */
  datatype OptionPayload = OptionPayload(
    categoryId: string,
    name: string,
    displayName: string,
    description: string,
    specifications: JsValue,
    pricing: JsValue,
    iconFile: Option<string>)

  /** `optionData`: the texts are copied as typed; a paper option carries its
      three measurements and its price, each read with `parseFloat`, priced
      per unit; any other category sends empty objects. */
  function BuildPayload(categoryId: string, form: OptionForm, p: NumParsers): (d: OptionPayload)
    ensures d.categoryId == categoryId && d.name == form.name && d.displayName == form.displayName
    ensures d.description == form.description && d.iconFile == form.iconFile
    ensures d.specifications.JsObject? && d.pricing.JsObject?
    ensures categoryId == PAPER ==>
      d.specifications.fields.Keys == {"weight", "purchaseWidth", "purchaseHeight"}
      && d.pricing.fields.Keys == {"basePrice", "priceType"}
      && Get(d.pricing, "priceType") == JsString(PER_UNIT)
    ensures categoryId != PAPER ==> |d.specifications.fields| == 0 && |d.pricing.fields| == 0
  {
    var isPaper := categoryId == PAPER;
    var specifications :=
      if isPaper then
        JsObject(map[
          "weight" := NumberValue(p.parseFloat(form.weight)),
          "purchaseWidth" := NumberValue(p.parseFloat(form.purchaseWidth)),
          "purchaseHeight" := NumberValue(p.parseFloat(form.purchaseHeight))])
      else JsObject(map[]);
    var pricing :=
      if isPaper then
        JsObject(map[
          "basePrice" := NumberValue(p.parseFloat(form.pricePerThousandSqFt)),
          "priceType" := JsString(PER_UNIT)])
      else JsObject(map[]);
    OptionPayload(categoryId, form.name, form.displayName, form.description,
                  specifications, pricing, form.iconFile)
  }

  /** Each paper measurement reads back as the number parsed from its field
      (`NaN` when the field does not parse). */
  lemma PaperMeasurementsReadBack(form: OptionForm, p: NumParsers)
    ensures var d := BuildPayload(PAPER, form, p);
      Get(d.specifications, "weight") == NumberValue(p.parseFloat(form.weight))
      && Get(d.specifications, "purchaseWidth") == NumberValue(p.parseFloat(form.purchaseWidth))
      && Get(d.specifications, "purchaseHeight") == NumberValue(p.parseFloat(form.purchaseHeight))
      && Get(d.pricing, "basePrice") == NumberValue(p.parseFloat(form.pricePerThousandSqFt))
  {
  }

  /** Outside the paper category the measurement and price fields are never
      sent: two forms that differ only there give the same request. */
  lemma OtherCategoriesIgnoreMeasurements(categoryId: string, a: OptionForm, b: OptionForm, p: NumParsers)
    requires categoryId != PAPER
    requires a.name == b.name && a.displayName == b.displayName
    requires a.description == b.description && a.iconFile == b.iconFile
    ensures BuildPayload(categoryId, a, p) == BuildPayload(categoryId, b, p)
  {
  }

  /** What a submit asks the screen to do besides updating the form. */
  datatype Effect = CloseDialog | NotifySuccess | ReloadOptions | AlertFailure

  /** The form after a submit, the request sent (if any) and the effects in order. */
  datatype Submission = Submission(form: OptionForm, sent: Option<OptionPayload>, effects: seq<Effect>)

  /** The dialog's `handleSubmit`: the request is always sent; when it
      succeeds the form is reset, then the dialog is closed, then the parent
      is told; when it fails the form stays as typed and an alert is raised. */
  function DialogSubmit(category: Category, form: OptionForm, p: NumParsers, created: bool): (s: Submission)
    ensures s.sent == Some(BuildPayload(category.id, form, p))
    ensures created ==> s.form == EMPTY_FORM && s.effects == [CloseDialog, NotifySuccess]
    ensures !created ==> s.form == form && s.effects == [AlertFailure]
  {
    var sent := Some(BuildPayload(category.id, form, p));
    if created then Submission(EMPTY_FORM, sent, [CloseDialog, NotifySuccess])
    else Submission(form, sent, [AlertFailure])
  }

  /** The manager's `handleSubmitOption`: nothing happens before a category is
      loaded; otherwise the same request is sent, and a success resets the
      form, closes the dialog and reloads the options. */
  function ManagerSubmit(category: Option<Category>, form: OptionForm, p: NumParsers, created: bool): (s: Submission)
    ensures category.None? ==> s == Submission(form, None, [])
    ensures category.Some? && created ==> s.form == EMPTY_FORM && s.effects == [CloseDialog, ReloadOptions]
    ensures category.Some? && !created ==> s.form == form && s.effects == [AlertFailure]
  {
    if category.None? then Submission(form, None, [])
    else
      var sent := Some(BuildPayload(category.value.id, form, p));
      if created then Submission(EMPTY_FORM, sent, [CloseDialog, ReloadOptions])
      else Submission(form, sent, [AlertFailure])
  }

  /** Both submit paths send the same request for the same category and form,
      and leave the form in the same state. */
  lemma SubmitPathsAgree(category: Category, form: OptionForm, p: NumParsers, created: bool)
    ensures ManagerSubmit(Some(category), form, p, created).sent == DialogSubmit(category, form, p, created).sent
    ensures ManagerSubmit(Some(category), form, p, created).form == DialogSubmit(category, form, p, created).form
  {
  }

  /** A successful submit leaves the blank form, and `DialogSubmit` on that
      blank form builds a request with empty texts and, for paper, `NaN` for
      every number (`parseFloat('')` is `NaN`). The browser's check of the
      `required` inputs, which would stop that submit, is not modelled. */
  lemma BlankFormSubmit(category: Category, form: OptionForm, p: NumParsers)
    requires p.parseFloat("") == None
    ensures var again := DialogSubmit(category, DialogSubmit(category, form, p, true).form, p, true);
      again.sent.Some?
      && again.sent.value.name == "" && again.sent.value.displayName == ""
      && again.sent.value.iconFile == None
      && (category.id == PAPER ==>
            Get(again.sent.value.specifications, "weight") == JsNaN
            && Get(again.sent.value.pricing, "basePrice") == JsNaN)
  {
    PaperMeasurementsReadBack(EMPTY_FORM, p);
  }
}

=== FILE: print_option_list.dfy ===
/** The option table's cell texts: the price column and the specification
    column. Its selection and delete bookkeeping is in `Selection`. */
module PrintOptionList {
  import opened Wrappers
  import opened Js
  import PrintOptionForm

  const NOT_AVAILABLE := "N/A"

  /** `formatPrice`: `'N/A'` unless `pricing?.basePrice` is truthy, else `'$'`
      and the price to two decimals (`toFixed2`). `None` stands for the
      `TypeError` thrown when the truthy price is not a number. */
  function FormatPrice(pricing: JsValue, toFixed2: real -> string): (r: Option<string>)
    ensures !Truthy(Get(pricing, "basePrice")) ==> r == Some(NOT_AVAILABLE)
    ensures Get(pricing, "basePrice").JsNumber? && Get(pricing, "basePrice").n != 0.0 ==>
      r == Some("$" + toFixed2(Get(pricing, "basePrice").n))
    ensures r.None? <==> Truthy(Get(pricing, "basePrice")) && !Get(pricing, "basePrice").JsNumber?
  {
    var basePrice := Get(pricing, "basePrice");
    if !Truthy(basePrice) then Some(NOT_AVAILABLE)
    else if basePrice.JsNumber? then Some("$" + toFixed2(basePrice.n))
    else None
  }

  /** The price cell reads `'N/A'` exactly when there is no truthy base price:
      a shown price starts with `'$'`. */
  lemma PriceShownIff(pricing: JsValue, toFixed2: real -> string)
    ensures FormatPrice(pricing, toFixed2) == Some(NOT_AVAILABLE) <==> !Truthy(Get(pricing, "basePrice"))
  {
    var r := FormatPrice(pricing, toFixed2);
    if Truthy(Get(pricing, "basePrice")) && r.Some? {
      assert r.value[0] == '$' != NOT_AVAILABLE[0];
    }
  }

  /** `specs?.weight && specs?.purchaseWidth && specs?.purchaseHeight`. */
  predicate AllMeasured(specs: JsValue) {
    Truthy(Get(specs, "weight")) && Truthy(Get(specs, "purchaseWidth")) && Truthy(Get(specs, "purchaseHeight"))
  }

  /** `formatSpecifications`: the weight, width and height as a template
      literal renders them, when all three are truthy; `'N/A'` otherwise. */
  function FormatSpecifications(specs: JsValue, showNumber: real -> string): (r: string)
    ensures !AllMeasured(specs) ==> r == NOT_AVAILABLE
    ensures AllMeasured(specs) ==>
      r == Display(Get(specs, "weight"), showNumber) + "gsm, "
           + Display(Get(specs, "purchaseWidth"), showNumber) + "\"×"
           + Display(Get(specs, "purchaseHeight"), showNumber) + "\""
  {
    var weight := Get(specs, "weight");
    var width := Get(specs, "purchaseWidth");
    var height := Get(specs, "purchaseHeight");
    if Truthy(weight) && Truthy(width) && Truthy(height) then
      Display(weight, showNumber) + "gsm, " + Display(width, showNumber) + "\"×"
      + Display(height, showNumber) + "\""
    else NOT_AVAILABLE
  }

  /** The specification cell reads `'N/A'` exactly when one of the three
      measurements is falsy: a rendered one is longer than `'N/A'`. */
  lemma SpecificationsShownIff(specs: JsValue, showNumber: real -> string)
    ensures FormatSpecifications(specs, showNumber) == NOT_AVAILABLE <==> !AllMeasured(specs)
  {
  }

  /** A paper option created from the form shows its price exactly when the
      price field parses to a non-zero number; options of other categories
      always show `'N/A'`. */
  lemma CreatedPriceShown(categoryId: string, form: PrintOptionForm.OptionForm, p: NumParsers, toFixed2: real -> string)
    ensures var d := PrintOptionForm.BuildPayload(categoryId, form, p);
      var price := p.parseFloat(form.pricePerThousandSqFt);
      (categoryId == PrintOptionForm.PAPER && price.Some? && price.value != 0.0 ==>
         FormatPrice(d.pricing, toFixed2) == Some("$" + toFixed2(price.value)))
      && (categoryId == PrintOptionForm.PAPER && (price.None? || price.value == 0.0) ==>
         FormatPrice(d.pricing, toFixed2) == Some(NOT_AVAILABLE))
      && (categoryId != PrintOptionForm.PAPER ==> FormatPrice(d.pricing, toFixed2) == Some(NOT_AVAILABLE))
  {
    PrintOptionForm.PaperMeasurementsReadBack(form, p);
  }

  /** A paper option created from the form shows its specifications unless a
      measurement does not parse or parses to zero; other categories show `'N/A'`. */
  lemma CreatedSpecificationsShown(categoryId: string, form: PrintOptionForm.OptionForm, p: NumParsers, showNumber: real -> string)
    ensures var d := PrintOptionForm.BuildPayload(categoryId, form, p);
      var w := p.parseFloat(form.weight);
      var pw := p.parseFloat(form.purchaseWidth);
      var ph := p.parseFloat(form.purchaseHeight);
      (categoryId == PrintOptionForm.PAPER ==>
         (FormatSpecifications(d.specifications, showNumber) == NOT_AVAILABLE
          <==> w.None? || w.value == 0.0 || pw.None? || pw.value == 0.0 || ph.None? || ph.value == 0.0))
      && (categoryId != PrintOptionForm.PAPER ==> FormatSpecifications(d.specifications, showNumber) == NOT_AVAILABLE)
  {
    var d := PrintOptionForm.BuildPayload(categoryId, form, p);
    PrintOptionForm.PaperMeasurementsReadBack(form, p);
    SpecificationsShownIff(d.specifications, showNumber);
  }
}

=== FILE: print_option_routes.dfy ===
/** The print-option API: the category list with option counts, one
    category, the paged option list, and creating, updating, deleting and
    bulk-deleting options. */
module PrintOptionRoutes {
  import opened Wrappers
  import opened Text
  import opened Js
  import Sql
  import Paging
  import opened Http
  import opened PrintOptionSql

  const CATEGORY_NOT_FOUND := "Category not found"
  const OPTION_NOT_FOUND := "Print option not found"
  const IDS_REQUIRED := "optionIds array is required"
  const LIST_FAILED := "Failed to fetch print options"
  const CREATE_FAILED := "Failed to create print option"

  // ---- Categories ----

  /** One category row of the list reply: the columns renamed to camelCase,
      `is_active` turned into a boolean, and the option count added. */
  function MapCategory(row: JsValue, optionCount: JsValue): (c: JsValue)
    ensures c.JsObject? && c.fields.Keys ==
      {"id", "name", "type", "description", "icon", "isActive", "sortOrder", "createdAt", "optionCount"}
    ensures Get(c, "id") == Get(row, "id") && Get(c, "name") == Get(row, "name")
    ensures Get(c, "type") == Get(row, "type") && Get(c, "description") == Get(row, "description")
    ensures Get(c, "icon") == Get(row, "icon")
    ensures Get(c, "sortOrder") == Get(row, "sort_order") && Get(c, "createdAt") == Get(row, "created_at")
    ensures Get(c, "isActive") == JsBool(Truthy(Get(row, "is_active")))
    ensures Get(c, "optionCount") == optionCount
  {
    CategoryKeys(row, optionCount);
    CategoryCopies(row, optionCount);
    CategoryRenames(row, optionCount);
    JsObject(CategoryFields(row, optionCount))
  }

  /** The fields of a mapped category, in the handler's order. */
  function CategoryFields(row: JsValue, optionCount: JsValue): map<string, JsValue> {
    map[
      "id" := Get(row, "id"),
      "name" := Get(row, "name"),
      "type" := Get(row, "type"),
      "description" := Get(row, "description"),
      "icon" := Get(row, "icon"),
      "isActive" := JsBool(Truthy(Get(row, "is_active"))),
      "sortOrder" := Get(row, "sort_order"),
      "createdAt" := Get(row, "created_at"),
      "optionCount" := optionCount]
  }

  lemma CategoryKeys(row: JsValue, optionCount: JsValue)
    ensures CategoryFields(row, optionCount).Keys ==
      {"id", "name", "type", "description", "icon", "isActive", "sortOrder", "createdAt", "optionCount"}
  {
  }

  /** The five columns copied under their own names. */
  lemma CategoryCopies(row: JsValue, optionCount: JsValue)
    ensures var f := CategoryFields(row, optionCount);
      && "id" in f && f["id"] == Get(row, "id")
      && "name" in f && f["name"] == Get(row, "name")
      && "type" in f && f["type"] == Get(row, "type")
      && "description" in f && f["description"] == Get(row, "description")
      && "icon" in f && f["icon"] == Get(row, "icon")
  {
  }

  /** The renamed columns, the boolean flag and the added count. */
  lemma CategoryRenames(row: JsValue, optionCount: JsValue)
    ensures var f := CategoryFields(row, optionCount);
      && "isActive" in f && f["isActive"] == JsBool(Truthy(Get(row, "is_active")))
      && "sortOrder" in f && f["sortOrder"] == Get(row, "sort_order")
      && "createdAt" in f && f["createdAt"] == Get(row, "created_at")
      && "optionCount" in f && f["optionCount"] == optionCount
  {
  }

  /** `GET /categories`: every category row mapped with its count, in order,
      and `total` the number of categories. */
  function CategoriesBody(rows: seq<JsValue>, counts: seq<JsValue>): (body: JsValue)
    requires |counts| == |rows|
    ensures Get(body, "categories").JsArray?
    ensures var items := Get(body, "categories").items;
      |items| == |rows| && forall i :: 0 <= i < |rows| ==> items[i] == MapCategory(rows[i], counts[i])
    ensures Get(body, "total") == JsNumber(|rows| as real)
  {
    var items := seq(|rows|, i requires 0 <= i < |rows| => MapCategory(rows[i], counts[i]));
    JsObject(map["categories" := JsArray(items), "total" := JsNumber(|items| as real)])
  }

  /** `{ ...base, key: value }`: the spread copies an object's own fields; the
      request bodies and rows spread here are objects or nothing. */
  function Spread(base: JsValue, key: string, value: JsValue): (r: JsValue)
    ensures r.JsObject? && Get(r, key) == value
    ensures forall k :: k != key ==> Get(r, k) == Get(base, k)
  {
    var fields := if base.JsObject? then base.fields else map[];
    JsObject(fields[key := value])
  }

  /** `GET /categories/:categoryId`: the category row with its option count. */
  function CategoryBody(category: JsValue, optionCount: JsValue): (body: JsValue)
    ensures Get(body, "optionCount") == optionCount
    ensures forall k :: k != "optionCount" ==> Get(body, k) == Get(category, k)
  {
    Spread(category, "optionCount", optionCount)
  }

  // ---- The option list ----

  /** The query string: each parameter absent or a single string. */
  datatype OptionsQuery = OptionsQuery(page: Option<string>, limit: Option<string>, search: Option<string>)

  /** A query parameter after its destructuring default. */
  function QueryValue(q: Option<string>, default: int): (v: JsValue)
    ensures q.Some? ==> v == JsString(q.value)
    ensures q.None? ==> ParseIntValue(v) == Some(default)
  {
    if q.Some? then JsString(q.value) else JsNumber(default as real)
  }

  /** `Math.ceil` on a real. */
  function Ceil(x: real): (c: int)
    ensures c as real - 1.0 < x <= c as real
  {
    -((-x).Floor)
  }

  /** A page count as JavaScript computes it: a number, `NaN` or `Infinity`
      (both of which `JSON.stringify` sends as `null`). */
  datatype PageCount = Pages(n: int) | NotANumber | Infinite

  /** `Math.ceil(total / parseInt(limit))` as the handler writes it, on the
      raw `limit` rather than the defaulted one. A `-0` limit is read as 0. */
  function ReportedTotalPages(total: nat, limit: JsValue): (t: PageCount)
    ensures ParseIntValue(limit).None? ==> t == NotANumber
    ensures ParseIntValue(limit) == Some(0) ==> t == (if total == 0 then NotANumber else Infinite)
    ensures ParseIntValue(limit).Some? && ParseIntValue(limit).value != 0 ==>
      t == Pages(Ceil(total as real / ParseIntValue(limit).value as real))
  {
    match ParseIntValue(limit)
    case None => NotANumber
    case Some(l) =>
      if l == 0 then (if total == 0 then NotANumber else Infinite)
      else Pages(Ceil(total as real / l as real))
  }

  /** The page count over the limit the listing actually used. */
  function TotalPages(total: nat, limitNum: int): (t: PageCount)
    requires limitNum != 0
    ensures t.Pages?
    ensures limitNum > 0 ==> t.n * limitNum >= total && (t.n - 1) * limitNum < total
  {
    var c := Ceil(total as real / limitNum as real);
    if limitNum > 0 then
      CeilBounds(total, limitNum, c);
      Pages(c)
    else Pages(c)
  }

  lemma CeilBounds(total: nat, l: int, c: int)
    requires l > 0 && c as real - 1.0 < total as real / l as real <= c as real
    ensures c * l >= total && (c - 1) * l < total
  {
    CeilUpper(total, l, c);
    CeilLower(total, l, c);
  }

  lemma CeilUpper(total: nat, l: int, c: int)
    requires l > 0 && total as real / l as real <= c as real
    ensures c * l >= total
  {
    var x := total as real / l as real;
    assert x * l as real == total as real;
    MulMono(x, c as real, l as real);
    RealProduct(c, l);
  }

  lemma CeilLower(total: nat, l: int, c: int)
    requires l > 0 && c as real - 1.0 < total as real / l as real
    ensures (c - 1) * l < total
  {
    var x := total as real / l as real;
    assert x * l as real == total as real;
    MulStrict(c as real - 1.0, x, l as real);
    RealProduct(c - 1, l);
  }

  lemma RealProduct(a: int, b: int)
    ensures (a * b) as real == a as real * b as real
  {
  }

  lemma MulMono(a: real, b: real, k: real)
    requires a <= b && k > 0.0
    ensures a * k <= b * k
  {
  }

  lemma MulStrict(a: real, b: real, k: real)
    requires a < b && k > 0.0
    ensures a * k < b * k
  {
  }

  /** What `GET /categories/:categoryId/options` answers: a 404 for a
      missing category, a 500 when a query throws, or the listing. */
  datatype OptionsReply =
    | CategoryMissing
    | ListFailed
    | Listing(list: Sql.Statement, count: Sql.Statement, page: Option<int>, limit: Option<int>, totalPages: PageCount)

  /** The status and `error` text of each reply. */
  function OptionsStatus(r: OptionsReply): (s: (int, Option<string>))
    ensures s.1.None? <==> r.Listing?
  {
    match r
    case CategoryMissing => (404, Some(CATEGORY_NOT_FOUND))
    case ListFailed => (500, Some(LIST_FAILED))
    case Listing(_, _, _, _, _) => (200, None)
  }

  function PageNum(q: OptionsQuery): int { ParseIntOr(QueryValue(q.page, 1), 1) }
  function LimitNum(q: OptionsQuery): int { ParseIntOr(QueryValue(q.limit, Paging.PAGE_SIZE), Paging.PAGE_SIZE) }
  function SearchText(q: OptionsQuery): string { if q.search.Some? then q.search.value else "" }

  /** The listing. `category` is what the category lookup came back with and
      `total` the option count, `None` when the list or the count query
      threw. A missing category is a 404 before any option query; any
      exception is a 500. Otherwise the page and limit fall back to 1 and 12
      when they do not parse or parse to 0, the list and the count use the
      same search, and the page count is taken over the limit the list used.
      The echoed page and limit are the raw `parseInt` of the query (`None`
      for `NaN`). */
  function ListOptionsRoute(categoryId: string, q: OptionsQuery, category: Lookup, total: Option<nat>): (r: OptionsReply)
    ensures r.CategoryMissing? <==> category == Missing
    ensures r.ListFailed? <==> category == LookupFailed || (category == Found && total.None?)
    ensures r.Listing? <==> category == Found && total.Some?
    ensures OptionsStatus(r).0 == 500 ==> OptionsStatus(r).1 == Some("Failed to fetch print options")
    ensures r.Listing? ==>
      r.list == ListOptions(categoryId, Some(PageNum(q)), Some(LimitNum(q)), Some(SearchText(q)))
      && r.count == CountOptions(categoryId, Some(SearchText(q)))
      && r.list.params == r.count.params
      && r.page == ParseIntValue(QueryValue(q.page, 1))
      && r.limit == ParseIntValue(QueryValue(q.limit, Paging.PAGE_SIZE))
      && r.totalPages == TotalPages(total.value, LimitNum(q))
  {
    match category
    case Missing => CategoryMissing
    case LookupFailed => ListFailed
    case Found =>
      if total.None? then ListFailed
      else
        var s := Some(SearchText(q));
        ListAndCountAgree(categoryId, Some(PageNum(q)), Some(LimitNum(q)), s);
        Listing(ListOptions(categoryId, Some(PageNum(q)), Some(LimitNum(q)), s), CountOptions(categoryId, s),
                ParseIntValue(QueryValue(q.page, 1)), ParseIntValue(QueryValue(q.limit, Paging.PAGE_SIZE)),
                TotalPages(total.value, LimitNum(q)))
  }

  /** The page count the handler reports as written. */
  function ListOptionsRouteAsWritten(categoryId: string, q: OptionsQuery, category: Lookup, total: Option<nat>): (r: OptionsReply)
    ensures r.Listing? <==> category == Found && total.Some?
    ensures !r.Listing? ==> r == ListOptionsRoute(categoryId, q, category, total)
    ensures r.Listing? ==>
      r.totalPages == ReportedTotalPages(total.value, QueryValue(q.limit, Paging.PAGE_SIZE))
      && r.list == ListOptionsRoute(categoryId, q, category, total).list
      && r.count == ListOptionsRoute(categoryId, q, category, total).count
      && r.page == ListOptionsRoute(categoryId, q, category, total).page
      && r.limit == ListOptionsRoute(categoryId, q, category, total).limit
  {
    match ListOptionsRoute(categoryId, q, category, total)
    case CategoryMissing => CategoryMissing
    case ListFailed => ListFailed
    case Listing(list, count, page, limit, _) =>
      Listing(list, count, page, limit, ReportedTotalPages(total.value, QueryValue(q.limit, Paging.PAGE_SIZE)))
  }

  /** With no query at all the page count is the client's `Math.ceil(total / 12)`. */
  lemma DefaultQueryPages(categoryId: string, total: nat)
    ensures ListOptionsRoute(categoryId, OptionsQuery(None, None, None), Found, Some(total)).totalPages
      == Pages(Paging.TotalPages(total))
  {
  }

  /** Where the limit parses to a non-zero number, the handler's page count
      and the corrected one agree. */
  lemma ReportedAgreesOnValidLimit(total: nat, limit: string)
    requires ParseInt(limit).Some? && ParseInt(limit).value != 0
    ensures ReportedTotalPages(total, JsString(limit))
      == TotalPages(total, ParseIntOr(JsString(limit), Paging.PAGE_SIZE))
  {
  }

  /** The page count of a successful listing is taken over the limit the list used. */
  lemma ListingPages(categoryId: string, q: OptionsQuery, total: nat)
    ensures ListOptionsRoute(categoryId, q, Found, Some(total)).totalPages == TotalPages(total, LimitNum(q))
  {
  }

  /** The corrected page count is always a number. */
  lemma ListingPagesAreNumbers(categoryId: string, q: OptionsQuery, total: nat)
    ensures ListOptionsRoute(categoryId, q, Found, Some(total)).totalPages.Pages?
  {
  }

  /** The page count as written divides by the raw limit. */
  lemma ReportedListingPages(categoryId: string, q: OptionsQuery, total: nat)
    ensures ListOptionsRouteAsWritten(categoryId, q, Found, Some(total)).totalPages
      == ReportedTotalPages(total, QueryValue(q.limit, Paging.PAGE_SIZE))
  {
  }

  /** A limit that parses to 0, or not at all, leaves the list on 12 per page. */
  lemma FallbackLimit(q: OptionsQuery)
    requires q.limit.Some? && (ParseInt(q.limit.value).None? || ParseInt(q.limit.value) == Some(0))
    ensures LimitNum(q) == Paging.PAGE_SIZE
  {
  }

  /** The handler divides by the raw limit: 0 gives `Infinity` for a
      non-empty list and text gives `NaN`. */
  lemma ReportedOnBadLimit(total: nat, s: string)
    ensures ParseInt(s) == Some(0) && total > 0 ==> ReportedTotalPages(total, JsString(s)) == Infinite
    ensures ParseInt(s).None? ==> ReportedTotalPages(total, JsString(s)) == NotANumber
  {
  }

  lemma FiveOnOnePage()
    ensures TotalPages(5, 12) == Pages(1)
  {
    var t := TotalPages(5, 12).n;
    assert t * 12 >= 5 && (t - 1) * 12 < 5;
  }

  /** `?limit=0` with five options: the list uses 12 and shows all five on
      one page, but the reply says `Infinity` (sent as `null`) pages. */
  lemma ZeroLimitReportsInfinitePages(categoryId: string)
    ensures var q := OptionsQuery(None, Some("0"), None);
      ListOptionsRouteAsWritten(categoryId, q, Found, Some(5)).totalPages == Infinite
      && ListOptionsRoute(categoryId, q, Found, Some(5)).totalPages == Pages(1)
      && LimitNum(q) == 12
  {
    var q := OptionsQuery(None, Some("0"), None);
    ListingPages(categoryId, q, 5);
    ReportedListingPages(categoryId, q, 5);
    ParseIntZero();
    FallbackLimit(q);
    ReportedOnBadLimit(5, "0");
    FiveOnOnePage();
  }

  /** A limit that starts with a letter does not parse, so the list falls
      back to 12 per page. */
  lemma TextLimitFallsBack(limit: string)
    requires |limit| > 0 && 'a' <= limit[0] <= 'z'
    ensures LimitNum(OptionsQuery(None, Some(limit), None)) == 12
  {
    NotNumeric(limit);
    FallbackLimit(OptionsQuery(None, Some(limit), None));
  }

  /** ... while the handler divides by its `NaN`. */
  lemma TextLimitReported(categoryId: string, total: nat, limit: string)
    requires |limit| > 0 && 'a' <= limit[0] <= 'z'
    ensures ListOptionsRouteAsWritten(categoryId, OptionsQuery(None, Some(limit), None), Found, Some(total)).totalPages
      == NotANumber
  {
    var q := OptionsQuery(None, Some(limit), None);
    NotNumeric(limit);
    assert QueryValue(q.limit, Paging.PAGE_SIZE) == JsString(limit);
    assert ParseIntValue(JsString(limit)).None?;
    ReportedOnBadLimit(total, limit);
    assert ReportedTotalPages(total, JsString(limit)) == NotANumber;
    ReportedListingPages(categoryId, q, total);
  }

  /** `?limit=abc`, or any limit that starts with a letter: the list uses
      12, the reply says `NaN` pages. */
  lemma TextLimitReportsNaNPages(categoryId: string, total: nat, limit: string)
    requires |limit| > 0 && 'a' <= limit[0] <= 'z'
    ensures var q := OptionsQuery(None, Some(limit), None);
      ListOptionsRouteAsWritten(categoryId, q, Found, Some(total)).totalPages == NotANumber
      && ListOptionsRoute(categoryId, q, Found, Some(total)).totalPages.Pages?
      && LimitNum(q) == 12
  {
    TextLimitFallsBack(limit);
    TextLimitReported(categoryId, total, limit);
    ListingPagesAreNumbers(categoryId, OptionsQuery(None, Some(limit), None), total);
  }

  // ---- Writes ----

  /** `POST /categories/:categoryId/options`: a missing category is a 404
      with no write; otherwise the body, with the path's category id laid
      over it, is inserted. */
  function CreateOptionRoute(categoryId: string, body: JsValue, category: Lookup, now: nat, suffix: string,
                             stringify: JsValue -> JsValue, outcome: Outcome): (r: Reply)
    ensures category.Missing? ==> r == Refuse(404, CATEGORY_NOT_FOUND)
    ensures category.LookupFailed? ==> r == Refuse(500, CREATE_FAILED)
    ensures category.Found? ==>
      r.writes == [CreateOption(categoryId, Spread(body, "categoryId", JsString(categoryId)), now, suffix, stringify).1]
      && (Succeeded(r) <==> outcome.Affected?)
      && (outcome.Threw? ==> r.status == 500 && r.error == Some(CREATE_FAILED))
  {
    match category
    case Missing => Refuse(404, CATEGORY_NOT_FOUND)
    case LookupFailed => Refuse(500, CREATE_FAILED)
    case Found =>
      var data := Spread(body, "categoryId", JsString(categoryId));
      InsertReply(CreateOption(categoryId, data, now, suffix, stringify).1, outcome, CREATE_FAILED)
  }

  /** The category in the path wins over one in the body, while the other
      fields are taken from the body. */
  lemma PathCategoryWins(categoryId: string, body: JsValue, now: nat, suffix: string,
                         stringify: JsValue -> JsValue)
    ensures var ps := CreateOptionRoute(categoryId, body, Found, now, suffix, stringify, Affected(1)).writes[0].params;
      ps[1] == JsString(categoryId)
      && ps[0] == JsString(OptionId(categoryId, now, suffix))
      && ps[2] == Get(body, "name") && ps[3] == Get(body, "displayName")
  {
  }

  /** `PUT /options/:optionId`: a body with nothing to update sends no
      statement and is answered 404, like an unknown id. */
  function UpdateOptionRoute(optionId: string, body: JsValue, stringify: JsValue -> JsValue, outcome: Outcome): (r: Reply)
    ensures UpdateOption(optionId, body, stringify).None? ==> r == Refuse(404, OPTION_NOT_FOUND)
    ensures UpdateOption(optionId, body, stringify).Some? ==>
      r.writes == [UpdateOption(optionId, body, stringify).value]
      && (Succeeded(r) <==> outcome.Affected? && outcome.rows > 0)
  {
    match UpdateOption(optionId, body, stringify)
    case None => Refuse(404, OPTION_NOT_FOUND)
    case Some(st) => WriteReply(st, outcome, OPTION_NOT_FOUND, "Failed to update print option")
  }

  /** An empty body is "not found" without touching the database. */
  lemma EmptyUpdateNotFound(optionId: string, stringify: JsValue -> JsValue, outcome: Outcome)
    ensures UpdateOptionRoute(optionId, JsObject(map[]), stringify, outcome) == Refuse(404, OPTION_NOT_FOUND)
  {
    UpdateSetsEmptyIff(JsObject(map[]), stringify);
  }

  /** `DELETE /options/:optionId`. */
  function DeleteOptionRoute(optionId: string, outcome: Outcome): (r: Reply)
    ensures r.writes == [DeleteOption(optionId)]
    ensures Succeeded(r) <==> outcome.Affected? && outcome.rows > 0
    ensures outcome == Affected(0) ==> r.status == 404
  {
    WriteReply(DeleteOption(optionId), outcome, OPTION_NOT_FOUND, "Failed to delete print option")
  }

  /** The bulk-delete reply: the status, error and writes, and on success the
      `deletedCount` and `message` fields of the JSON body. */
  datatype BulkReply = BulkReply(reply: Reply, deletedCount: Option<nat>, message: Option<string>)

  /** `DELETE /options`: anything but a non-empty `optionIds` array is a 400;
      otherwise one `DELETE ... IN (...)` over the ids, answered 200 with the
      deleted count even when it is 0. */
  function BulkDeleteRoute(body: JsValue, outcome: Outcome): (r: BulkReply)
    ensures var ids := Get(body, "optionIds");
      !(ids.JsArray? && |ids.items| > 0) <==> r.reply == Refuse(400, IDS_REQUIRED)
    ensures var ids := Get(body, "optionIds");
      ids.JsArray? && |ids.items| > 0 ==>
        |r.reply.writes| == 1 && r.reply.writes[0].params == ids.items && Sql.Balanced(r.reply.writes[0])
        && r.reply.writes == [BulkDelete(ids.items).value]
        && (Succeeded(r.reply) <==> outcome.Affected?)
        && (Succeeded(r.reply) ==> r.reply.status == 200)
    ensures r.deletedCount.Some? <==> Succeeded(r.reply)
    ensures Succeeded(r.reply) ==>
      outcome.Affected? && r.deletedCount == Some(outcome.rows)
      && r.message == Some(IntToString(outcome.rows) + " print options deleted successfully")
    ensures !Succeeded(r.reply) ==> r.message.None?
  {
    var ids := Get(body, "optionIds");
    if !(ids.JsArray? && |ids.items| > 0) then BulkReply(Refuse(400, IDS_REQUIRED), None, None)
    else
      var st := BulkDelete(ids.items).value;
      match outcome
      case Threw => BulkReply(Reply(500, Some("Failed to delete print options"), [st]), None, None)
      case Affected(n) =>
        BulkReply(Reply(200, None, [st]), Some(n), Some(IntToString(n) + " print options deleted successfully"))
  }

  /** A bulk delete that matched nothing is still a success, whereas a
      single delete that matched nothing is a 404. */
  lemma BulkAndSingleDisagreeOnNothingDeleted(body: JsValue, optionId: string)
    requires Get(body, "optionIds").JsArray? && |Get(body, "optionIds").items| > 0
    ensures BulkDeleteRoute(body, Affected(0)).reply.status == 200
    ensures BulkDeleteRoute(body, Affected(0)).deletedCount == Some(0)
    ensures DeleteOptionRoute(optionId, Affected(0)).status == 404
  {
  }
}

=== FILE: print_option_sql.dfy ===
/** The server's print-option statements: the paged and searchable option
    list, its count, creating, updating and bulk-deleting options. */
module PrintOptionSql {
  import opened Text
  import opened Wrappers
  import opened Js
  import opened Sql
  import Paging

  const SELECT_OPTIONS := "SELECT id, category_id, name, display_name, description, specifications, pricing, is_active, sort_order, created_at FROM print_options "
  const ORDER_AND_LIMIT := " ORDER BY sort_order ASC, display_name ASC LIMIT "
  const COUNT_OPTIONS := "SELECT COUNT(*) as count FROM print_options "

  const BASE_FILTER: seq<Piece> := [Fragment("WHERE category_id = "), Mark, Fragment(" AND is_active = TRUE")]
  const SEARCH_FILTER: seq<Piece> :=
    [Fragment(" AND (name LIKE "), Mark, Fragment(" OR display_name LIKE "), Mark,
     Fragment(" OR description LIKE "), Mark, Fragment(")")]

  lemma FilterMarks()
    ensures Marks(BASE_FILTER) == 1 && Marks(SEARCH_FILTER) == 3
  {
  }

  /** Three literals joined by placeholders render with a `?` between each two. */
  lemma ThreeMarksText(a: string, b: string, c: string, d: string)
    ensures Render([Fragment(a), Mark, Fragment(b), Mark, Fragment(c), Mark, Fragment(d)])
         == a + "?" + b + "?" + c + "?" + d
  {
    var q := [Fragment(a), Mark, Fragment(b), Mark, Fragment(c), Mark, Fragment(d)];
    assert q[1..] == [Mark, Fragment(b), Mark, Fragment(c), Mark, Fragment(d)];
    assert q[1..][1..] == [Fragment(b), Mark, Fragment(c), Mark, Fragment(d)];
    assert q[1..][1..][1..] == [Mark, Fragment(c), Mark, Fragment(d)];
    assert q[1..][1..][1..][1..] == [Fragment(c), Mark, Fragment(d)];
    OneMarkText(c, d);
    var tail := c + "?" + d;
    assert Render(q[1..][1..]) == b + ("?" + tail);
    assert Render(q) == a + ("?" + (b + ("?" + tail)));
    assert a + ("?" + (b + ("?" + tail))) == a + "?" + b + "?" + tail;
    assert a + "?" + b + "?" + tail == a + "?" + b + "?" + c + "?" + d;
  }

  /** Two literals around a placeholder render with a `?` between them. */
  lemma OneMarkText(a: string, b: string)
    ensures Render([Fragment(a), Mark, Fragment(b)]) == a + "?" + b
  {
    var q := [Fragment(a), Mark, Fragment(b)];
    assert q[1..] == [Mark, Fragment(b)];
    assert q[1..][1..] == [Fragment(b)];
    PlainPiece(b);
    assert Render(q[1..]) == "?" + b;
    assert a + ("?" + b) == a + "?" + b;
  }

  lemma BaseFilterText()
    ensures Render(BASE_FILTER) == "WHERE category_id = " + "?" + " AND is_active = TRUE"
  {
    OneMarkText("WHERE category_id = ", " AND is_active = TRUE");
  }

  lemma SearchFilterText()
    ensures Render(SEARCH_FILTER)
         == " AND (name LIKE " + "?" + " OR display_name LIKE " + "?" + " OR description LIKE " + "?" + ")"
  {
    ThreeMarksText(" AND (name LIKE ", " OR display_name LIKE ", " OR description LIKE ", ")");
  }

  /** The `WHERE` clause and parameters shared by the list and the count: the
      category, and when the search is non-empty the pattern `%search%` once
      for each of the name, the display name and the description. */
  function OptionFilter(categoryId: string, search: string): (w: (seq<Piece>, seq<JsValue>))
    ensures Marks(w.0) == |w.1|
    ensures search == "" ==> w.1 == [JsString(categoryId)]
    ensures search != "" ==> var pattern := JsString("%" + search + "%");
      w.1 == [JsString(categoryId), pattern, pattern, pattern]
    ensures search == "" ==> Render(w.0) == "WHERE category_id = " + "?" + " AND is_active = TRUE"
    ensures search != "" ==>
      Render(w.0) == "WHERE category_id = " + "?" + " AND is_active = TRUE"
        + (" AND (name LIKE " + "?" + " OR display_name LIKE " + "?" + " OR description LIKE " + "?" + ")")
  {
    BaseFilterText();
    if search == "" then
      FilterMarks();
      (BASE_FILTER, [JsString(categoryId)])
    else
      SearchFilterMarks();
      SearchFilterText();
      RenderAppend(BASE_FILTER, SEARCH_FILTER);
      var pattern := JsString("%" + search + "%");
      (BASE_FILTER + SEARCH_FILTER, [JsString(categoryId), pattern, pattern, pattern])
  }

  lemma SearchFilterMarks()
    ensures Marks(BASE_FILTER + SEARCH_FILTER) == 4
  {
    FilterMarks();
    MarksAppend(BASE_FILTER, SEARCH_FILTER);
  }

  /** The page window with `page = 1` and `limit = 12` as defaults for missing values. */
  function Window(page: Option<int>, limit: Option<int>): (w: (int, int))
    ensures w.0 == (if limit.Some? then limit.value else Paging.PAGE_SIZE)
    ensures w.1 == ((if page.Some? then page.value else 1) - 1) * w.0
  {
    var p := if page.Some? then page.value else 1;
    var l := if limit.Some? then limit.value else Paging.PAGE_SIZE;
    (l, (p - 1) * l)
  }

  /** With the default limit, the rows the server returns for page `p` are
      the ones the client shows on page `p` of the whole list. */
  lemma WindowIsClientPage<T>(rows: seq<T>, page: int)
    requires page >= 1
    ensures var (limit, offset) := Window(Some(page), None);
      rows[Paging.Min(offset, |rows|)..Paging.Min(offset + limit, |rows|)] == Paging.Page(rows, page)
  {
  }

  /** `getPrintOptionsByCategory`: the filtered, ordered page of options. */
  function ListOptions(categoryId: string, page: Option<int>, limit: Option<int>, search: Option<string>): (st: Statement)
    ensures Balanced(st)
    ensures var s := if search.Some? then search.value else "";
      st.params == OptionFilter(categoryId, s).1
      && |st.params| == (if s == "" then 1 else 4)
    ensures EndsWith(Render(st.sql), ORDER_AND_LIMIT + IntToString(Window(page, limit).0)
                                     + " OFFSET " + IntToString(Window(page, limit).1))
    ensures var s := if search.Some? then search.value else "";
      Render(st.sql) == SELECT_OPTIONS + Render(OptionFilter(categoryId, s).0)
        + (ORDER_AND_LIMIT + IntToString(Window(page, limit).0) + " OFFSET " + IntToString(Window(page, limit).1))
  {
    var s := if search.Some? then search.value else "";
    var w := Window(page, limit);
    var filter := OptionFilter(categoryId, s);
    var tailText := ORDER_AND_LIMIT + IntToString(w.0) + " OFFSET " + IntToString(w.1);
    Framed(SELECT_OPTIONS, filter.0, tailText);
    Statement([Fragment(SELECT_OPTIONS)] + filter.0 + [Fragment(tailText)], filter.1)
  }

  /** A filter between a plain head and a plain tail keeps its placeholders,
      and the text ends with the tail. */
  lemma Framed(headText: string, filter: seq<Piece>, tailText: string)
    ensures Marks([Fragment(headText)] + filter + [Fragment(tailText)]) == Marks(filter)
    ensures EndsWith(Render([Fragment(headText)] + filter + [Fragment(tailText)]), tailText)
    ensures Render([Fragment(headText)] + filter + [Fragment(tailText)]) == headText + Render(filter) + tailText
  {
    var head := [Fragment(headText)];
    var tail := [Fragment(tailText)];
    PlainPiece(headText);
    PlainPiece(tailText);
    SumOfFive(head, filter, tail, [], []);
    assert head + filter + tail + [] + [] == head + filter + tail;
    var text := Render(head) + Render(filter) + tailText;
    assert text[|text| - |tailText|..] == tailText;
  }

  /** `getPrintOptionCountByCategory`: the count under the same filter. */
  function CountOptions(categoryId: string, search: Option<string>): (st: Statement)
    ensures Balanced(st)
    ensures st.params == OptionFilter(categoryId, if search.Some? then search.value else "").1
    ensures Render(st.sql) == COUNT_OPTIONS + Render(OptionFilter(categoryId, if search.Some? then search.value else "").0)
  {
    var filter := OptionFilter(categoryId, if search.Some? then search.value else "");
    PlainPiece(COUNT_OPTIONS);
    MarksAppend([Fragment(COUNT_OPTIONS)], filter.0);
    RenderAppend([Fragment(COUNT_OPTIONS)], filter.0);
    Statement([Fragment(COUNT_OPTIONS)] + filter.0, filter.1)
  }

  /** The list and the count bind the same values for the same search. */
  lemma ListAndCountAgree(categoryId: string, page: Option<int>, limit: Option<int>, search: Option<string>)
    ensures ListOptions(categoryId, page, limit, search).params == CountOptions(categoryId, search).params
  {
  }

  /** `result[0]?.count || 0`. */
  function CountFromRows(rows: seq<JsValue>): (count: JsValue)
    ensures |rows| == 0 ==> count == JsNumber(0.0)
    ensures |rows| > 0 && Truthy(Get(rows[0], "count")) ==> count == Get(rows[0], "count")
    ensures Truthy(count) || count == JsNumber(0.0)
  {
    Or(if |rows| > 0 then Get(rows[0], "count") else JsUndefined, JsNumber(0.0))
  }

  const INSERT_OPTION := "INSERT INTO print_options (id, category_id, name, display_name, description, specifications, pricing, sort_order, created_at, updated_at) VALUES ("
  const INSERT_TAIL := ", NOW(), NOW())"

  /** The new option's id: the category, the clock reading and a random
      suffix, joined by `_`. */
  function OptionId(categoryId: string, now: nat, suffix: string): (id: string)
    ensures StartsWith(id, categoryId + "_")
  {
    var id := categoryId + "_" + IntToString(now) + "_" + suffix;
    assert id[..|categoryId + "_"|] == categoryId + "_";
    id
  }

  /** `createPrintOption`: eight values for eight placeholders; a missing
      description is stored as `null`, a missing sort order as 0, and the
      specifications and pricing go through `stringify` (`JSON.stringify`). */
  function CreateOption(categoryId: string, data: JsValue, now: nat, suffix: string,
                        stringify: JsValue -> JsValue): (r: (string, Statement))
    ensures r.0 == OptionId(categoryId, now, suffix)
    ensures Balanced(r.1) && |r.1.params| == 8
    ensures r.1.params[0] == JsString(r.0) && r.1.params[1] == JsString(categoryId)
    ensures r.1.params[2] == Get(data, "name") && r.1.params[3] == Get(data, "displayName")
    ensures r.1.params[4] == (if Truthy(Get(data, "description")) then Get(data, "description") else JsNull)
    ensures r.1.params[5] == stringify(Get(data, "specifications")) && r.1.params[6] == stringify(Get(data, "pricing"))
    ensures r.1.params[7] == (if Truthy(Get(data, "sortOrder")) then Get(data, "sortOrder") else JsNumber(0.0))
    ensures Render(r.1.sql) == INSERT_OPTION + JoinWith(Repeat("?", 8), ", ") + INSERT_TAIL
  {
    var id := OptionId(categoryId, now, suffix);
    InsertOptionMarks();
    (id, Statement([Fragment(INSERT_OPTION)] + JoinPieces(MarkList(8), COMMA) + [Fragment(INSERT_TAIL)],
                   OptionValues(id, categoryId, data, stringify)))
  }

  /** The eight values of the insert, in column order. */
  function OptionValues(id: string, categoryId: string, data: JsValue, stringify: JsValue -> JsValue): (ps: seq<JsValue>)
    ensures |ps| == 8
    ensures ps[0] == JsString(id) && ps[1] == JsString(categoryId)
    ensures ps[2] == Get(data, "name") && ps[3] == Get(data, "displayName")
    ensures ps[4] == (if Truthy(Get(data, "description")) then Get(data, "description") else JsNull)
    ensures ps[5] == stringify(Get(data, "specifications")) && ps[6] == stringify(Get(data, "pricing"))
    ensures ps[7] == (if Truthy(Get(data, "sortOrder")) then Get(data, "sortOrder") else JsNumber(0.0))
  {
    [JsString(id), JsString(categoryId), Get(data, "name"), Get(data, "displayName"),
     Or(Get(data, "description"), JsNull), stringify(Get(data, "specifications")),
     stringify(Get(data, "pricing")), Or(Get(data, "sortOrder"), JsNumber(0.0))]
  }

  /** The insert text has one placeholder per column. */
  lemma InsertOptionMarks()
    ensures Marks([Fragment(INSERT_OPTION)] + JoinPieces(MarkList(8), COMMA) + [Fragment(INSERT_TAIL)]) == 8
    ensures Render([Fragment(INSERT_OPTION)] + JoinPieces(MarkList(8), COMMA) + [Fragment(INSERT_TAIL)])
         == INSERT_OPTION + JoinWith(Repeat("?", 8), ", ") + INSERT_TAIL
  {
    var marks := JoinPieces(MarkList(8), COMMA);
    ListFacts([], 8);
    PlainPiece(INSERT_OPTION);
    PlainPiece(INSERT_TAIL);
    SumOfFive([Fragment(INSERT_OPTION)], marks, [Fragment(INSERT_TAIL)], [], []);
    assert [Fragment(INSERT_OPTION)] + marks + [Fragment(INSERT_TAIL)] + [] + []
        == [Fragment(INSERT_OPTION)] + marks + [Fragment(INSERT_TAIL)];
  }

  /** One `column = ?` assignment when `present`, none otherwise. */
  function Include(present: bool, column: string, value: JsValue): (r: Row)
    ensures present ==> r == [(column, value)]
    ensures !present ==> r == []
    ensures forall e :: e in r ==> e.0 == column
  {
    if present then [(column, value)] else []
  }

  /** The assignments `updatePrintOption` collects, in its order: texts and
      objects only when truthy, the others whenever they are not `undefined`. */
  function UpdateSets(data: JsValue, stringify: JsValue -> JsValue): (sets: Row)
    ensures |sets| <= 7
    ensures ("name", Get(data, "name")) in sets <==> Truthy(Get(data, "name"))
    ensures ("display_name", Get(data, "displayName")) in sets <==> Truthy(Get(data, "displayName"))
    ensures ("description", Get(data, "description")) in sets <==> !Get(data, "description").JsUndefined?
    ensures ("specifications", stringify(Get(data, "specifications"))) in sets
        <==> Truthy(Get(data, "specifications"))
    ensures ("pricing", stringify(Get(data, "pricing"))) in sets <==> Truthy(Get(data, "pricing"))
    ensures ("is_active", Get(data, "isActive")) in sets <==> !Get(data, "isActive").JsUndefined?
    ensures ("sort_order", Get(data, "sortOrder")) in sets <==> !Get(data, "sortOrder").JsUndefined?
  {
    TextSets(data) + ObjectAndFlagSets(data, stringify)
  }

  /** The name, display name and description assignments. */
  function TextSets(data: JsValue): (sets: Row)
    ensures |sets| <= 3
    ensures forall e :: e in sets ==> e.0 == "name" || e.0 == "display_name" || e.0 == "description"
    ensures ("name", Get(data, "name")) in sets <==> Truthy(Get(data, "name"))
    ensures ("display_name", Get(data, "displayName")) in sets <==> Truthy(Get(data, "displayName"))
    ensures ("description", Get(data, "description")) in sets <==> !Get(data, "description").JsUndefined?
  {
    Include(Truthy(Get(data, "name")), "name", Get(data, "name"))
    + Include(Truthy(Get(data, "displayName")), "display_name", Get(data, "displayName"))
    + Include(!Get(data, "description").JsUndefined?, "description", Get(data, "description"))
  }

  /** The specifications, pricing, active-flag and sort-order assignments. */
  function ObjectAndFlagSets(data: JsValue, stringify: JsValue -> JsValue): (sets: Row)
    ensures |sets| <= 4
    ensures forall e :: e in sets ==>
      e.0 == "specifications" || e.0 == "pricing" || e.0 == "is_active" || e.0 == "sort_order"
    ensures ("specifications", stringify(Get(data, "specifications"))) in sets
        <==> Truthy(Get(data, "specifications"))
    ensures ("pricing", stringify(Get(data, "pricing"))) in sets <==> Truthy(Get(data, "pricing"))
    ensures ("is_active", Get(data, "isActive")) in sets <==> !Get(data, "isActive").JsUndefined?
    ensures ("sort_order", Get(data, "sortOrder")) in sets <==> !Get(data, "sortOrder").JsUndefined?
  {
    Include(Truthy(Get(data, "specifications")), "specifications", stringify(Get(data, "specifications")))
    + Include(Truthy(Get(data, "pricing")), "pricing", stringify(Get(data, "pricing")))
    + Include(!Get(data, "isActive").JsUndefined?, "is_active", Get(data, "isActive"))
    + Include(!Get(data, "sortOrder").JsUndefined?, "sort_order", Get(data, "sortOrder"))
  }

  /** Nothing is setList exactly when no field qualifies. */
  lemma UpdateSetsEmptyIff(data: JsValue, stringify: JsValue -> JsValue)
    ensures |UpdateSets(data, stringify)| == 0 <==>
      !Truthy(Get(data, "name")) && !Truthy(Get(data, "displayName")) && Get(data, "description").JsUndefined?
      && !Truthy(Get(data, "specifications")) && !Truthy(Get(data, "pricing"))
      && Get(data, "isActive").JsUndefined? && Get(data, "sortOrder").JsUndefined?
  {
  }

  /** A name or display name that is falsy (such as `''`) is not setList,
      while an explicit `null` description is. */
  lemma UpdateSkipsEmptyName(data: JsValue, stringify: JsValue -> JsValue)
    requires Get(data, "name") == JsString("") && Get(data, "description") == JsNull
    ensures "name" !in Columns(UpdateSets(data, stringify))
    ensures ("description", JsNull) in UpdateSets(data, stringify)
  {
    var sets := UpdateSets(data, stringify);
    forall e | e in sets
      ensures e.0 != "name"
    {
    }
    forall i | 0 <= i < |sets|
      ensures Columns(sets)[i] != "name"
    {
      assert sets[i] in sets;
    }
  }

  const UPDATE_OPTION := "UPDATE print_options SET "
  const STAMP: seq<Piece> := [Fragment("updated_at = NOW()")]
  const WHERE_ID: seq<Piece> := [Fragment(" WHERE id = "), Mark]

  /** `updatePrintOption`: no statement when nothing is set; otherwise the
      assignments, then `updated_at = NOW()`, with the id as the last parameter. */
  function UpdateOption(id: string, data: JsValue, stringify: JsValue -> JsValue): (r: Option<Statement>)
    ensures r.None? <==> |UpdateSets(data, stringify)| == 0
    ensures r.Some? ==> Balanced(r.value)
    ensures r.Some? ==> r.value.params == Values(UpdateSets(data, stringify)) + [JsString(id)]
    ensures r.Some? ==> r.value.params[|r.value.params| - 1] == JsString(id)
    ensures r.Some? ==> var sets := UpdateSets(data, stringify);
      Render(r.value.sql) == "UPDATE print_options SET "
        + JoinWith(seq(|sets|, i requires 0 <= i < |sets| => Columns(sets)[i] + " = ?"), ", ")
        + ", " + "updated_at = NOW()" + " WHERE id = ?"
  {
    var sets := UpdateSets(data, stringify);
    if |sets| == 0 then None
    else Some(Statement(UpdateOptionSql(sets), Values(sets) + [JsString(id)]))
  }

  /** The statement text for the assignments of `sets`, the timestamp and the id. */
  function UpdateOptionSql(sets: Row): (q: seq<Piece>)
    requires |sets| > 0
    ensures Marks(q) == |sets| + 1
    ensures Render(q) == "UPDATE print_options SET "
      + JoinWith(seq(|sets|, i requires 0 <= i < |sets| => Columns(sets)[i] + " = ?"), ", ")
      + ", " + "updated_at = NOW()" + " WHERE id = ?"
  {
    var setList := JoinPieces(Assignments(Columns(sets)), COMMA);
    ListFacts(Columns(sets), 0);
    PlainPiece(UPDATE_OPTION);
    PlainPiece("updated_at = NOW()");
    WhereIdText();
    assert Marks(COMMA) == 0 && Render(COMMA) == ", ";
    SumOfFive([Fragment(UPDATE_OPTION)], setList, COMMA, STAMP, WHERE_ID);
    [Fragment(UPDATE_OPTION)] + setList + COMMA + STAMP + WHERE_ID
  }

  lemma WhereIdText()
    ensures Marks(WHERE_ID) == 1 && Render(WHERE_ID) == " WHERE id = ?"
  {
    assert WHERE_ID[1..] == [Mark];
    assert [Mark][1..] == [];
  }

  /** `deletePrintOption`: unlike fonts and colours, an option is removed outright. */
  function DeleteOption(id: string): (st: Statement)
    ensures st.params == [JsString(id)] && Balanced(st)
    ensures Render(st.sql) == "DELETE FROM print_options WHERE id = ?"
  {
    var st := Delete("print_options", ID_WHERE, Some([JsString(id)]));
    IdWhere();
    DeleteOptionText();
    st
  }

  lemma DeleteOptionText()
    ensures "DELETE FROM " + "print_options" + " WHERE " + "id = ?" == "DELETE FROM print_options WHERE id = ?"
  {
  }

  const BULK_DELETE := "DELETE FROM print_options WHERE id IN ("

  /** `bulkDeletePrintOptions`: no statement for an empty list; otherwise one
      placeholder per id, bound to the ids in order. */
  function BulkDelete(ids: seq<JsValue>): (r: Option<Statement>)
    ensures r.None? <==> |ids| == 0
    ensures r.Some? ==> Balanced(r.value)
    ensures r.Some? ==> r.value.params == ids
    ensures r.Some? ==> Render(r.value.sql) == BULK_DELETE + JoinWith(Repeat("?", |ids|), ",") + ")"
  {
    if |ids| == 0 then None
    else
      var sep := [Fragment(",")];
      var marks := JoinPieces(MarkList(|ids|), sep);
      PlainPiece(",");
      PlainPiece(BULK_DELETE);
      PlainPiece(")");
      MarksJoin(MarkList(|ids|), sep, 1);
      RenderJoin(MarkList(|ids|), sep, Repeat("?", |ids|));
      SumOfFive([Fragment(BULK_DELETE)], marks, [Fragment(")")], [], []);
      assert [Fragment(BULK_DELETE)] + marks + [Fragment(")")] + [] + [] == [Fragment(BULK_DELETE)] + marks + [Fragment(")")];
      Some(Statement([Fragment(BULK_DELETE)] + marks + [Fragment(")")], ids))
  }
}

=== FILE: print_option_types.dfy ===
/** The records the print-option screens exchange with the server: a
    category of options and one option inside it. */
module PrintOptionTypes {
  import opened Wrappers
  import opened Js

  const PRINT_OPTION := "print_option"
  const PRODUCTION_OPTION := "production_option"

  /** A category; `categoryType` is the `type` field, which the server may
      send with any text. */
  datatype Category = Category(
    id: string,
    name: string,
    categoryType: string,
    description: string,
    icon: string,
    optionCount: int,
    isActive: bool)

  /** One option. `description` is optional; `specifications` and `pricing`
      are free-form objects as the server stores them. */
  datatype PrintOption = PrintOption(
    id: string,
    categoryId: string,
    name: string,
    displayName: string,
    description: Option<string>,
    specifications: JsValue,
    pricing: JsValue,
    isActive: bool,
    sortOrder: int)
}

=== FILE: routing.dfy ===
/** The application's page routing: the page named by each URL path, the
    path each page is reached by, and how the current page is resolved
    from the location. */
module Routing {
  import opened Wrappers

  /** `PageType`. */
  datatype Page =
    | Dashboard | Fonts | Colors | FixedPrices | PrintOptions | Templates
    | Items | Orders | Products | Users | Roles | Permissions
    | Analytics | Monthly | AnalyticsReports | Custom | Settings | LocalFiles

  /** `pathToPageMap[path]`: `None` for a path the table does not list. */
  function PathToPage(path: string): (r: Option<Page>)
  {
    if path == "/" then Some(Dashboard)
    else if path == "/dashboard" then Some(Dashboard)
    else if path == "/fonts" then Some(Fonts)
    else if path == "/colors" then Some(Colors)
    else if path == "/fixed-prices" then Some(FixedPrices)
    else if path == "/print-options" then Some(PrintOptions)
    else if path == "/templates" then Some(Templates)
    else if path == "/items" then Some(Items)
    else if path == "/orders" then Some(Orders)
    else if path == "/products" then Some(Products)
    else if path == "/users" then Some(Users)
    else if path == "/roles" then Some(Roles)
    else if path == "/local-files" then Some(LocalFiles)
    else if path == "/permissions" then Some(Permissions)
    else if path == "/analytics" then Some(Analytics)
    else if path == "/analytics/monthly" then Some(Monthly)
    else if path == "/analytics/reports" then Some(AnalyticsReports)
    else if path == "/analytics/custom" then Some(Custom)
    else if path == "/settings" then Some(Settings)
    else None
  }

  /** `pageToPathMap[page]`, the path the sidebar navigates to. */
  function PageToPath(page: Page): (path: string)
    ensures |path| > 0 && path[0] == '/'
  {
    match page
    case Dashboard => "/"
    case Fonts => "/fonts"
    case Colors => "/colors"
    case FixedPrices => "/fixed-prices"
    case PrintOptions => "/print-options"
    case LocalFiles => "/local-files"
    case Templates => "/templates"
    case Items => "/items"
    case Orders => "/orders"
    case Products => "/products"
    case Users => "/users"
    case Roles => "/roles"
    case Permissions => "/permissions"
    case Analytics => "/analytics"
    case Monthly => "/analytics/monthly"
    case AnalyticsReports => "/analytics/reports"
    case Custom => "/analytics/custom"
    case Settings => "/settings"
  }

  const CATEGORY_PREFIX := "/print-options/"

  /** `getPrintOptionCategoryPage`'s pattern `^\/print-options\/([^\/]+)$`:
      the prefix followed by one non-empty segment without `/`. */
  predicate IsCategoryPath(path: string) {
    |path| > |CATEGORY_PREFIX| && path[..|CATEGORY_PREFIX|] == CATEGORY_PREFIX
    && forall i :: |CATEGORY_PREFIX| <= i < |path| ==> path[i] != '/'
  }

  /** `getPrintOptionCategoryPage`. */
  function CategoryPage(path: string): (r: Option<Page>)
    ensures r.Some? <==> exists segment :: path == CATEGORY_PREFIX + segment && segment != "" && '/' !in segment
    ensures r.Some? ==> r.value == PrintOptions
  {
    if IsCategoryPath(path) then
      var segment := path[|CATEGORY_PREFIX|..];
      assert path == CATEGORY_PREFIX + segment;
      Some(PrintOptions)
    else
      assert forall segment :: segment != "" && '/' !in segment ==> IsCategoryPath(CATEGORY_PREFIX + segment) by {
        forall segment | segment != "" && '/' !in segment
          ensures IsCategoryPath(CATEGORY_PREFIX + segment)
        {
          var p := CATEGORY_PREFIX + segment;
          assert p[..|CATEGORY_PREFIX|] == CATEGORY_PREFIX;
          assert forall i :: |CATEGORY_PREFIX| <= i < |p| ==> p[i] == segment[i - |CATEGORY_PREFIX|];
        }
      }
      None
  }

  /** `currentPage`: the exact path first, then the category pattern, then
      the dashboard. */
  function CurrentPage(path: string): (page: Page)
    ensures PathToPage(path).Some? ==> page == PathToPage(path).value
    ensures PathToPage(path).None? && CategoryPage(path).Some? ==> page == PrintOptions
    ensures PathToPage(path).None? && CategoryPage(path).None? ==> page == Dashboard
  {
    if PathToPage(path).Some? then PathToPage(path).value
    else if CategoryPage(path).Some? then CategoryPage(path).value
    else Dashboard
  }

  /** Following the sidebar's path for any page lands on that page. */
  lemma PathRoundTrip(page: Page)
    ensures PathToPage(PageToPath(page)) == Some(page)
    ensures CurrentPage(PageToPath(page)) == page
  {
  }

  /** The sidebar's paths are pairwise distinct. */
  lemma PageToPathInjective(a: Page, b: Page)
    requires a != b
    ensures PageToPath(a) != PageToPath(b)
  {
    PathRoundTrip(a);
    PathRoundTrip(b);
  }

  /** Every page is named by some path. */
  lemma EveryPageReachable(page: Page)
    ensures exists path :: PathToPage(path) == Some(page)
  {
    PathRoundTrip(page);
  }

  /** Both `/` and `/dashboard` name the dashboard; every other listed path
      is the one the sidebar uses for its page. */
  lemma OnlyDashboardHasTwoPaths(path: string, page: Page)
    requires PathToPage(path) == Some(page)
    ensures path == PageToPath(page) || (path == "/dashboard" && page == Dashboard)
  {
    if path == "/" {
    } else if path == "/dashboard" {
    } else if path == "/fonts" {
    } else if path == "/colors" {
    } else if path == "/fixed-prices" {
    } else if path == "/print-options" {
    } else if path == "/templates" {
    } else if path == "/items" {
    } else if path == "/orders" {
    } else if path == "/products" {
    } else if path == "/users" {
    } else if path == "/roles" {
    } else if path == "/local-files" {
    } else if path == "/permissions" {
    } else if path == "/analytics" {
    } else if path == "/analytics/monthly" {
    } else if path == "/analytics/reports" {
    } else if path == "/analytics/custom" {
    }
  }

  /** A category page resolves to the print-options page. */
  lemma CategoryResolves(segment: string)
    requires segment != "" && '/' !in segment
    ensures CurrentPage(CATEGORY_PREFIX + segment) == PrintOptions
  {
    var path := CATEGORY_PREFIX + segment;
    assert CategoryPage(path).Some?;
    CategoryPathsNotListed(path);
  }

  /** No listed path matches the category pattern, so the order of the first
      two lookups never matters. */
  lemma CategoryPathsNotListed(path: string)
    requires IsCategoryPath(path)
    ensures PathToPage(path).None?
  {
    assert |path| > 15 && path[1] == 'p' && path[14] == '/';
  }

  /** The prefix alone and a path with two segments fall back to the dashboard. */
  lemma MalformedCategoryPaths(bare: string, nested: string)
    requires bare == "/print-options/" && nested == "/print-options/a/b"
    ensures CurrentPage(bare) == Dashboard
    ensures CurrentPage(nested) == Dashboard
  {
    assert !IsCategoryPath(bare);
    assert nested[|CATEGORY_PREFIX| + 1] == '/';
    assert !IsCategoryPath(nested);
    assert PathToPage(bare).None? && PathToPage(nested).None?;
  }
}

=== FILE: search.dfy ===
/** The case-insensitive substring test behind every list search box:
    `field.toLowerCase().includes(term.toLowerCase())`. */
module Search {
  import opened Text

  predicate FieldMatches(field: string, term: string) {
    Includes(ToLower(field), ToLower(term))
  }

  /** A field matches exactly when the lower-cased term occurs somewhere in the
      lower-cased field. */
  lemma FieldMatchesIff(field: string, term: string)
    ensures FieldMatches(field, term) <==> exists i :: OccursAt(ToLower(field), ToLower(term), i)
  {
    IncludesIffOccurs(ToLower(field), ToLower(term));
  }

  /** Every field contains the empty term. */
  lemma EmptyTermMatches(field: string)
    ensures FieldMatches(field, "")
  {
    IncludesEmpty(ToLower(field));
  }

  /** Matching ignores the case of the term and of the field. */
  lemma MatchIgnoresCase(field: string, term: string)
    ensures FieldMatches(ToLower(field), term) == FieldMatches(field, term)
    ensures FieldMatches(field, ToLower(term)) == FieldMatches(field, term)
  {
    LowerTwice(field);
    LowerTwice(term);
  }

  lemma LowerTwice(s: string)
    ensures ToLower(ToLower(s)) == ToLower(s)
  {
  }

  /** A field matches a term that is a (case-insensitive) piece of it. */
  lemma InfixMatches(field: string, term: string, i: nat)
    requires i + |term| <= |field| && ToLower(field[i..i + |term|]) == ToLower(term)
    ensures FieldMatches(field, term)
  {
    var lf := ToLower(field);
    assert lf[i..i + |term|] == ToLower(field[i..i + |term|]);
    assert OccursAt(lf, ToLower(term), i);
    FieldMatchesIff(field, term);
  }
}

=== FILE: selection.dfy ===
/** Selection bookkeeping of the list screens. The colour and font grids keep
    a `Set` of ids; the print-option manager and its list keep an array of ids;
    the list also tracks the ids whose delete is in flight. */
module Selection {
  import Seqs

  /** The grid's single-item checkbox: `add` when checked, `delete` otherwise. */
  function SelectOne<T(!new)>(selected: set<T>, id: T, checked: bool): (r: set<T>)
    ensures id in r <==> checked
    ensures forall x :: x != id ==> (x in r <==> x in selected)
  {
    if checked then selected + {id} else selected - {id}
  }

  /** The grid's select-all checkbox: adds or removes exactly the ids of the
      visible page and keeps the selection made on other pages. */
  function SelectPage<T(!new)>(selected: set<T>, visible: seq<T>, checked: bool): (r: set<T>)
    ensures forall x :: x in visible ==> (x in r <==> checked)
    ensures forall x :: x !in visible ==> (x in r <==> x in selected)
  {
    var ids := set x | x in visible;
    if checked then selected + ids else selected - ids
  }

  /** The derived select-all flag: the number of visible ids that are selected
      equals the page length, and the page is not empty. */
  predicate PageFullySelected<T(!new)>(selected: set<T>, visible: seq<T>) {
    |Seqs.Filter(visible, (x: T) => x in selected)| == |visible| && |visible| > 0
  }

  /** The flag is set exactly when the page is non-empty and every visible id is selected. */
  lemma PageFullySelectedIff<T(!new)>(selected: set<T>, visible: seq<T>)
    ensures PageFullySelected(selected, visible)
        <==> |visible| > 0 && forall i :: 0 <= i < |visible| ==> visible[i] in selected
  {
    Seqs.FilterKeepsAll(visible, (x: T) => x in selected);
  }

  /** Select-all on a non-empty page raises the flag; clearing it lowers it. */
  lemma SelectPageSetsFlag<T(!new)>(selected: set<T>, visible: seq<T>, checked: bool)
    requires |visible| > 0
    ensures PageFullySelected(SelectPage(selected, visible, checked), visible) == checked
  {
    var r := SelectPage(selected, visible, checked);
    PageFullySelectedIff(r, visible);
    if !checked {
      assert visible[0] !in r;
    }
  }

  /** The manager's select-all: when the selection is as long as the page it
      is cleared, otherwise it becomes the page's ids. Only lengths are
      compared, not the ids themselves. */
  function ToggleAll<T>(selected: seq<T>, pageIds: seq<T>): (r: seq<T>)
    ensures |selected| == |pageIds| ==> r == []
    ensures |selected| != |pageIds| ==> r == pageIds
  {
    if |selected| == |pageIds| then [] else pageIds
  }

  /** Because only lengths are compared, a selection of one id from another
      page is cleared by select-all instead of being replaced by the page. */
  lemma ToggleAllComparesLengths<T>(other: T, onPage: T)
    requires other != onPage
    ensures ToggleAll([other], [onPage]) == []
    ensures onPage !in ToggleAll([other], [onPage])
  {
  }

  /** The manager's single checkbox toggles membership of one id. */
  function SelectOption<T(==,!new)>(selected: seq<T>, id: T): (r: seq<T>)
    ensures id in r <==> id !in selected
    ensures forall x :: x != id ==> (x in r <==> x in selected)
  {
    Seqs.Toggle(selected, id)
  }

  /** Bulk delete: the options left are those whose id is not selected. */
  function DeleteSelected<R(!new), T(==)>(options: seq<R>, idOf: R -> T, selected: seq<T>): (r: seq<R>)
    ensures forall o :: o in r <==> o in options && idOf(o) !in selected
  {
    Seqs.FilterMembers(options, (o: R) => idOf(o) !in selected);
    Seqs.Filter(options, (o: R) => idOf(o) !in selected)
  }

  /** Bulk delete keeps the surviving options in their original order. */
  lemma DeleteSelectedKeepsOrder<R(!new), T(!new)>(a: seq<R>, b: seq<R>, idOf: R -> T, selected: seq<T>)
    ensures DeleteSelected(a + b, idOf, selected)
         == DeleteSelected(a, idOf, selected) + DeleteSelected(b, idOf, selected)
  {
    Seqs.FilterConcat(a, b, (o: R) => idOf(o) !in selected);
  }

  /** With nothing selected, bulk delete removes nothing. */
  lemma DeleteNothing<R(!new), T(!new)>(options: seq<R>, idOf: R -> T)
    ensures DeleteSelected(options, idOf, []) == options
  {
    Seqs.FilterAllPass(options, (o: R) => idOf(o) !in []);
  }

  /** The list's select-all: every option id in list order, or nothing. */
  function ListSelectAll<R, T>(options: seq<R>, idOf: R -> T, checked: bool): (r: seq<T>)
    ensures checked ==> |r| == |options| && forall i :: 0 <= i < |options| ==> r[i] == idOf(options[i])
    ensures !checked ==> r == []
  {
    if checked then seq(|options|, i requires 0 <= i < |options| => idOf(options[i])) else []
  }

  /** The list's single checkbox: checking appends the id (even when already
      present), unchecking removes every occurrence. */
  function ListSelectOption<T(==,!new)>(selected: seq<T>, id: T, checked: bool): (r: seq<T>)
    ensures checked ==> |r| == |selected| + 1 && r[..|selected|] == selected && r[|selected|] == id
    ensures !checked ==> id !in r && forall x :: x != id ==> (x in r <==> x in selected)
  {
    if checked then selected + [id] else Seqs.RemoveAll(selected, id)
  }

  /** The list's header checkbox compares lengths only. */
  predicate HeaderChecked<T, R>(selected: seq<T>, options: seq<R>) {
    |selected| == |options|
  }

  /** Select-all ticks the header; clearing it unticks it unless the list is empty. */
  lemma ListSelectAllHeader<R, T>(options: seq<R>, idOf: R -> T, checked: bool)
    ensures HeaderChecked(ListSelectAll(options, idOf, checked), options) <==> checked || |options| == 0
  {
  }

  /** Checking the same option twice in a two-item list ticks the header
      although the other option is not selected. */
  lemma HeaderCountsDuplicates<T(!new)>(a: T, b: T)
    requires a != b
    ensures var s := ListSelectOption(ListSelectOption([], a, true), a, true);
      HeaderChecked(s, [a, b]) && b !in s
  {
    var s := ListSelectOption(ListSelectOption([], a, true), a, true);
    assert s == [a, a];
  }

  /** Deleting ids: the id is added when its delete starts and removed once it
      settles, whatever the outcome. */
  function BeginDelete<T(!new)>(deleting: seq<T>, id: T): (r: seq<T>)
    ensures id in r && forall x :: x in deleting ==> x in r
  {
    deleting + [id]
  }

  function EndDelete<T(==,!new)>(deleting: seq<T>, id: T): (r: seq<T>)
    ensures id !in r && forall x :: x != id ==> (x in r <==> x in deleting)
  {
    Seqs.RemoveAll(deleting, id)
  }

  /** A delete that starts and settles leaves the in-flight list as it was,
      when the id was not already pending. */
  lemma DeleteSettles<T(!new)>(deleting: seq<T>, id: T)
    requires id !in deleting
    ensures EndDelete(BeginDelete(deleting, id), id) == deleting
  {
    Seqs.RemoveAllConcat(deleting, [id], id);
    Seqs.RemoveAllAbsent(deleting, id);
    assert Seqs.RemoveAll([id], id) == [];
  }
}

=== FILE: seqs.dfy ===
/** Array operations the dashboard applies to lists of records and of ids:
    `filter`, removal of every occurrence of a value, and the
    add-if-absent / remove-if-present toggle. */
module Seqs {

  /** `xs.filter(p)`. */
  function Filter<T(!new)>(xs: seq<T>, p: T -> bool): (ys: seq<T>)
    ensures |ys| <= |xs|
    ensures forall i :: 0 <= i < |ys| ==> p(ys[i])
    decreases |xs|
  {
    if |xs| == 0 then []
    else if p(xs[0]) then [xs[0]] + Filter(xs[1..], p)
    else Filter(xs[1..], p)
  }

  /** The filter keeps exactly the elements that pass. */
  lemma {:induction false} FilterMembers<T(!new)>(xs: seq<T>, p: T -> bool)
    ensures forall y :: y in Filter(xs, p) <==> y in xs && p(y)
    decreases |xs|
  {
    if |xs| > 0 {
      FilterMembers(xs[1..], p);
      assert forall y :: y in xs <==> y == xs[0] || y in xs[1..];
    }
  }

  /** Filtering distributes over concatenation, so the kept elements stay in their original order. */
  lemma {:induction false} FilterConcat<T(!new)>(xs: seq<T>, ys: seq<T>, p: T -> bool)
    ensures Filter(xs + ys, p) == Filter(xs, p) + Filter(ys, p)
    decreases |xs|
  {
    if |xs| == 0 {
      assert xs + ys == ys;
    } else {
      var head := if p(xs[0]) then [xs[0]] else [];
      assert Filter(xs + ys, p) == head + Filter(xs[1..] + ys, p) by {
        assert (xs + ys)[0] == xs[0];
        assert (xs + ys)[1..] == xs[1..] + ys;
      }
      assert Filter(xs, p) == head + Filter(xs[1..], p);
      FilterConcat(xs[1..], ys, p);
    }
  }

  /** Filtering a list with one element in front decides that element first. */
  lemma FilterCons<T(!new)>(x: T, xs: seq<T>, p: T -> bool)
    ensures Filter([x] + xs, p) == if p(x) then [x] + Filter(xs, p) else Filter(xs, p)
  {
    assert ([x] + xs)[0] == x;
    assert ([x] + xs)[1..] == xs;
  }

  /** The lists of `xss` written one after another. */
  function Flatten<T>(xss: seq<seq<T>>): (ys: seq<T>)
    decreases |xss|
  {
    if |xss| == 0 then [] else Flatten(xss[..|xss| - 1]) + xss[|xss| - 1]
  }

  /** Flattening distributes over concatenation. */
  lemma AppendAssociates<T>(xs: seq<T>, ys: seq<T>, zs: seq<T>)
    ensures xs + (ys + zs) == (xs + ys) + zs
  {
  }

  lemma {:induction false} FlattenAppend<T>(xss: seq<seq<T>>, yss: seq<seq<T>>)
    ensures Flatten(xss + yss) == Flatten(xss) + Flatten(yss)
    decreases |yss|
  {
    if |yss| == 0 {
      assert xss + yss == xss;
    } else {
      var init := yss[..|yss| - 1];
      FlattenAppend(xss, init);
      assert (xss + yss)[..|xss + yss| - 1] == xss + init;
    }
  }

  /** An element of the flattened list is an element of one of the lists. */
  lemma {:induction false} FlattenMembers<T>(xss: seq<seq<T>>)
    ensures forall m :: m in Flatten(xss) <==> exists i :: 0 <= i < |xss| && m in xss[i]
    decreases |xss|
  {
    if |xss| > 0 {
      var init := xss[..|xss| - 1];
      FlattenMembers(init);
      forall m
        ensures m in Flatten(xss) <==> exists i :: 0 <= i < |xss| && m in xss[i]
      {
        if exists i :: 0 <= i < |xss| && m in xss[i] {
          var i :| 0 <= i < |xss| && m in xss[i];
          if i < |xss| - 1 {
            assert m in init[i];
          }
        }
        if m in Flatten(init) {
          var i :| 0 <= i < |init| && m in init[i];
          assert m in xss[i];
        }
      }
    }
  }

  /** A filter keeps the whole list exactly when every element passes. */
  lemma {:induction false} FilterKeepsAll<T(!new)>(xs: seq<T>, p: T -> bool)
    ensures |Filter(xs, p)| == |xs| <==> forall i :: 0 <= i < |xs| ==> p(xs[i])
    decreases |xs|
  {
    if |xs| > 0 {
      FilterKeepsAll(xs[1..], p);
      if p(xs[0]) {
        if forall i :: 1 <= i < |xs| ==> p(xs[i]) {
          assert forall i :: 0 <= i < |xs[1..]| ==> p(xs[1..][i]);
        }
        if forall i :: 0 <= i < |xs[1..]| ==> p(xs[1..][i]) {
          assert forall i :: 1 <= i < |xs| ==> xs[i] == xs[1..][i - 1];
        }
      }
    }
  }

  /** A filter that every element passes is the identity. */
  lemma {:induction false} FilterAllPass<T(!new)>(xs: seq<T>, p: T -> bool)
    requires forall i :: 0 <= i < |xs| ==> p(xs[i])
    ensures Filter(xs, p) == xs
    decreases |xs|
  {
    if |xs| > 0 {
      FilterAllPass(xs[1..], p);
      assert xs == [xs[0]] + xs[1..];
    }
  }

  /** Two filters whose predicates split the list between them take every
      element exactly once. */
  lemma {:induction false} FilterComplementCount<T(!new)>(xs: seq<T>, p: T -> bool, q: T -> bool)
    requires forall i :: 0 <= i < |xs| ==> p(xs[i]) != q(xs[i])
    ensures |Filter(xs, p)| + |Filter(xs, q)| == |xs|
    decreases |xs|
  {
    if |xs| > 0 {
      assert forall i :: 0 <= i < |xs[1..]| ==> xs[1..][i] == xs[i + 1];
      FilterComplementCount(xs[1..], p, q);
    }
  }

  /** A filter that no element passes is empty. */
  lemma {:induction false} FilterNonePass<T(!new)>(xs: seq<T>, p: T -> bool)
    requires forall i :: 0 <= i < |xs| ==> !p(xs[i])
    ensures Filter(xs, p) == []
    decreases |xs|
  {
    if |xs| > 0 {
      FilterNonePass(xs[1..], p);
    }
  }

  /** Elements that fail the predicate can be dropped from either end before filtering. */
  lemma FilterSkipsFailing<T(!new)>(xs: seq<T>, ys: seq<T>, p: T -> bool)
    requires forall i :: 0 <= i < |xs| ==> !p(xs[i])
    ensures Filter(xs + ys, p) == Filter(ys, p)
    ensures Filter(ys + xs, p) == Filter(ys, p)
  {
    FilterNonePass(xs, p);
    FilterConcat(xs, ys, p);
    FilterConcat(ys, xs, p);
  }

  /** Filtering by a weaker predicate first changes nothing. */
  lemma {:induction false} FilterSubsumed<T(!new)>(xs: seq<T>, p: T -> bool, q: T -> bool)
    requires forall x :: q(x) ==> p(x)
    ensures Filter(Filter(xs, p), q) == Filter(xs, q)
    decreases |xs|
  {
    if |xs| > 0 {
      FilterSubsumed(xs[1..], p, q);
    }
  }

  /** Filters by pointwise-equal predicates agree. */
  lemma {:induction false} FilterEquivalent<T(!new)>(xs: seq<T>, p: T -> bool, q: T -> bool)
    requires forall x :: p(x) == q(x)
    ensures Filter(xs, p) == Filter(xs, q)
    decreases |xs|
  {
    if |xs| > 0 {
      FilterEquivalent(xs[1..], p, q);
    }
  }

  /** `xs.filter(y => y !== x)`: every occurrence of `x` removed, the rest in order. */
  function RemoveAll<T(==,!new)>(xs: seq<T>, x: T): (ys: seq<T>)
    ensures x !in ys
    ensures forall y :: y != x ==> (y in ys <==> y in xs)
    ensures |ys| <= |xs|
    decreases |xs|
  {
    if |xs| == 0 then []
    else if xs[0] == x then RemoveAll(xs[1..], x)
    else [xs[0]] + RemoveAll(xs[1..], x)
  }

  /** `RemoveAll` is the array filter that keeps every other element, so the
      kept elements keep their order and their repetitions. */
  lemma {:induction false} RemoveAllIsFilter<T(!new)>(xs: seq<T>, x: T)
    ensures RemoveAll(xs, x) == Filter(xs, y => y != x)
    decreases |xs|
  {
    if |xs| > 0 {
      RemoveAllIsFilter(xs[1..], x);
    }
  }

  lemma {:induction false} RemoveAllAbsent<T(!new)>(xs: seq<T>, x: T)
    requires x !in xs
    ensures RemoveAll(xs, x) == xs
    decreases |xs|
  {
    if |xs| > 0 {
      RemoveAllAbsent(xs[1..], x);
      assert xs == [xs[0]] + xs[1..];
    }
  }

  lemma {:induction false} RemoveAllConcat<T(!new)>(xs: seq<T>, ys: seq<T>, x: T)
    ensures RemoveAll(xs + ys, x) == RemoveAll(xs, x) + RemoveAll(ys, x)
    decreases |xs|
  {
    if |xs| == 0 {
      assert xs + ys == ys;
    } else {
      RemoveAllConcat(xs[1..], ys, x);
      assert (xs + ys)[0] == xs[0];
      assert (xs + ys)[1..] == xs[1..] + ys;
    }
  }

  /** `xs.includes(x) ? xs.filter(y => y !== x) : [...xs, x]`. */
  function Toggle<T(==,!new)>(xs: seq<T>, x: T): (ys: seq<T>)
    ensures x in ys <==> x !in xs
    ensures forall y :: y != x ==> (y in ys <==> y in xs)
  {
    if x in xs then RemoveAll(xs, x) else xs + [x]
  }

  /** Toggling a value that is absent, then toggling it again, restores the list. */
  lemma ToggleTwice<T(!new)>(xs: seq<T>, x: T)
    requires x !in xs
    ensures Toggle(Toggle(xs, x), x) == xs
  {
    RemoveAllConcat(xs, [x], x);
    RemoveAllAbsent(xs, x);
    assert RemoveAll([x], x) == [];
  }
}

=== FILE: sidebar.dfy ===
/** The navigation sidebar: its menu, which groups are expanded, and what a
    click on a menu entry does. */
module Sidebar {
  import opened Wrappers
  import opened Routing
  import Seqs

  /** A menu entry; `caption` is its `label`. */
  datatype SubItem = SubItem(caption: string, page: Page)

  /** A top-level entry: it may name a page, and may hold a group of sub-entries. */
  datatype MenuItem = MenuItem(caption: string, page: Option<Page>, subItems: Option<seq<SubItem>>)

  /** `menuItems`. */
  const MENU: seq<MenuItem> := [
    MenuItem("Dashboard", Some(Dashboard), None),
    MenuItem("Personalization", None, Some([
      SubItem("Fonts", Fonts), SubItem("Colors", Colors), SubItem("Fixed Prices", FixedPrices),
      SubItem("Local Files", LocalFiles), SubItem("Print Options", PrintOptions),
      SubItem("Templates", Templates)])),
    MenuItem("Production", None, Some([
      SubItem("Items", Items), SubItem("Orders", Orders), SubItem("Products", Products)])),
    MenuItem("Users", None, Some([
      SubItem("All Users", Users), SubItem("User Roles", Roles), SubItem("Permissions", Permissions)])),
    MenuItem("Analytics", Some(Analytics), None),
    MenuItem("Reports", None, Some([
      SubItem("Monthly Reports", Monthly), SubItem("Analytics Reports", AnalyticsReports),
      SubItem("Custom Reports", Custom)])),
    MenuItem("Settings", Some(Settings), None)
  ]

  /** `toggleExpanded`: a label that is absent is appended, one that is
      present is removed wherever it occurs. */
  function ToggleExpanded(expanded: seq<string>, caption: string): (r: seq<string>)
    ensures caption !in expanded ==> r == expanded + [caption]
    ensures caption in expanded ==> caption !in r && forall l :: l != caption ==> (l in r <==> l in expanded)
  {
    Seqs.Toggle(expanded, caption)
  }

  /** Expanding a group and collapsing it again restores the list. */
  lemma ToggleRestores(expanded: seq<string>, caption: string)
    requires caption !in expanded
    ensures ToggleExpanded(ToggleExpanded(expanded, caption), caption) == expanded
  {
    Seqs.ToggleTwice(expanded, caption);
  }

  /** The outcome of a click: the expanded labels and the path navigated to, if any. */
  datatype ClickResult = ClickResult(expanded: seq<string>, navigateTo: Option<string>)

  /** The entry's `onClick`: a group toggles while the sidebar is open;
      otherwise an entry with a page navigates to its path; anything else
      does nothing. */
  function Click(item: MenuItem, collapsed: bool, expanded: seq<string>): (r: ClickResult)
    ensures item.subItems.Some? && !collapsed ==>
      r.navigateTo.None? && r.expanded == ToggleExpanded(expanded, item.caption)
    ensures !(item.subItems.Some? && !collapsed) && item.page.Some? ==>
      r == ClickResult(expanded, Some(PageToPath(item.page.value)))
    ensures !(item.subItems.Some? && !collapsed) && item.page.None? ==> r == ClickResult(expanded, None)
  {
    if item.subItems.Some? && !collapsed then ClickResult(ToggleExpanded(expanded, item.caption), None)
    else if item.page.Some? then ClickResult(expanded, Some(PageToPath(item.page.value)))
    else ClickResult(expanded, None)
  }

  /** The sub-entries are listed when the entry has a group, the sidebar is
      open and the label is expanded. */
  predicate SubmenuShown(item: MenuItem, collapsed: bool, expanded: seq<string>) {
    item.subItems.Some? && !collapsed && item.caption in expanded
  }

  /** Clicking a group in the open sidebar flips whether its sub-entries show,
      and leaves every other group as it was. */
  lemma ClickFlipsSubmenu(item: MenuItem, other: MenuItem, expanded: seq<string>)
    requires item.subItems.Some? && other.caption != item.caption
    ensures var after := Click(item, false, expanded).expanded;
      SubmenuShown(item, false, after) == !SubmenuShown(item, false, expanded)
      && SubmenuShown(other, false, after) == SubmenuShown(other, false, expanded)
  {
  }

  /** In the collapsed sidebar a click never changes the expanded groups, and
      a group without a page of its own does nothing at all. */
  lemma CollapsedClick(item: MenuItem, expanded: seq<string>)
    ensures Click(item, true, expanded).expanded == expanded
    ensures item.page.None? ==> Click(item, true, expanded).navigateTo.None?
  {
  }

  /** The pages one entry reaches: its own, then those of its group. */
  function ItemPages(item: MenuItem): (pages: seq<Page>)
    ensures item.page.Some? ==> item.page.value in pages
    ensures item.subItems.Some? ==> forall j :: 0 <= j < |item.subItems.value| ==> item.subItems.value[j].page in pages
  {
    (if item.page.Some? then [item.page.value] else [])
    + (if item.subItems.Some? then SubPages(item.subItems.value) else [])
  }

  function SubPages(subs: seq<SubItem>): (pages: seq<Page>)
    ensures |pages| == |subs| && forall i :: 0 <= i < |subs| ==> pages[i] == subs[i].page
  {
    seq(|subs|, i requires 0 <= i < |subs| => subs[i].page)
  }

  /** The pages the whole menu reaches, in menu order. */
  function MenuPages(menu: seq<MenuItem>): (pages: seq<Page>)
    decreases |menu|
  {
    if |menu| == 0 then [] else ItemPages(menu[0]) + MenuPages(menu[1..])
  }

  /** Every page an entry reaches is among the menu's pages. */
  lemma {:induction false} EntryPagesInMenu(menu: seq<MenuItem>, k: nat, page: Page)
    requires k < |menu| && page in ItemPages(menu[k])
    ensures page in MenuPages(menu)
    decreases k
  {
    if k > 0 {
      EntryPagesInMenu(menu[1..], k - 1, page);
    }
  }

  lemma TopEntryInMenu(k: nat, page: Page)
    requires k < |MENU| && MENU[k].page == Some(page)
    ensures page in MenuPages(MENU)
  {
    EntryPagesInMenu(MENU, k, page);
  }

  lemma SubEntryInMenu(k: nat, j: nat, page: Page)
    requires k < |MENU| && MENU[k].subItems.Some? && j < |MENU[k].subItems.value|
    requires MENU[k].subItems.value[j].page == page
    ensures page in MenuPages(MENU)
  {
    EntryPagesInMenu(MENU, k, page);
  }

  /** Every page is reachable from the menu, and navigating to it marks it
      as the current page. */
  lemma MenuReachesEveryPage(page: Page)
    ensures page in MenuPages(MENU)
    ensures CurrentPage(PageToPath(page)) == page
  {
    if page in {Dashboard, Analytics, Settings} {
      TopPagesInMenu(page);
    } else if page in {Fonts, Colors, FixedPrices, LocalFiles, PrintOptions, Templates} {
      PersonalizationInMenu(page);
    } else {
      OtherGroupsInMenu(page);
    }
    PathRoundTrip(page);
  }

  lemma TopPagesInMenu(page: Page)
    requires page in {Dashboard, Analytics, Settings}
    ensures page in MenuPages(MENU)
  {
    match page
    case Dashboard => TopEntryInMenu(0, page);
    case Analytics => TopEntryInMenu(4, page);
    case Settings => TopEntryInMenu(6, page);
  }

  lemma PersonalizationInMenu(page: Page)
    requires page in {Fonts, Colors, FixedPrices, LocalFiles, PrintOptions, Templates}
    ensures page in MenuPages(MENU)
  {
    var j :=
      match page
      case Fonts => 0
      case Colors => 1
      case FixedPrices => 2
      case LocalFiles => 3
      case PrintOptions => 4
      case Templates => 5;
    SubEntryInMenu(1, j, page);
  }

  lemma OtherGroupsInMenu(page: Page)
    requires page !in {Dashboard, Analytics, Settings, Fonts, Colors, FixedPrices, LocalFiles, PrintOptions, Templates}
    ensures page in MenuPages(MENU)
  {
    var (k, j) :=
      match page
      case Items => (2, 0)
      case Orders => (2, 1)
      case Products => (2, 2)
      case Users => (3, 0)
      case Roles => (3, 1)
      case Permissions => (3, 2)
      case Monthly => (5, 0)
      case AnalyticsReports => (5, 1)
      case Custom => (5, 2);
    SubEntryInMenu(k, j, page);
  }
}

=== FILE: sql.dfy ===
/** The statement builders of the two database services (the browser-side
    and the server-side `DatabaseService`, whose generic builders are the
    same). A statement is its text, with every `?` placeholder kept as a
    separate piece, and its parameter list. */
module Sql {
  import opened Text
  import opened Wrappers
  import opened Js

  /** A piece of statement text: literal text or one `?` placeholder. */
  datatype Piece = Fragment(text: string) | Mark

  /** The number of placeholders. */
  function Marks(q: seq<Piece>): nat
    decreases |q|
  {
    if |q| == 0 then 0 else (if q[0].Mark? then 1 else 0) + Marks(q[1..])
  }

  /** The statement text, with each placeholder written `?`. */
  function Render(q: seq<Piece>): string
    decreases |q|
  {
    if |q| == 0 then "" else (if q[0].Mark? then "?" else q[0].text) + Render(q[1..])
  }

  lemma {:induction false} MarksAppend(a: seq<Piece>, b: seq<Piece>)
    ensures Marks(a + b) == Marks(a) + Marks(b)
    decreases |a|
  {
    if |a| == 0 {
      assert a + b == b;
    } else {
      MarksAppend(a[1..], b);
      assert (a + b)[1..] == a[1..] + b;
    }
  }

  lemma {:induction false} RenderAppend(a: seq<Piece>, b: seq<Piece>)
    ensures Render(a + b) == Render(a) + Render(b)
    decreases |a|
  {
    if |a| == 0 {
      assert a + b == b;
    } else {
      RenderAppend(a[1..], b);
      assert (a + b)[0] == a[0];
      assert (a + b)[1..] == a[1..] + b;
      var h := if a[0].Mark? then "?" else a[0].text;
      assert Render(a + b) == h + Render(a[1..] + b);
      assert Render(a) == h + Render(a[1..]);
    }
  }

  /** `parts.join(sep)` over pieces. */
  function JoinPieces(parts: seq<seq<Piece>>, sep: seq<Piece>): seq<Piece>
    decreases |parts|
  {
    if |parts| == 0 then []
    else if |parts| == 1 then parts[0]
    else parts[0] + sep + JoinPieces(parts[1..], sep)
  }

  /** Joining parts of `each` placeholders with a plain separator gives `each` per part. */
  lemma {:induction false} MarksJoin(parts: seq<seq<Piece>>, sep: seq<Piece>, each: nat)
    requires forall i :: 0 <= i < |parts| ==> Marks(parts[i]) == each
    requires Marks(sep) == 0
    ensures Marks(JoinPieces(parts, sep)) == |parts| * each
    decreases |parts|
  {
    if |parts| > 1 {
      MarksJoin(parts[1..], sep, each);
      MarksAppend(parts[0], sep);
      MarksAppend(parts[0] + sep, JoinPieces(parts[1..], sep));
      assert Marks(JoinPieces(parts, sep)) == each + (|parts| - 1) * each;
      MulSucc(|parts| - 1, each);
    } else if |parts| == 1 {
      assert Marks(JoinPieces(parts, sep)) == each;
    }
  }

  /** The text of a join is the join of the parts' texts. */
  lemma {:induction false} RenderJoin(parts: seq<seq<Piece>>, sep: seq<Piece>, texts: seq<string>)
    requires |texts| == |parts| && forall i :: 0 <= i < |parts| ==> Render(parts[i]) == texts[i]
    ensures Render(JoinPieces(parts, sep)) == JoinWith(texts, Render(sep))
    decreases |parts|
  {
    if |parts| > 1 {
      RenderJoin(parts[1..], sep, texts[1..]);
      RenderAppend(parts[0], sep);
      RenderAppend(parts[0] + sep, JoinPieces(parts[1..], sep));
    }
  }

  lemma PlainPiece(s: string)
    ensures Marks([Fragment(s)]) == 0 && Render([Fragment(s)]) == s
  {
    assert [Fragment(s)][1..] == [];
  }

  /** A statement and the values bound to its placeholders, in order. */
  datatype Statement = Statement(sql: seq<Piece>, params: seq<JsValue>)

  /** Every placeholder has exactly one parameter. */
  predicate Balanced(st: Statement) {
    Marks(st.sql) == |st.params|
  }

  /** A record as `Object.keys` and `Object.values` list it, in insertion order. */
  type Row = seq<(string, JsValue)>

  function Columns(data: Row): (ks: seq<string>)
    ensures |ks| == |data| && forall i :: 0 <= i < |data| ==> ks[i] == data[i].0
  {
    seq(|data|, i requires 0 <= i < |data| => data[i].0)
  }

  function Values(data: Row): (vs: seq<JsValue>)
    ensures |vs| == |data| && forall i :: 0 <= i < |data| ==> vs[i] == data[i].1
  {
    seq(|data|, i requires 0 <= i < |data| => data[i].1)
  }

  /** The record whose keys are `columns` and whose values are `values`, pairwise. */
  function Zip(columns: seq<string>, values: seq<JsValue>): (data: Row)
    requires |columns| == |values|
    ensures Columns(data) == columns && Values(data) == values
  {
    seq(|columns|, i requires 0 <= i < |columns| => (columns[i], values[i]))
  }

  /** The values of two rows written one after the other. */
  lemma ValuesAppend(data: Row, extra: Row)
    ensures Values(data + extra) == Values(data) + Values(extra)
  {
  }

  const COMMA: seq<Piece> := [Fragment(", ")]

  /** `n` placeholders. */
  function MarkList(n: nat): (parts: seq<seq<Piece>>)
    ensures |parts| == n && forall i :: 0 <= i < n ==> parts[i] == [Mark]
  {
    seq(n, _ => [Mark])
  }

  function ColumnList(columns: seq<string>): (parts: seq<seq<Piece>>)
    ensures |parts| == |columns| && forall i :: 0 <= i < |columns| ==> parts[i] == [Fragment(columns[i])]
  {
    seq(|columns|, i requires 0 <= i < |columns| => [Fragment(columns[i])])
  }

  /** `${key} = ?` for each column. */
  function Assignments(columns: seq<string>): (parts: seq<seq<Piece>>)
    ensures |parts| == |columns| && forall i :: 0 <= i < |columns| ==> parts[i] == [Fragment(columns[i] + " = "), Mark]
  {
    seq(|columns|, i requires 0 <= i < |columns| => [Fragment(columns[i] + " = "), Mark])
  }

  lemma ListFacts(columns: seq<string>, n: nat)
    ensures Marks(JoinPieces(ColumnList(columns), COMMA)) == 0
    ensures Marks(JoinPieces(MarkList(n), COMMA)) == n
    ensures Marks(JoinPieces(Assignments(columns), COMMA)) == |columns|
    ensures Render(JoinPieces(ColumnList(columns), COMMA)) == JoinWith(columns, ", ")
    ensures Render(JoinPieces(MarkList(n), COMMA)) == JoinWith(Repeat("?", n), ", ")
    ensures Render(JoinPieces(Assignments(columns), COMMA))
         == JoinWith(seq(|columns|, i requires 0 <= i < |columns| => columns[i] + " = ?"), ", ")
  {
    var cols, marks, sets := ColumnList(columns), MarkList(n), Assignments(columns);
    assert Marks(COMMA) == 0 && Render(COMMA) == ", ";
    MarksJoin(cols, COMMA, 0);
    MarksJoin(marks, COMMA, 1);
    forall i | 0 <= i < |sets|
      ensures Marks(sets[i]) == 1
    {
      assert Marks(sets[i]) == Marks([Mark]);
    }
    MarksJoin(sets, COMMA, 1);
    RenderJoin(cols, COMMA, columns);
    RenderJoin(marks, COMMA, Repeat("?", n));
    var texts := seq(|columns|, i requires 0 <= i < |columns| => columns[i] + " = ?");
    forall i | 0 <= i < |sets|
      ensures Render(sets[i]) == texts[i]
    {
      assert Render(sets[i]) == columns[i] + " = " + Render([Mark]);
    }
    RenderJoin(sets, COMMA, texts);
  }

  /** `insert`: one column and one placeholder per key, the values in key order. */
  function Insert(table: string, data: Row): (st: Statement)
    ensures st.params == Values(data)
    ensures Balanced(st) && Marks(st.sql) == |Columns(data)|
    ensures Render(st.sql) == "INSERT INTO " + table + " (" + JoinWith(Columns(data), ", ") + ") VALUES ("
                              + JoinWith(Repeat("?", |data|), ", ") + ")"
  {
    var head := [Fragment("INSERT INTO " + table + " (")];
    var columns := JoinPieces(ColumnList(Columns(data)), COMMA);
    var middle := [Fragment(") VALUES (")];
    var marks := JoinPieces(MarkList(|data|), COMMA);
    var tail := [Fragment(")")];
    ListFacts(Columns(data), |data|);
    PlainPiece("INSERT INTO " + table + " (");
    PlainPiece(") VALUES (");
    PlainPiece(")");
    SumOfFive(head, columns, middle, marks, tail);
    Statement(head + columns + middle + marks + tail, Values(data))
  }

  /** Placeholders and text of five consecutive parts add up. */
  lemma SumOfFive(a: seq<Piece>, b: seq<Piece>, c: seq<Piece>, d: seq<Piece>, e: seq<Piece>)
    ensures Marks(a + b + c + d + e) == Marks(a) + Marks(b) + Marks(c) + Marks(d) + Marks(e)
    ensures Render(a + b + c + d + e) == Render(a) + Render(b) + Render(c) + Render(d) + Render(e)
  {
    MarksAppend(a, b);
    MarksAppend(a + b, c);
    MarksAppend(a + b + c, d);
    MarksAppend(a + b + c + d, e);
    RenderAppend(a, b);
    RenderAppend(a + b, c);
    RenderAppend(a + b + c, d);
    RenderAppend(a + b + c + d, e);
  }

  /** `whereParams || []`. */
  function WhereParams(whereParams: Option<seq<JsValue>>): seq<JsValue> {
    if whereParams.Some? then whereParams.value else []
  }

  /** `update`: one `key = ?` per key; the data values come first, then the
      parameters of the `WHERE` text. */
  function Update(table: string, data: Row, where: seq<Piece>, whereParams: Option<seq<JsValue>>): (st: Statement)
    ensures st.params == Values(data) + WhereParams(whereParams)
    ensures Marks(st.sql) == |data| + Marks(where)
    ensures Render(st.sql) == "UPDATE " + table + " SET "
      + JoinWith(seq(|data|, i requires 0 <= i < |data| => Columns(data)[i] + " = ?"), ", ")
      + " WHERE " + Render(where)
  {
    var head := [Fragment("UPDATE " + table + " SET ")];
    var sets := JoinPieces(Assignments(Columns(data)), COMMA);
    var middle := [Fragment(" WHERE ")];
    ListFacts(Columns(data), 0);
    PlainPiece("UPDATE " + table + " SET ");
    PlainPiece(" WHERE ");
    SumOfFive(head, sets, middle, where, []);
    assert head + sets + middle + where + [] == head + sets + middle + where;
    Statement(head + sets + middle + where, Values(data) + WhereParams(whereParams))
  }

  /** An update is balanced exactly when its `WHERE` text is. */
  lemma UpdateBalanced(table: string, data: Row, where: seq<Piece>, whereParams: Option<seq<JsValue>>)
    ensures Balanced(Update(table, data, where, whereParams)) <==> Marks(where) == |WhereParams(whereParams)|
  {
  }

  /** `delete`: the `WHERE` text and its parameters, as given. */
  function Delete(table: string, where: seq<Piece>, whereParams: Option<seq<JsValue>>): (st: Statement)
    ensures st.params == WhereParams(whereParams)
    ensures Marks(st.sql) == Marks(where)
    ensures Render(st.sql) == "DELETE FROM " + table + " WHERE " + Render(where)
  {
    var head := [Fragment("DELETE FROM " + table + " WHERE ")];
    PlainPiece("DELETE FROM " + table + " WHERE ");
    MarksAppend(head, where);
    RenderAppend(head, where);
    Statement(head + where, WhereParams(whereParams))
  }

  /** `findOne`: the first row, or nothing. */
  function FindOne<T>(rows: seq<T>): (r: Option<T>)
    ensures r.None? <==> |rows| == 0
    ensures r.Some? ==> r.value == rows[0]
  {
    if |rows| > 0 then Some(rows[0]) else None
  }

  /** `'id = ?'`. */
  const ID_WHERE: seq<Piece> := [Fragment("id = "), Mark]

  lemma IdWhere()
    ensures Render(ID_WHERE) == "id = ?" && Marks(ID_WHERE) == 1
  {
    assert Render(ID_WHERE[1..]) == "?";
    assert ID_WHERE == [Fragment("id = ")] + [Mark];
    MarksAppend([Fragment("id = ")], [Mark]);
    PlainPiece("id = ");
  }

  /** `Object.keys(data).map(key => `${key} = ?`).join(', ')`. */
  function SetClause(columns: seq<string>): string {
    JoinWith(seq(|columns|, i requires 0 <= i < |columns| => columns[i] + " = ?"), ", ")
  }

  /** An update of the row with the given id (`'id = ?'`, `[id]`): the
      assignments, then `WHERE id = ?`, bound to the data values and the id. */
  lemma UpdateById(table: string, data: Row, id: JsValue)
    ensures var st := Update(table, data, ID_WHERE, Some([id]));
      && Balanced(st) && st.params == Values(data) + [id]
      && Render(st.sql) == "UPDATE " + table + " SET " + SetClause(Columns(data)) + " WHERE id = ?"
  {
    IdWhere();
    WhereClauseText();
    var sets := SetClause(Columns(data));
    assert "UPDATE " + table + " SET " + sets + " WHERE " + "id = ?"
        == "UPDATE " + table + " SET " + sets + (" WHERE " + "id = ?");
  }

  /** `deleteFont` and `deleteColor`: a soft delete that only clears
      `is_active` and stamps `updated_at` on the row with the given id. */
  function SoftDelete(table: string, id: JsValue, now: JsValue): (st: Statement)
    ensures st.params == [JsBool(false), now, id]
    ensures Balanced(st)
    ensures Render(st.sql) == "UPDATE " + table + " SET is_active = ?, updated_at = ?" + " WHERE id = ?"
  {
    var data: Row := [("is_active", JsBool(false)), ("updated_at", now)];
    SoftDeleteRenders(table, data);
    IdWhere();
    Update(table, data, ID_WHERE, Some([id]))
  }

  lemma SoftDeleteRenders(table: string, data: Row)
    requires Columns(data) == ["is_active", "updated_at"]
    ensures "UPDATE " + table + " SET "
      + JoinWith(seq(|data|, i requires 0 <= i < |data| => Columns(data)[i] + " = ?"), ", ")
      + " WHERE " + Render(ID_WHERE)
      == "UPDATE " + table + " SET is_active = ?, updated_at = ?" + " WHERE id = ?"
  {
    var sets := seq(|data|, i requires 0 <= i < |data| => Columns(data)[i] + " = ?");
    assert sets == ["is_active = ?", "updated_at = ?"] by {
      assert |sets| == 2 && sets[0] == "is_active = ?" && sets[1] == "updated_at = ?";
    }
    assert JoinWith(sets, ", ") == "is_active = ?, updated_at = ?" by {
      assert JoinWith(sets[1..], ", ") == "updated_at = ?";
    }
    IdWhere();
    SoftDeleteText(table);
  }

  lemma SoftDeleteText(table: string)
    ensures "UPDATE " + table + " SET " + "is_active = ?, updated_at = ?" + " WHERE " + "id = ?"
         == "UPDATE " + table + " SET is_active = ?, updated_at = ?" + " WHERE id = ?"
  {
    var a := " SET " + "is_active = ?, updated_at = ?";
    var b := " WHERE " + "id = ?";
    SetClauseText();
    WhereClauseText();
    assert "UPDATE " + table + " SET " + "is_active = ?, updated_at = ?" + " WHERE " + "id = ?"
        == "UPDATE " + table + a + b;
  }

  lemma SetClauseText()
    ensures " SET " + "is_active = ?, updated_at = ?" == " SET is_active = ?, updated_at = ?"
  {
  }

  lemma WhereClauseText()
    ensures " WHERE " + "id = ?" == " WHERE id = ?"
  {
  }

  /** A soft delete is an `UPDATE`, never a `DELETE`. */
  lemma SoftDeleteIsUpdate(table: string, id: JsValue, now: JsValue)
    ensures !StartsWith(Render(SoftDelete(table, id, now).sql), "DELETE")
  {
    var text := Render(SoftDelete(table, id, now).sql);
    assert text[0] == 'U';
  }

  function DeleteFont(id: int, now: JsValue): (st: Statement)
    ensures st == SoftDelete("fonts", JsNumber(id as real), now)
    ensures !StartsWith(Render(st.sql), "DELETE")
  {
    SoftDeleteIsUpdate("fonts", JsNumber(id as real), now);
    SoftDelete("fonts", JsNumber(id as real), now)
  }

  function DeleteColor(id: int, now: JsValue): (st: Statement)
    ensures st == SoftDelete("colors", JsNumber(id as real), now)
    ensures !StartsWith(Render(st.sql), "DELETE")
  {
    SoftDeleteIsUpdate("colors", JsNumber(id as real), now);
    SoftDelete("colors", JsNumber(id as real), now)
  }
}

=== FILE: text.dfy ===
/** String operations of the JavaScript runtime that the dashboard relies on:
    whitespace, ASCII case mapping, `includes`, `lastIndexOf`, `trim`,
    `split`/`join`, and decimal / hexadecimal rendering of integers. */
module Text {

  /** JavaScript whitespace as `\s`, `trim` and `parseInt` see it
      (the WhiteSpace and LineTerminator productions of ECMA-262). */
  predicate IsSpace(c: char) {
    || c == ' ' || c == '\t' || c == '\n' || c == '\U{000B}' || c == '\U{000C}' || c == '\r'
    || c == '\U{00A0}' || c == '\U{1680}' || ('\U{2000}' <= c <= '\U{200A}')
    || c == '\U{2028}' || c == '\U{2029}' || c == '\U{202F}' || c == '\U{205F}'
    || c == '\U{3000}' || c == '\U{FEFF}'
  }

  predicate IsUpper(c: char) { 'A' <= c <= 'Z' }
  predicate IsLower(c: char) { 'a' <= c <= 'z' }
  predicate IsDigit(c: char) { '0' <= c <= '9' }
  predicate IsAlnum(c: char) { IsUpper(c) || IsLower(c) || IsDigit(c) }
  predicate IsHexDigitLower(c: char) { IsDigit(c) || 'a' <= c <= 'f' }

  function LowerChar(c: char): (d: char)
    ensures IsUpper(c) ==> d as int == c as int + 32 && IsLower(d)
    ensures !IsUpper(c) ==> d == c
  {
    if IsUpper(c) then (c as int + 32) as char else c
  }

  function UpperChar(c: char): (d: char)
    ensures IsLower(c) ==> d as int == c as int - 32 && IsUpper(d)
    ensures !IsLower(c) ==> d == c
  {
    if IsLower(c) then (c as int - 32) as char else c
  }

  /** `toLowerCase`, restricted to the ASCII letters. */
  function ToLower(s: string): (r: string)
    ensures |r| == |s|
    ensures forall i :: 0 <= i < |s| ==> r[i] == LowerChar(s[i])
  {
    seq(|s|, i requires 0 <= i < |s| => LowerChar(s[i]))
  }

  /** Lower-casing commutes with taking a suffix. */
  lemma ToLowerSuffix(s: string, k: nat)
    requires k <= |s|
    ensures ToLower(s)[k..] == ToLower(s[k..])
  {
    var a, b := ToLower(s)[k..], ToLower(s[k..]);
    assert |a| == |b|;
    forall i | 0 <= i < |a|
      ensures a[i] == b[i]
    {
      assert a[i] == LowerChar(s[k + i]);
    }
  }

  lemma ToLowerAppend(a: string, b: string)
    ensures ToLower(a + b) == ToLower(a) + ToLower(b)
  {
    assert forall i :: 0 <= i < |a + b| ==> ToLower(a + b)[i] == (ToLower(a) + ToLower(b))[i];
  }

  predicate StartsWith(s: string, p: string) {
    |p| <= |s| && s[..|p|] == p
  }

  predicate EndsWith(s: string, p: string) {
    |p| <= |s| && s[|s| - |p|..] == p
  }

  predicate OccursAt(h: string, n: string, i: int) {
    0 <= i && i + |n| <= |h| && h[i..i + |n|] == n
  }

  /** `h.includes(n)`: scan for the first start position where `n` is a prefix. */
  predicate Includes(h: string, n: string)
    decreases |h|
  {
    StartsWith(h, n) || (|h| > 0 && Includes(h[1..], n))
  }

  /** `includes` agrees with the positional definition of a substring, in both directions. */
  lemma {:induction false} IncludesIffOccurs(h: string, n: string)
    ensures Includes(h, n) <==> exists i :: OccursAt(h, n, i)
    decreases |h|
  {
    if StartsWith(h, n) {
      assert OccursAt(h, n, 0);
    } else if |h| == 0 {
    } else {
      IncludesIffOccurs(h[1..], n);
      if exists i :: OccursAt(h[1..], n, i) {
        var i :| OccursAt(h[1..], n, i);
        assert h[1..][i..i + |n|] == h[i + 1..i + 1 + |n|];
        assert OccursAt(h, n, i + 1);
      }
      if exists i :: OccursAt(h, n, i) {
        var i :| OccursAt(h, n, i);
        assert i > 0;
        assert h[1..][i - 1..i - 1 + |n|] == h[i..i + |n|];
        assert OccursAt(h[1..], n, i - 1);
      }
    }
  }

  /** The empty search term is found in every string. */
  lemma IncludesEmpty(h: string)
    ensures Includes(h, "")
  {
    assert StartsWith(h, "");
  }

  /** `s.lastIndexOf(c)` for a one-character needle; -1 when absent. */
  function LastIndexOf(s: string, c: char): (r: int)
    ensures -1 <= r < |s|
    ensures r >= 0 ==> s[r] == c
    ensures forall j :: r < j < |s| ==> s[j] != c
    decreases |s|
  {
    if |s| == 0 then -1
    else if s[|s| - 1] == c then |s| - 1
    else LastIndexOf(s[..|s| - 1], c)
  }

  /** `s.toLowerCase().substring(s.lastIndexOf('.') + 1)`: the lower-cased text
      after the last dot, or the whole lower-cased name when there is no dot.
      The same value is `s.split('.').pop().toLowerCase()`. */
  function FinalExtension(s: string): (ext: string)
    ensures '.' !in ext
    ensures '.' !in s ==> ext == ToLower(s)
    ensures '.' in s ==> EndsWith(ToLower(s), "." + ext)
  {
    var k := LastIndexOf(s, '.');
    ToLower(s)[k + 1..]
  }

  function TrimStart(s: string): (r: string)
    ensures |r| <= |s| && r == s[|s| - |r|..]
    ensures |r| > 0 ==> !IsSpace(r[0])
    ensures forall i :: 0 <= i < |s| - |r| ==> IsSpace(s[i])
    decreases |s|
  {
    if |s| > 0 && IsSpace(s[0]) then TrimStart(s[1..]) else s
  }

  /** Leading whitespace followed by text that does not start with whitespace
      trims to that text. */
  lemma {:induction false} TrimStartSkipsSpaces(w: string, y: string)
    requires forall i :: 0 <= i < |w| ==> IsSpace(w[i])
    requires |y| > 0 ==> !IsSpace(y[0])
    ensures TrimStart(w + y) == y
    decreases |w|
  {
    if |w| == 0 {
      assert w + y == y;
    } else {
      assert (w + y)[0] == w[0];
      assert (w + y)[1..] == w[1..] + y;
      TrimStartSkipsSpaces(w[1..], y);
    }
  }

  function TrimEnd(s: string): (r: string)
    ensures |r| <= |s| && r == s[..|r|]
    ensures |r| > 0 ==> !IsSpace(r[|r| - 1])
    ensures forall i :: |r| <= i < |s| ==> IsSpace(s[i])
    decreases |s|
  {
    if |s| > 0 && IsSpace(s[|s| - 1]) then TrimEnd(s[..|s| - 1]) else s
  }

  /** `trim`: the infix left after removing the whitespace at both ends. */
  function Trim(s: string): (r: string)
    ensures |r| > 0 ==> !IsSpace(r[0]) && !IsSpace(r[|r| - 1])
    ensures exists a :: InfixAt(r, s, a)
  {
    var t := TrimStart(s);
    var r := TrimEnd(t);
    assert InfixAt(r, s, |s| - |t|);
    r
  }

  /** Text with no whitespace at either end trims to itself. */
  lemma TrimUnpadded(s: string)
    requires |s| > 0 && !IsSpace(s[0]) && !IsSpace(s[|s| - 1])
    ensures Trim(s) == s
  {
    assert TrimStart(s) == s;
  }

  predicate InfixAt(r: string, s: string, a: int) {
    0 <= a && a + |r| <= |s| && r == s[a..a + |r|]
  }

  /** A string trims to empty exactly when every character is whitespace. */
  lemma TrimEmptyIffAllSpace(s: string)
    ensures Trim(s) == "" <==> forall i :: 0 <= i < |s| ==> IsSpace(s[i])
  {
    var t := TrimStart(s);
    if Trim(s) == "" {
      assert |t| == 0;
    }
  }

  /** `s.split(c)` for a one-character separator. */
  function Split(s: string, c: char): (parts: seq<string>)
    ensures |parts| >= 1
    ensures forall i :: 0 <= i < |parts| ==> c !in parts[i]
    decreases |s|
  {
    if |s| == 0 then [""]
    else
      var rest := Split(s[1..], c);
      if s[0] == c then [""] + rest else [[s[0]] + rest[0]] + rest[1..]
  }

  /** `parts.join(c)` for a one-character separator (the array is never empty here). */
  function Join(parts: seq<string>, c: char): string
    requires |parts| >= 1
    decreases |parts|
  {
    if |parts| == 1 then parts[0] else parts[0] + [c] + Join(parts[1..], c)
  }

  /** Splitting and joining on the same character gives the string back. */
  lemma {:induction false} JoinSplit(s: string, c: char)
    ensures Join(Split(s, c), c) == s
    decreases |s|
  {
    if |s| > 0 {
      var rest := Split(s[1..], c);
      JoinSplit(s[1..], c);
      if s[0] == c {
        assert Split(s, c)[1..] == rest;
        assert s == [c] + s[1..];
      } else if |rest| == 1 {
        assert s == [s[0]] + s[1..];
      } else {
        var parts := Split(s, c);
        assert parts[1..] == rest[1..];
        assert Join(rest, c) == rest[0] + [c] + Join(rest[1..], c);
        assert s == [s[0]] + s[1..];
      }
    }
  }

  /** Joining separator-free parts and splitting again gives the parts back. */
  lemma {:induction false} SplitJoin(parts: seq<string>, c: char)
    requires |parts| >= 1
    requires forall i :: 0 <= i < |parts| ==> c !in parts[i]
    ensures Split(Join(parts, c), c) == parts
    decreases |parts|, |parts[0]|
  {
    if |parts| == 1 {
      SplitNoSeparator(parts[0], c);
    } else if |parts[0]| == 0 {
      SplitJoin(parts[1..], c);
      var s := Join(parts, c);
      assert s == [c] + Join(parts[1..], c);
      assert s[1..] == Join(parts[1..], c);
      assert parts == [""] + parts[1..];
    } else {
      var p0 := parts[0];
      var shorter := [p0[1..]] + parts[1..];
      SplitJoin(shorter, c);
      var s := Join(parts, c);
      assert shorter[1..] == parts[1..];
      assert Join(shorter, c) == p0[1..] + [c] + Join(parts[1..], c);
      assert s == [p0[0]] + Join(shorter, c);
      assert s[1..] == Join(shorter, c);
      assert p0 == [p0[0]] + p0[1..];
      assert parts == [p0] + shorter[1..];
    }
  }

  /** The last piece of `s.split(c)` is the text after the last `c`. */
  lemma {:induction false} SplitLastPart(s: string, c: char)
    ensures var parts := Split(s, c); parts[|parts| - 1] == s[LastIndexOf(s, c) + 1..]
    decreases |s|
  {
    if |s| > 0 {
      var t := s[1..];
      var rest := Split(t, c);
      var parts := Split(s, c);
      var k := LastIndexOf(t, c);
      SplitLastPart(t, c);
      LastIndexOfTail(s, c);
      SplitFirst(s, c);
      if k < 0 {
        assert c !in t;
        SplitNoSeparator(t, c);
        if s[0] == c {
          assert parts == [""] + [t];
        } else {
          assert parts == [[s[0]] + t];
          assert s == [s[0]] + t;
        }
      } else {
        assert t[k + 1..] == s[k + 2..];
        if s[0] == c {
          assert parts == [""] + rest;
        } else {
          assert |rest| > 1 by {
            if |rest| == 1 {
              JoinSplit(t, c);
              assert t[k] == c;
            }
          }
          assert parts[|parts| - 1] == rest[|rest| - 1];
        }
      }
    } else {
      assert Split(s, c) == [""];
      assert LastIndexOf(s, c) == -1;
    }
  }

  lemma SplitFirst(s: string, c: char)
    requires |s| > 0
    ensures var rest := Split(s[1..], c);
      Split(s, c) == if s[0] == c then [""] + rest else [[s[0]] + rest[0]] + rest[1..]
  {
  }

  /** `lastIndexOf` seen from the second character on. */
  lemma LastIndexOfTail(s: string, c: char)
    requires |s| > 0
    ensures var k := LastIndexOf(s[1..], c);
      LastIndexOf(s, c) == (if k >= 0 then k + 1 else if s[0] == c then 0 else -1)
  {
    var k := LastIndexOf(s[1..], c);
    var r := LastIndexOf(s, c);
    if k >= 0 {
      assert s[k + 1] == c;
    } else if s[0] == c {
      assert forall j :: 0 < j < |s| ==> s[j] == s[1..][j - 1];
    } else {
      assert forall j :: 0 < j < |s| ==> s[j] == s[1..][j - 1];
    }
  }

  lemma {:induction false} SplitNoSeparator(s: string, c: char)
    requires c !in s
    ensures Split(s, c) == [s]
    decreases |s|
  {
    if |s| > 0 {
      SplitNoSeparator(s[1..], c);
      assert s == [s[0]] + s[1..];
    }
  }

  /** `parts.join(sep)` for an arbitrary array and separator string. */
  function JoinWith(parts: seq<string>, sep: string): string
    decreases |parts|
  {
    if |parts| == 0 then ""
    else if |parts| == 1 then parts[0]
    else parts[0] + sep + JoinWith(parts[1..], sep)
  }

  /** An array of `n` copies of `s` (`xs.map(() => s)` for an `xs` of length n). */
  function Repeat(s: string, n: nat): (r: seq<string>)
    ensures |r| == n
    ensures forall i :: 0 <= i < n ==> r[i] == s
  {
    seq(n, _ => s)
  }

  /** Number of occurrences of a character. */
  function Count(s: string, c: char): nat
    decreases |s|
  {
    if |s| == 0 then 0 else (if s[0] == c then 1 else 0) + Count(s[1..], c)
  }

  lemma {:induction false} CountAppend(a: string, b: string, c: char)
    ensures Count(a + b, c) == Count(a, c) + Count(b, c)
    decreases |a|
  {
    if |a| > 0 {
      CountAppend(a[1..], b, c);
      assert (a + b)[0] == a[0];
      assert (a + b)[1..] == a[1..] + b;
    } else {
      assert a + b == b;
    }
  }

  lemma {:induction false} CountAbsent(s: string, c: char)
    requires c !in s
    ensures Count(s, c) == 0
    decreases |s|
  {
    if |s| > 0 {
      CountAbsent(s[1..], c);
    }
  }

  /** The character count of a join adds the counts of the parts and of the separators. */
  lemma {:induction false} CountJoinWith(parts: seq<string>, sep: string, c: char, each: nat)
    requires forall i :: 0 <= i < |parts| ==> Count(parts[i], c) == each
    requires Count(sep, c) == 0
    ensures Count(JoinWith(parts, sep), c) == |parts| * each
    decreases |parts|
  {
    if |parts| > 1 {
      CountJoinWith(parts[1..], sep, c, each);
      CountAppend(parts[0], sep, c);
      CountAppend(parts[0] + sep, JoinWith(parts[1..], sep), c);
      assert Count(JoinWith(parts, sep), c) == each + (|parts| - 1) * each;
      MulSucc(|parts| - 1, each);
    }
  }

  /** One more part of `each` adds `each`. */
  lemma MulSucc(n: nat, each: nat)
    ensures n * each + each == (n + 1) * each
  {
  }

  function DigitChar(d: nat): (c: char)
    requires d < 16
    ensures IsHexDigitLower(c)
  {
    "0123456789abcdef"[d]
  }

  function DigitValue(c: char): nat
  {
    if IsDigit(c) then c as int - '0' as int
    else if 'a' <= c <= 'f' then c as int - 'a' as int + 10
    else 0
  }

  lemma DigitRoundTrip(d: nat)
    requires d < 16
    ensures DigitValue(DigitChar(d)) == d
  {
  }

  /** `n.toString(base)` for a natural number, base 10 or 16. */
  function NatToString(n: nat, base: nat): (s: string)
    requires base == 10 || base == 16
    ensures |s| >= 1
    ensures forall i :: 0 <= i < |s| ==> IsHexDigitLower(s[i])
    ensures base == 10 ==> forall i :: 0 <= i < |s| ==> IsDigit(s[i])
    decreases n
  {
    if n < base then [DigitChar(n)] else NatToString(n / base, base) + [DigitChar(n % base)]
  }

  /** The value of a digit string read in the given base. */
  function DigitsValue(s: string, base: nat): nat
    decreases |s|
  {
    if |s| == 0 then 0 else DigitsValue(s[..|s| - 1], base) * base + DigitValue(s[|s| - 1])
  }

  /** Reading back a rendered natural number gives the number. */
  lemma {:induction false} NatToStringRoundTrip(n: nat, base: nat)
    requires base == 10 || base == 16
    ensures DigitsValue(NatToString(n, base), base) == n
    decreases n
  {
    if n >= base {
      NatToStringRoundTrip(n / base, base);
      var s := NatToString(n, base);
      assert s[..|s| - 1] == NatToString(n / base, base);
      DigitRoundTrip(n % base);
    } else {
      DigitRoundTrip(n);
    }
  }

  /** `String(n)` for an integer-valued number. */
  function IntToString(n: int): (s: string)
    ensures n >= 0 ==> s == NatToString(n, 10)
    ensures n < 0 ==> s == "-" + NatToString(-n, 10)
  {
    if n < 0 then "-" + NatToString(-n, 10) else NatToString(n, 10)
  }

  /** `s.padStart(2, '0')`. */
  function PadStart2(s: string): (r: string)
    ensures |s| < 2 ==> |r| == 2 && r[2 - |s|..] == s && forall i :: 0 <= i < 2 - |s| ==> r[i] == '0'
    ensures |s| >= 2 ==> r == s
  {
    if |s| >= 2 then s else seq(2 - |s|, _ => '0') + s
  }

  /** `n.toString(16).padStart(2, '0')` is the two lowercase hex digits of a byte. */
  lemma HexByteDigits(n: nat)
    requires n < 256
    ensures PadStart2(NatToString(n, 16)) == [DigitChar(n / 16), DigitChar(n % 16)]
  {
    if n < 16 {
      assert NatToString(n, 16) == [DigitChar(n)];
      assert DigitChar(0) == '0';
    } else {
      assert NatToString(n / 16, 16) == [DigitChar(n / 16)];
    }
  }

  /** `s.charAt(0).toUpperCase() + s.slice(1)`. */
  function Capitalize(s: string): (r: string)
    ensures |r| == |s|
    ensures |s| > 0 ==> r[0] == UpperChar(s[0]) && r[1..] == s[1..]
  {
    if |s| == 0 then "" else [UpperChar(s[0])] + s[1..]
  }
}

=== FILE: wrappers.dfy ===
/** The optional value used wherever the source has `undefined`, `null` or `NaN` for "no value". */
module Wrappers {
  datatype Option<T> = None | Some(value: T)
}
